=== FILE: README.md ===
# Tekton pipeline operator, modelled in Dafny

This project models the core logic of the OpenShift Tekton pipeline operator.
That operator is a Kubernetes controller that installs Tekton Pipelines, Tekton Triggers, an addon set of ClusterTasks and pipeline templates, and community tasks into a cluster, and keeps them there.

The model covers these parts:

- **Config reconciler** (`ConfigController`, `Ledger`).
  - It reads the newest condition of the `Config` resource and dispatches to one phase handler.
  - The phase order is apply pipeline, validate, apply triggers, validate, addons, community, installed.
  - Each handler records its outcome by prepending one condition to a newest-first ledger.
- **Document transformers and filters** from two generations of the manifestival library (`LegacyTransform`, `LegacyFilter`, `Predicates`, `Manifestival`) and from the operator (`Transforms`).
  - A document is a record with a JSON-like content tree (`Unstructured`).
- **Apply and delete semantics** of both manifestival generations and of the older YAML manifest (`LegacyManifest`, `YamlManifest`, `Manifestival`), including the recursive merge `UpdateChanged` (`Merge`).
  - These run against an abstract API server (`Cluster`): a map from (kind, namespace, name) to an object.
  - A fixed table of injected failures plays the part of the server's errors, and a trace of the calls made is kept.
- **Deployment readiness checks** (`Readiness`).
- **Legacy install controller** (`InstallController`), its extension hooks (`InstallCommon`) and `UpdateConfigMap`.
- **Addon pipeline-template generator** (`Addons`).
- **RBAC controller**, which gives every namespace a `pipeline` service account bound to the `edit` ClusterRole (`Rbac`).
- **Namespace exclusion list** (`Exclusion`).

Whatever the operator only reaches through a client becomes a parameter or part of the abstract cluster. This covers the API server, regular expressions, image and label helpers whose bodies are not shown, the patch library and the environment.

## Model

| member | source | states |
|---|---|---|
| Common.IgnoreNotFound | pkg/controller/rbac/rbac_controller.go:80-90 | a NotFound error reads as success and every other error, or nil, comes back unchanged |
| Unstructured.ClusterScopeIgnoresCase | vendor/github.com/jcrossley3/manifestival/transform.go:72-98 | whether a kind is cluster-scoped does not depend on the letter case it is written in |
| Unstructured.ClusterScopedExamples | vendor/github.com/jcrossley3/manifestival/transform.go:72-98 | "Namespace" is cluster-scoped in either case, "Deployment" is not |
| Merge.UpdateChanged | vendor/github.com/jcrossley3/manifestival/manifestival.go:141-159 | the merge reports a change exactly when the merged target differs from the target it was given (or it panics on an object over a scalar) |
| Merge.MergeField | vendor/github.com/jcrossley3/manifestival/manifestival.go:143-156 | an unchanged entry keeps the target value, a changed one differs from it, and a non-object source value is the new entry |
| Merge.UpdateChangedEffect | vendor/github.com/jcrossley3/manifestival/manifestival.go:141-159 | keys the source does not set survive untouched, scalar source values land in the target, object values are copied onto nil entries and merged recursively into object entries, and no other key appears |
| Merge.MergeSelf | vendor/github.com/jcrossley3/manifestival/manifestival.go:141-159 | merging an object into an equal target reports no change and leaves it as it is |
| Merge.MergeIdempotent | vendor/github.com/jcrossley3/manifestival/manifestival.go:141-159 | merging the same source into the merged target a second time reports no change: an applied manifest is updated at most once |
| LegacyTransform.Transform | vendor/github.com/jcrossley3/manifestival/transform.go:20-35 | a pass that completes yields at most as many documents as went in |
| LegacyTransform.TransformPanics | vendor/github.com/jcrossley3/manifestival/transform.go:20-35 | a pass panics exactly when the transformer chain panics on one of its documents |
| LegacyTransform.TransformProvenance | vendor/github.com/jcrossley3/manifestival/transform.go:20-35 | every survivor of a completed pass is the chain's output for some input document |
| LegacyTransform.TransformKeepsAll | vendor/github.com/jcrossley3/manifestival/transform.go:20-35 | when the chain keeps every document, the pass completes and the i-th output is the chain's output for the i-th input |
| LegacyTransform.TransformAppend | vendor/github.com/jcrossley3/manifestival/transform.go:20-35 | transforming a concatenation transforms each part: survivors keep their relative order, and a panic in either part is a panic of the whole |
| LegacyTransform.ChainAppend | vendor/github.com/jcrossley3/manifestival/transform.go:25-30 | running a list of transformers and then another is running the joined list; a nil or a panic stops the chain |
| LegacyTransform.TransformCompose | vendor/github.com/jcrossley3/manifestival/transform.go:20-35 | two transform passes equal one pass with the transformer lists joined, panics included |
| LegacyTransform.ResolveEnv | vendor/github.com/jcrossley3/manifestival/transform.go:100-105 | "$NAME" with a non-empty name reads the environment (unset reads as ""), anything else is returned as is |
| LegacyTransform.InjectNamespaceDoc | vendor/github.com/jcrossley3/manifestival/transform.go:38-58 | Namespace documents are dropped (in any letter case); a ClusterRoleBinding without a subjects list panics; namespaced kinds move to the namespace, cluster-scoped ones keep theirs; only ClusterRoleBinding subjects that already name a namespace are moved; nothing else changes |
| LegacyTransform.InjectNamespaceIdempotent | vendor/github.com/jcrossley3/manifestival/transform.go:38-58 | injecting the same namespace twice is injecting it once |
| LegacyTransform.InjectNamespaceManifest | vendor/github.com/jcrossley3/manifestival/transform.go:20-58 | the pass panics exactly when the manifest holds a ClusterRoleBinding without subjects; otherwise the result holds no Namespace, every namespaced document lies in the resolved namespace, and exactly the Namespace documents are gone |
| LegacyTransform.InjectOwnerDoc | vendor/github.com/jcrossley3/manifestival/transform.go:60-70 | a namespaced document gets exactly the controller reference to the owner; a cluster-scoped one is left alone |
| LegacyTransform.InjectOwnerManifest | vendor/github.com/jcrossley3/manifestival/transform.go:20-70 | the owner pass keeps every document in place under the same key, and a second pass changes nothing |
| LegacyFilter.PureChain | vendor/github.com/jcrossley3/manifestival/filter.go:18-32 | with filter functions that do not rewrite, a document passes exactly when every function keeps it |
| LegacyFilter.ChainNeverPanics | vendor/github.com/jcrossley3/manifestival/filter.go:18-32 | a chain of filter functions keeps or rejects a document and never panics |
| LegacyFilter.FilterNeverPanics | vendor/github.com/jcrossley3/manifestival/filter.go:18-32 | a filter pass over any manifest completes |
| LegacyFilter.FilterKeepsExactly | vendor/github.com/jcrossley3/manifestival/filter.go:18-32 | with non-rewriting functions, the filtered manifest holds exactly the documents every function accepts, in manifest order |
| LegacyFilter.ByNamespaceAgrees | vendor/github.com/jcrossley3/manifestival/filter.go:34-44 | outside ClusterRoleBindings, filtering by namespace does to each document what injecting that namespace does |
| LegacyFilter.ByOwnerAgrees | vendor/github.com/jcrossley3/manifestival/filter.go:46-56 | filtering by owner keeps every document and rewrites it as injecting the owner does |
| LegacyFilter.ByOlm | vendor/github.com/jcrossley3/manifestival/filter.go:58-66 | a document is rejected exactly when its kind, in any letter case, is one of the seven kinds the Operator Lifecycle Manager owns; it is never rewritten |
| LegacyFilter.FilterByOlm | vendor/github.com/jcrossley3/manifestival/filter.go:18-66 | filtering by OLM keeps exactly the documents whose kind OLM does not own |
| LegacyManifest.Get | vendor/github.com/jcrossley3/manifestival/manifestival.go:112-124 | the read is recorded; it fails exactly when the server returns an error other than NotFound, finds the stored object exactly when there is no fault and the key is stored, and reads NotFound as absent |
| LegacyManifest.Apply | vendor/github.com/jcrossley3/manifestival/manifestival.go:60-80 | only the document's key is touched; an absent object is read then created; an unchanged merge makes no write; a type mismatch panics; after a normal end over a live object the stored object is the merge of the document into it, and it already holds every field the manifest sets |
| LegacyManifest.ApplyTwice | vendor/github.com/jcrossley3/manifestival/manifestival.go:60-80 | applying the same document again after a successful apply only reads |
| LegacyManifest.ApplyKeepsUnsetFields | vendor/github.com/jcrossley3/manifestival/manifestival.go:60-80 | a top-level field the document does not set, such as a live binding's subjects, is left as it is by a successful apply |
| LegacyManifest.ApplyKeepsLiveOwners | vendor/github.com/jcrossley3/manifestival/manifestival.go:60-80 | a document without owner references applied over a live object keeps the live owner references |
| LegacyManifest.ApplyAll | vendor/github.com/jcrossley3/manifestival/manifestival.go:51-58 | objects outside the manifest's keys are untouched, nothing is removed, and after a normal end every key of the manifest is stored |
| LegacyManifest.Delete | vendor/github.com/jcrossley3/manifestival/manifestival.go:97-110 | the key is removed or nothing changes; NotFound is never returned; with no fault on the key it ends without error and the key is gone, and an absent object is only read |
| LegacyManifest.DeleteAll | vendor/github.com/jcrossley3/manifestival/manifestival.go:82-95 | only the manifest's keys are removed, and with no fault on them it ends without error with all of them gone |
| LegacyManifest.DeleteAllAppend | vendor/github.com/jcrossley3/manifestival/manifestival.go:82-95 | deleting a + b deletes all of b first and only then, if that went without error, all of a: reverse manifest order |
| LegacyManifest.Find | vendor/github.com/jcrossley3/manifestival/manifestival.go:126-135 | nil exactly when no resource has this apiVersion, kind and name; otherwise the first such resource |
| YamlManifest.Pluralize | vendor/github.com/jcrossley3/manifestival/yaml/yaml.go:210-220 | the resource name is lower case and ends in "s": "es" after a final "s", "ies" in place of the "y" of a final "policy", "s" otherwise |
| YamlManifest.PluralizeIgnoresCase | vendor/github.com/jcrossley3/manifestival/yaml/yaml.go:210-220 | two kinds that differ only in letter case get the same resource name |
| YamlManifest.PluralizeDeployment | vendor/github.com/jcrossley3/manifestival/yaml/yaml.go:210-220 | Deployment is filed as "deployments" |
| YamlManifest.PluralizePolicy | vendor/github.com/jcrossley3/manifestival/yaml/yaml.go:215-216 | PodSecurityPolicy is filed as "podsecuritypolicies" |
| YamlManifest.PluralizeIngress | vendor/github.com/jcrossley3/manifestival/yaml/yaml.go:213-214 | Ingress is filed as "ingresses" |
| YamlManifest.ParseFilter | vendor/github.com/jcrossley3/manifestival/yaml/yaml.go:120-135 | the parsed manifest keeps exactly the documents the olm and override-namespace flags admit, in order, and everything when both flags are off |
| YamlManifest.Client | vendor/github.com/jcrossley3/manifestival/yaml/yaml.go:222-233 | the client fails exactly when the apiVersion does not parse; otherwise it addresses the pluralized kind in the document's namespace |
| YamlManifest.Prepare | vendor/github.com/jcrossley3/manifestival/yaml/yaml.go:40-51 | a cluster-scoped document is sent as written; a namespaced one gets exactly the owner's controller reference and, under override-namespace, the owner's namespace; nothing else changes |
| YamlManifest.ApplyOne | vendor/github.com/jcrossley3/manifestival/yaml/yaml.go:40-69 | only reads and creates are made, no stored object changes, only the document's key can appear; a client error is returned before any call; with no fault on the key the object ends up stored without error |
| YamlManifest.CreateIfAbsent | vendor/github.com/jcrossley3/manifestival/yaml/yaml.go:56-69 | an existing object is kept, a missing one is created, AlreadyExists reads as success; with no fault on the key it ends stored without error |
| YamlManifest.Apply | vendor/github.com/jcrossley3/manifestival/yaml/yaml.go:39-72 | only reads and creates are made and no stored object changes; after a normal end with no faults every prepared document's key is stored |
| YamlManifest.DeleteOne | vendor/github.com/jcrossley3/manifestival/yaml/yaml.go:81-97 | a client error is returned before any call; faults are never altered |
| YamlManifest.DeleteOneAgrees | vendor/github.com/jcrossley3/manifestival/yaml/yaml.go:81-97 | once the client resolves, one document is deleted exactly as the jcrossley3 Manifest.Delete deletes it |
| YamlManifest.Delete | vendor/github.com/jcrossley3/manifestival/yaml/yaml.go:74-100 | a normal end means every document's client resolved |
| YamlManifest.DeleteAgrees | vendor/github.com/jcrossley3/manifestival/yaml/yaml.go:74-100 | with resolvable clients, the reverse-order loop is exactly the jcrossley3 Manifest.DeleteAll |
| YamlManifest.DeleteClean | vendor/github.com/jcrossley3/manifestival/yaml/yaml.go:74-100 | with resolvable clients and no faults, deleting removes exactly the manifest's keys and ends without error |
| Predicates.Present | vendor/github.com/manifestival/manifestival/filter.go:20-21 | the predicates that take part are exactly the non-nil ones |
| Predicates.Filter | vendor/github.com/manifestival/manifestival/filter.go:15-30 | the result is no longer than the manifest, and a list of nil predicates keeps the manifest as it is |
| Predicates.NoFilterKeepsAll | vendor/github.com/manifestival/manifestival/filter.go:15-30 | filtering with no predicate keeps every resource in order |
| Predicates.ByName | vendor/github.com/manifestival/manifestival/filter.go:38-43 | accepts exactly the documents with that name and rewrites nothing |
| Predicates.ByKind | vendor/github.com/manifestival/manifestival/filter.go:45-50 | accepts exactly the documents of that kind, letter case included, and rewrites nothing |
| Predicates.ByLabel | vendor/github.com/manifestival/manifestival/filter.go:52-62 | with value "" the label only has to be present; otherwise it must hold exactly that value; nothing is rewritten |
| Predicates.ByGvk | vendor/github.com/manifestival/manifestival/filter.go:64-69 | accepts exactly the documents whose parsed group, version and kind equal the given ones |
| Predicates.Complement | vendor/github.com/manifestival/manifestival/filter.go:71-76 | accepts exactly what the inner predicate rejects |
| Predicates.FilterSelects | vendor/github.com/manifestival/manifestival/filter.go:15-30 | filtering with a predicate that only tests a condition keeps exactly the documents meeting it, in order |
| Predicates.FilterOne | vendor/github.com/manifestival/manifestival/filter.go:15-30 | filtering with one non-rewriting predicate selects, in order, what it accepts |
| Predicates.SelectPartition | vendor/github.com/manifestival/manifestival/filter.go:15-30 | a condition and its negation split a manifest: the sizes add up and every resource lands on exactly one side |
| Predicates.ComplementPartitions | vendor/github.com/manifestival/manifestival/filter.go:15-30 | filtering by a non-rewriting predicate and by its complement splits the manifest: sizes add up and the two results together are a permutation of it |
| Predicates.CrdsPartition | vendor/github.com/manifestival/manifestival/filter.go:32-36 | JustCRDs and NotCRDs split a manifest in two |
| Manifestival.Resources | vendor/github.com/manifestival/manifestival/manifestival.go:56-63 | the copy has the manifest's length and equal elements in the same positions |
| Manifestival.Append | pkg/controller/config/config_controller.go:574 | the joined manifest is this manifest's resources followed by the other's |
| Manifestival.Transform | pkg/controller/config/config_controller.go:560 | the call stops exactly when some resource's transformer chain returns an error or panics, and the first such resource in manifest order decides which; otherwise every resource is rewritten in place by its chain |
| Manifestival.Lift | pkg/utils/transform/transform.go:15-37 | a transformer that returns an error or nil becomes a rewrite that is refused with that error or completes with the document |
| Manifestival.TransformDocSplit | pkg/controller/config/config_controller.go:551-560 | running a chain is running its first transformers and then the rest on what they produced; a stop in the first part is the stop of the whole |
| Manifestival.Annotate | vendor/github.com/manifestival/manifestival/manifestival.go:155-162 | the key holds the value afterwards, every other annotation and field is kept, and no other key appears |
| Manifestival.OkToDelete | vendor/github.com/manifestival/manifestival/manifestival.go:164-170 | any kind but exactly "Namespace" may be deleted; a Namespace only when it is annotated manifestival="new" |
| Manifestival.ForCreate | vendor/github.com/manifestival/manifestival/manifestival.go:83-85 | the created document keeps its key and other annotations and carries the last-applied configuration and manifestival="new" |
| Manifestival.CreatedIsDeletable | vendor/github.com/manifestival/manifestival/manifestival.go:65-88 | a resource absent before a fault-free apply, and not named earlier in the manifest, is held afterwards with the last-applied and manifestival="new" annotations, so okToDelete allows it, Namespaces included |
| Manifestival.ApplyOne | vendor/github.com/manifestival/manifestival/manifestival.go:77-106 | only the document's key is touched and nothing is removed; without faults an absent object is created with the two annotations, a patch that is not required only reads, a required one stores the merged object |
| Manifestival.Apply | vendor/github.com/manifestival/manifestival/manifestival.go:65-73 | calls concern the manifest's keys only, nothing outside them changes, nothing is removed; a normal end leaves every key stored; the loop stops at the first error; the resources held afterwards are as many as before, under the same keys |
| Manifestival.ApplyAnnotates | vendor/github.com/manifestival/manifestival/manifestival.go:65-85 | each resource held afterwards is either the one given or that one with the two creation annotations |
| Manifestival.AnnotatesKeys | vendor/github.com/manifestival/manifestival/manifestival.go:82-85 | annotating leaves every resource's key as it was |
| Manifestival.ApplyCreatesFresh | vendor/github.com/manifestival/manifestival/manifestival.go:65-88 | after a fault-free apply, every resource absent before and not named earlier in the manifest is held in its annotated form |
| Manifestival.CreatedKeyDeletable | vendor/github.com/manifestival/manifestival/manifestival.go:82-88 | the key of a resource the apply created is among the keys Delete may remove afterwards |
| Manifestival.DeleteOne | vendor/github.com/manifestival/manifestival/manifestival.go:128-148 | only the document's key is touched, and only by removal; with no fault on it the key is gone and no error is returned |
| Manifestival.Deletable | vendor/github.com/manifestival/manifestival/manifestival.go:116-117 | the resources Delete may touch are exactly those okToDelete allows |
| Manifestival.Delete | vendor/github.com/manifestival/manifestival/manifestival.go:108-124 | the call never fails; it walks the resources last to first; only deletable keys are removed, and with no faults on them all of them are |
| Manifestival.DeleteAppend | vendor/github.com/manifestival/manifestival/manifestival.go:111-122 | the resources are deleted in reverse manifest order: deleting a joined list deletes the later part first, then the earlier part |
| Manifestival.DeleteLast | vendor/github.com/manifestival/manifestival/manifestival.go:112-122 | the first step of the walk is the last resource's, taken only when okToDelete allows it |
| Manifestival.DeleteReverseOrder | vendor/github.com/manifestival/manifestival/manifestival.go:112-122 | of two deletable resources, the second is deleted before the first |
| Manifestival.DeleteIfAllowed | vendor/github.com/manifestival/manifestival/manifestival.go:116-121 | one step of the loop is a removal confined to the document's key when okToDelete allows it and nothing otherwise |
| Manifestival.DeleteTrace | vendor/github.com/manifestival/manifestival/manifestival.go:108-124 | every call Delete makes concerns a deletable key |
| Manifestival.DeletableSnoc | vendor/github.com/manifestival/manifestival/manifestival.go:116-117 | the deletable part of a list grows by its last element exactly when that element is deletable |
| Transforms.InjectDefaultSAAsWritten | pkg/utils/transform/transform.go:14-38 | documents other than the config-defaults ConfigMap pass untouched; on config-defaults a field of the wrong type is the conversion error, a missing or null data panics, and otherwise the document is re-encoded as a ConfigMap with the account set in its data and every other data entry kept |
| Transforms.ConfigMapData | pkg/utils/transform/transform.go:23-27 | the data read back from the conversion is the document's data, null entries reading as ""; it is absent exactly when the document has no data or a null one |
| Transforms.Reencode | pkg/utils/transform/transform.go:30-35 | the re-encoded ConfigMap keeps the document's name, metadata and kind, holds the data given, keeps a boolean immutable and a non-empty binaryData, and drops every other top-level field |
| Transforms.InjectDefaultSARefusesMistypedData | pkg/utils/transform/transform.go:24-27 | a config-defaults whose data is a string is refused with the conversion error |
| Transforms.InjectDefaultSA | pkg/utils/transform/transform.go:14-38 | the transformer the operator installs is the as-written rewrite, panic included |
| Transforms.InjectDefaultSACorrected | pkg/utils/transform/transform.go:14-38 | the corrected transformer never panics and agrees with the as-written one wherever that does not panic |
| Transforms.InjectDefaultSAPanicsWithoutData | pkg/utils/transform/transform.go:23-29 | a config-defaults ConfigMap without data makes the transformer as written panic |
| Transforms.SetDefaultSA | pkg/utils/transform/transform.go:14-38 | on config-defaults the default-service-account entry holds the account afterwards, the other data entries are kept and no other entry appears, with the same conversion error and re-encoding as written; every other document is left as it was |
| Transforms.SetDefaultSAAgrees | pkg/utils/transform/transform.go:14-38 | wherever the transformer as written does not panic the corrected rewrite gives the same document, and it panics only on config-defaults without data |
| Transforms.SetDefaultSAIdempotent | pkg/utils/transform/transform.go:14-38 | naming the default service account twice is naming it once |
| Transforms.InjectNamespaceConditionalCases | pkg/utils/transform/transform.go:40-51 | a document annotated to keep its namespace with exactly "true" passes untouched; any other, including one without the annotation, goes through the namespace injector |
| Transforms.PreserveNeedsExactTrue | pkg/utils/transform/transform.go:43-46 | annotation values such as "True", "yes", "false" or "" do not keep the namespace |
| Transforms.InjectNamespaceConditionalExamples | pkg/utils/transform/transform_test.go:11-45 | with the preserve annotation a Deployment stays in "openshift"; without it it moves to "target" |
| Transforms.KindDoc | pkg/utils/transform/transform.go:53-68 | a document without a string kind is an error; one whose kind is exactly the old kind gets the new kind; any other is returned unchanged |
| Transforms.KindIdempotent | pkg/utils/transform/transform.go:53-68 | when the two kinds differ, renaming twice is renaming once and no document of the old kind remains |
| Readiness.GetDeploymentCondition | pkg/utils/validate/validate.go:55-63 | nil exactly when no condition has the type; otherwise the first condition of that type |
| Readiness.DeploymentReady | pkg/utils/validate/validate.go:23-53 | a missing Deployment is not ready and not an error, other lookup errors are returned, an unobserved generation is not ready, a passed progress deadline is an error naming the Deployment, and it is ready exactly when caught up, not past the deadline, and every desired replica is updated, no old one remains and every updated one is available |
| Readiness.ReadyMeansAvailable | pkg/utils/validate/validate.go:40-49 | a ready Deployment has at least as many available replicas as updated ones and as it asks for |
| Readiness.SettledDeploymentIsReady | pkg/utils/validate/validate.go:23-53 | a settled three-replica Deployment is ready; one with an unobserved generation is not; one past its deadline is an error |
| Readiness.LegacyDeploymentReady | pkg/controller/validate/validate.go:12-29 | lookup failures read as in the newer check; a nil spec.replicas panics; otherwise ready exactly when the available replicas equal the desired ones |
| Readiness.LegacyReadyImpliesReady | pkg/controller/validate/validate.go:12-29 | the two checks agree on lookup failures, and on a caught-up, fully updated Deployment the older check's ready implies the newer one's |
| Readiness.Webhook | pkg/utils/validate/validate.go:65-70 | found exactly when the lookup succeeded; NotFound is not an error; other errors are returned |
| Readiness.Crd | pkg/utils/validate/validate.go:72-80 | a client construction error is returned as it is and means not found; otherwise it reads like the webhook check |
| Ledger.InstallStatus | pkg/apis/operator/v1alpha1/config_types.go:14-24 | the installation's state is the code of the newest condition, the ledger being kept newest first; an empty ledger is the empty status |
| Ledger.Prepend | pkg/controller/config/config_controller.go:752-754 | a status write records the running operator's UUID and puts the new condition in front of the whole old ledger, which survives unchanged behind it |
| Ledger.PrependSetsState | pkg/controller/config/config_controller.go:746-766 | after a status write the state the next reconcile dispatches on is the code just written, and the config is up to date with the version written |
| Ledger.PrependKeepsHistory | pkg/apis/operator/v1alpha1/config_types.go:22-23 | after any number of successive status writes the conditions written come first, newest first, and the original ledger follows as the oldest entries |
| Ledger.UpToDateExamples | pkg/apis/operator/v1alpha1/config_types_test.go:7-85 | a ready or error head at v0.6.0 is up to date with v0.6.0; a v0.6.0 head is not up to date with v0.7.0; an empty ledger is up to date with nothing |
| Ledger.InstallingInstalledExamples | pkg/apis/operator/v1alpha1/config_types_test.go:87-136 | an installing head at v0.6.0 is installing; an installed head over an installing one is installed |
| Ledger.InstalledIsUpToDate | pkg/apis/operator/v1alpha1/config_types.go:68-69 | an installed config is up to date with its version, reports the installed state and is not installing |
| Exclusion.ExcludedIffSome | pkg/exclusion/exclusion.go:7-15 | the deny-list excludes a namespace exactly when some entry matches it as a pattern or equals it |
| Exclusion.IsNamespaceExcluded | pkg/exclusion/exclusion.go:7-15 | the in-order scan answers true exactly when some entry matches the namespace or equals it, agreeing with the reference definition |
| Exclusion.ExclusionIgnoresOrder | pkg/exclusion/exclusion.go:8-14 | two lists holding the same entries, in whatever order or multiplicity, give the same verdict |
| Exclusion.ExclusionGrows | pkg/exclusion/exclusion.go:8-14 | adding entries before or after an excluding list keeps the namespace excluded |
| Exclusion.ExactNameExcluded | pkg/exclusion/exclusion_test.go:32-35 | a list naming the namespace outright excludes it whatever the pattern engine says about the other entry |
| Rbac.HasSubject | pkg/controller/rbac/rbac_controller.go:219-226 | true exactly when some subject agrees with the wanted one on name, kind and namespace |
| Rbac.StringField | pkg/controller/rbac/rbac_controller.go:159 | a JSON field read into a Go string: absent or null gives "", a string is taken as it is, any other value fails |
| Rbac.DecodeSubject | pkg/controller/rbac/rbac_controller.go:159 | the typed read of one subject: null is the zero subject; an object gives its kind, API group, name and namespace, each read as a Go string; anything else fails |
| Rbac.DecodeSubjects | pkg/controller/rbac/rbac_controller.go:159 | a list of subjects decodes exactly when every entry does, to the entries' decodings in order |
| Rbac.DecodeEncodeSubject | pkg/controller/rbac/rbac_controller.go:184-188 | decoding the stored form of a subject gives that subject back, API group included |
| Rbac.SubjectsOf | pkg/controller/rbac/rbac_controller.go:159 | an absent or null subjects field is the empty list, a list decodes entry by entry, and any other value fails |
| Rbac.SubjectsRoundTrip | pkg/controller/rbac/rbac_controller.go:209-210 | a RoleBinding whose subjects are replaced and stored reads back with exactly those subjects |
| Rbac.EnsureSA | pkg/controller/rbac/rbac_controller.go:129-152 | an existing service account is only read; a missing one is created with the flag's name in the namespace; another read error or a failed create is returned; only that key can change, and with no fault on it the account exists afterwards |
| Rbac.UpdateRoleBinding | pkg/controller/rbac/rbac_controller.go:197-217 | a binding that already lists the service account is left alone with no call; otherwise, when the update succeeds, the stored binding reads back with its decoded subjects, API groups included, followed by the service account, and its other fields are kept; no other object changes |
| Rbac.UpdateRoleBindingTwice | pkg/controller/rbac/rbac_controller.go:197-205 | after a successful update a second update finds the subject and makes no call |
| Rbac.EnsureRoleBindings | pkg/controller/rbac/rbac_controller.go:154-177 | a read error other than NotFound on the binding, or a binding whose subjects do not decode, is returned before the ClusterRole is read; any error on the "edit" ClusterRole is returned; on success the namespace's "edit" binding lists the service account; only that binding can change |
| Rbac.EnsureBoth | pkg/controller/rbac/rbac_controller.go:106-112 | the service account is ensured first and the binding only when that succeeded; on success both are in place and nothing else changed |
| Rbac.Reconcile | pkg/controller/rbac/rbac_controller.go:92-114 | an ignored namespace is left alone with no call; a namespace that cannot be read ends the pass, NotFound without error; on success the service account exists and the "edit" binding lists it; only those two objects can change |
| Rbac.PassSucceeds | pkg/controller/rbac/rbac_controller.go:92-177 | with no faults, the namespace and the "edit" ClusterRole present and any existing binding decodable, a pass succeeds and binds the service account |
| Rbac.SecondPassOnlyReads | pkg/controller/rbac/rbac_controller.go:92-205 | a pass over a namespace that is already set up only reads and leaves the store unchanged |
| InstallController.ResourceNames | pkg/controller/install/install_controller.go:242-255 | one "namespace/name : group/version, Kind=kind" line per resource in manifest order; an empty manifest leaves the list nil |
| InstallController.ResourceNamesExample | pkg/controller/install/install_controller.go:242-255 | a two-resource manifest lists its two resources in order |
| InstallController.ApplyAddon | pkg/controller/install/install_controller.go:198-202 | a transform panic ends the addon before any call; otherwise the transformed documents are applied, objects only being added or updated |
| InstallController.ApplyAddons | pkg/controller/install/install_controller.go:193-203 | each addon path is loaded, transformed and applied in order, and the first load or apply failure, or a transform panic, ends the loop; a normal end means every addon loaded; objects are only added or updated |
| InstallController.ApplyAddonsAppend | pkg/controller/install/install_controller.go:193-203 | the addons of a longer list run after those of its prefix, and only when the prefix ended normally |
| InstallController.InstallAsWritten | pkg/controller/install/install_controller.go:182-205 | a transform panic leaves the manifest and the cluster as they were; otherwise the manifest is transformed by owner then namespace and kept; without a transform error the install can fail only in the addon loop, so a failing core apply is not reported |
| InstallController.InstallManifest | pkg/controller/install/install_controller.go:182-205 | the corrected install: a transform panic leaves everything as it was; a transform or core apply failure is returned; a normal end means the core apply succeeded, every manifest resource exists and every addon loaded |
| InstallController.InstallDropsApplyError | pkg/controller/install/install_controller.go:191 | with no addons and a failing core apply, the code as written reports success while the corrected install reports the failure |
| InstallController.Reconcile | pkg/controller/install/install_controller.go:134-180 | a failed read other than NotFound is returned and nothing changes; an up-to-date Install gets no status; a status is written only after `install` as written reports no error, and it holds the current Tekton version and the resource names of the manifest kept |
| InstallController.Unfetched | pkg/controller/install/install_controller.go:141-157 | a failed read of the Install writes no status and keeps the manifest; an error other than NotFound is returned with nothing changed |
| InstallController.Record | pkg/controller/install/install_controller.go:165-177 | a status is written exactly when the install ended normally and the write succeeds, and it holds the current version and the manifest's resource names |
| InstallController.ReconcileCorrected | pkg/controller/install/install_controller.go:134-180 | on the corrected install, a status is written only over a manifest whose core apply succeeded and whose resources all exist |
| InstallController.ReconcileRecordsFailedApply | pkg/controller/install/install_controller.go:165-191 | as written, a pass whose core apply fails and which names no addons still records the new version and resource list and reports success; the corrected pass returns the failure and writes nothing |
| InstallController.MissingInstallDeletes | pkg/controller/install/install_controller.go:142-155 | a missing Install deletes the manifest's resources and nothing else, writes no status, and succeeds when no fault hits those keys |
| InstallController.UptodateIsLeftAlone | pkg/controller/install/install_controller.go:160-163 | an up-to-date Install is neither applied nor written |
| InstallController.InstalledStatusIsUptodateOnlyWhenEmpty | pkg/controller/install/install_controller.go:171-172 | the status a pass writes counts as up to date exactly when the manifest is empty, since any resource list makes the next pass install again |
| InstallCommon.Present | pkg/controller/install/common/extensions.go:45-47 | the extensions gathered are at most one per activity and each is one some activity returned |
| InstallCommon.PresentAppend | pkg/controller/install/common/extensions.go:40-48 | gathering over two lists of activities is gathering over each, in order |
| InstallCommon.Extend | pkg/controller/install/common/extensions.go:39-50 | no error exactly when every activity succeeds, and then every non-nil extension in order; otherwise the first failing activity's error with the extensions gathered before it |
| InstallCommon.AllTransformers | pkg/controller/install/common/extensions.go:57-59 | every transformer of every extension is in the list |
| InstallCommon.Transformers | pkg/controller/install/common/extensions.go:52-65 | the owner and namespace transformers first, then the extensions' transformers, then a closing no-op |
| InstallCommon.KeepAllChangesNothing | pkg/controller/install/common/extensions.go:61-64 | the closing no-op transformer leaves every manifest as it is |
| InstallCommon.ExtendedTransform | pkg/controller/install/common/extensions.go:52-65 | transforming with the extended list is transforming with owner and namespace first and the extensions' transformers after, a panic in either pass being a panic of the whole |
| InstallCommon.RunHooks | pkg/controller/install/common/extensions.go:69-73 | no error exactly when every hook succeeds; otherwise the error of the first failing hook, the hooks before it having succeeded |
| InstallCommon.RunHooksAppend | pkg/controller/install/common/extensions.go:69-73 | the hooks of a second list run only when the first list's all succeeded |
| InstallCommon.RunPhaseIsFlat | pkg/controller/install/common/extensions.go:67-87 | the pre- and post-install loops behave as one loop over all hooks of the phase in extension order, failing exactly when some hook fails |
| InstallCommon.NoHooksNoError | pkg/controller/install/common/extensions.go:67-87 | extensions without hooks for a phase make that phase succeed |
| InstallCommon.UpdateConfigMap | pkg/controller/install/common/helpers.go:25-36 | afterwards the ConfigMap's data holds every given entry over the old ones; only missing or different keys are written; nothing else changes, and the ConfigMap is untouched exactly when nothing is written |
| InstallCommon.UpdateConfigMapIdempotent | pkg/controller/install/common/helpers.go:25-36 | writing the same data again writes nothing and leaves the ConfigMap as it is |
| Addons.Nested | pkg/utils/addons/addons.go:32 | an empty path finds the value itself |
| Addons.NestedTwo | pkg/utils/addons/addons.go:113-121 | a two-step lookup finds a value exactly when both steps pass through objects, and finds the inner field |
| Addons.SetInReadBack | pkg/utils/addons/addons.go:148-154 | a field set under an existing object reads back as the value set, and its siblings read as before |
| Addons.DeployTask | pkg/utils/addons/addons.go:48-88 | a rewritten deploy task keeps every field the rewrite does not set and gains exactly the rewrite's fields: it runs after "build", uses the "kn" ClusterTask for Knative and "openshift-client" otherwise, and is renamed "kn-service-create" for Knative |
| Addons.DeployValues | pkg/utils/addons/addons.go:48-88 | the values a rewrite sets name exactly its fields, run after "build" and refer to the right ClusterTask, and depend on nothing in the task |
| Addons.DeployTaskIdempotent | pkg/utils/addons/addons.go:48-88 | rewriting a deploy task twice is rewriting it once |
| Addons.Generate | pkg/utils/addons/addons.go:24-46 | tasks that are missing give an empty pipeline and no error; tasks that cannot be read give an empty pipeline and the lookup error; a non-empty pipeline comes with no error |
| Addons.GenerateEffect | pkg/utils/addons/addons.go:24-46 | a generated pipeline is its base with the environment label added and the suffixed name ("-pr" last with pipeline resources); only its deploy task is rewritten, and every other task, label, annotation and spec field is the base's |
| Addons.GenerateShape | pkg/utils/addons/addons.go:32-45 | a generated pipeline from a base with a task list is the base relabelled, renamed and with its deploy task rewritten in place |
| Addons.DeployRewritten | pkg/utils/addons/addons.go:44 | rewriting the task at the deploy index changes that task only and leaves the other spec fields as they were |
| Addons.GenerateAlike | pkg/utils/addons/addons.go:24-46 | whether generate panics, and which error it returns, depend on the base pipeline and not on the generator |
| Addons.GenerateEach | pkg/utils/addons/addons.go:157-163 | a loop over the generators that does not fail yields one pipeline per generator |
| Addons.GenerateEachPipeline | pkg/utils/addons/addons.go:157-163 | the loop's j-th pipeline is what the j-th generator makes of the base pipeline |
| Addons.GenerateEachFails | pkg/utils/addons/addons.go:157-163 | the loop panics exactly when its first generator does and fails exactly when that one returns an error, with that error |
| Addons.PrepareBase | pkg/utils/addons/addons.go:93-154 | missing pipeline parameters end generation with no error and unreadable ones with the lookup error; a prepared base is named after the runtime, carries its labels and has a task list |
| Addons.PrepareBaseEffect | pkg/utils/addons/addons.go:93-154 | a prepared base keeps its namespace by annotation and has the runtime's name and labels; its build task refers to the runtime's ClusterTask ("-pr" with pipeline resources) and its parameters end with the context, version and minor-version parameters; every other task is the template's |
| Addons.PreparedFrom | pkg/utils/addons/addons.go:130-152 | a template whose build task is rewritten in place and given the runtime's metadata is a prepared base |
| Addons.RuntimePipelines | pkg/utils/addons/addons.go:93-163 | one runtime's turn that does not fail yields one pipeline per generator |
| Addons.GenerateBasePipeline | pkg/utils/addons/addons.go:90-166 | an empty template panics once any runtime is visited |
| Addons.NoRuntimesNoPipelines | pkg/utils/addons/addons.go:90-166 | with no runtimes no pipeline is generated and nothing fails |
| Addons.GenerateBasePipelineCount | pkg/utils/addons/addons.go:90-166 | a template that yields pipelines yields one per runtime and generator |
| Addons.GenerateBasePipelineSplit | pkg/utils/addons/addons.go:93-164 | the pipelines for several runtimes are the first runtime's generator pipelines followed by those of the rest |
| Addons.GenerateBasePipelineLayout | pkg/utils/addons/addons.go:93-164 | the pipeline at position i times the number of generators plus j is generator j applied to runtime i's base pipeline |
| Addons.PipelineForIdentity | pkg/utils/addons/addons.go:24-46 | a generated pipeline is named for its runtime and generator suffix, "-pr" last with pipeline resources, and carries the generator's environment label over the runtime's labels |
| Addons.GeneratedNames | pkg/utils/addons/addons.go:90-166 | every pipeline one template yields is named for its runtime and generator |
| Addons.CreatePipelines | pkg/utils/addons/addons.go:168-209 | an unreadable workspace template is returned as the error; a result means both templates were read, and it is the workspace pipelines followed by the pipeline-resource ones |
| Addons.CreatedBlocks | pkg/utils/addons/addons.go:182-202 | when both templates yield pipelines, the result is the workspace pipelines followed by the pipeline-resource ones |
| Addons.CreatePipelinesLayout | pkg/utils/addons/addons.go:168-209 | when both templates yield pipelines there are six per runtime: first the workspace pipelines, named runtime plus suffix, then the pipeline-resource ones, named the same with "-pr" |
| Addons.CreatedNamesAt | pkg/utils/addons/addons.go:168-209 | the workspace and pipeline-resource pipelines of runtime i and generator j are at their computed positions with their names |
| ConfigController.WithManifest | pkg/controller/config/config_controller.go:281 | keeping a transformed manifest replaces that component's manifest only and leaves the other manifests and the versions alone |
| ConfigController.RestChain | pkg/controller/config/config_controller.go:551-559 | the transformers for everything but RoleBindings are the fixed five followed by the phase's own, the fourth being the default-service-account transformer as written |
| ConfigController.RestChainCorrected | pkg/controller/config/config_controller.go:551-559 | the same chain with the corrected default-service-account transformer, which never panics |
| ConfigController.RoleBindingSplit | pkg/controller/config/config_controller.go:549-550 | the two kind filters pick the RoleBindings and the other documents, each in manifest order, and together they account for every document |
| ConfigController.TransformManifest | pkg/controller/config/config_controller.go:548-575 | the non-RoleBindings are transformed first and the first of them to stop decides the outcome, an error or a panic; only if none stops does a stopping RoleBinding decide it; otherwise the result is every non-RoleBinding transformed by the long chain, in order, followed by every RoleBinding transformed by the short one |
| ConfigController.TransformParts | pkg/controller/config/config_controller.go:560-574 | the two transform passes over already split parts stop exactly when a document stops, the first part first, and on success hold each part's documents transformed in place |
| ConfigController.TransformedParts | pkg/controller/config/config_controller.go:574 | joining the two transformed parts puts each document's transform at its place |
| ConfigController.Wrap | pkg/controller/config/config_controller.go:292 | a wrapped error keeps its classification and carries the context in front of the original text |
| ConfigController.WaitGone | pkg/controller/config/config_controller.go:335-344 | the wait succeeds exactly when every document reads as NotFound; otherwise it ends with the first other read error or with the poll timeout; it only reads |
| ConfigController.DeletableKeys | vendor/github.com/manifestival/manifestival/manifestival.go:108-124 | the resources deletion picks are among the manifest's, and all of them when every one may be deleted |
| ConfigController.DeleteAndCreate | pkg/controller/config/config_controller.go:326-347 | delete, wait and apply again touch only the documents' keys, and a success leaves all of them present |
| ConfigController.RecreateClearsTheWay | pkg/controller/config/config_controller.go:330-344 | with no faults on their keys and no Namespace among them, the wait after deleting the Deployments and Services succeeds at once |
| ConfigController.RecreateSplit | pkg/controller/config/config_controller.go:283-294 | the two filters pick the Deployments and Services and everything else, in manifest order; their keys are disjoint and together the manifest's, and none of the first set is a Namespace |
| ConfigController.RecreateKeys | pkg/controller/config/config_controller.go:40 | the keys of the Deployments and Services and of the rest are disjoint and make up the manifest's keys |
| ConfigController.ApplyRecreated | pkg/controller/config/config_controller.go:294-314 | an update refused as invalid deletes and re-creates the Deployments and Services; any other failure is returned with its context; only their keys are touched and a success leaves them present |
| ConfigController.SplitApply | pkg/controller/config/config_controller.go:283-314 | every call about the non-Deployment, non-Service documents comes before every call about the Deployments and Services; only the manifest's keys are touched; a success leaves them all present; the error returned carries the recorded cause |
| ConfigController.Compose | pkg/controller/config/config_controller.go:283-314 | two steps over disjoint keys, run one after the other, touch only the union of their keys and call the API in that order |
| ConfigController.WholeApply | pkg/controller/config/config_controller.go:449-459 | the addons and community resources are applied in one call on the manifest held, which keeps the annotations of the resources it created; the addons failure gains context and the community failure is returned as it is |
| ConfigController.ApplyComponent | pkg/controller/config/config_controller.go:283-314 | applying a component touches only its manifest's keys and a success leaves all of them present; the pipeline and triggers apply filtered copies, so their manifest is held unchanged, while the addons and community manifests are held as the apply left them |
| ConfigController.UpdateStatus | pkg/controller/config/config_controller.go:746-766 | nothing is stored when the write is refused; otherwise the stored status is the old ledger with the condition in front and the running operator's UUID; no error exactly when the write and the read-back both succeed |
| ConfigController.ApplyPhase | pkg/controller/config/config_controller.go:265-324 | a panic while transforming crashes the pass before anything is applied, written or kept; a transform error keeps the manifest and writes the error code; otherwise the transformed manifest is applied and kept, the addons and community ones with the resources the apply created annotated; success requeues at once and writes the applied code with no details; failure returns an error without requeue and writes the error code holding the error's text; only the manifest's keys are touched, and all are present after a success |
| ConfigController.ApplyPhaseRecords | pkg/controller/config/config_controller.go:265-324 | an apply phase writes unless the write is refused or the pass crashed, and always the phase's own success or failure code; a crashed pass leaves the cluster and the manifests as they were |
| ConfigController.ValidateDeployments | pkg/controller/config/config_controller.go:677-707 | the controller is checked before the webhook and its error is returned first; the component runs exactly when both Deployments are ready |
| ConfigController.ValidatePhase | pkg/controller/config/config_controller.go:577-675 | while not up yet nothing is written and the pass requeues after 15 seconds; a lookup error writes the validate-error code and is returned; once up, the component version is read and the validated code written, then the pass requeues after 15 seconds unless the write failed; the cluster and manifests never change |
| ConfigController.ReconcileDeletion | pkg/controller/config/config_controller.go:709-729 | never requeues, fails or writes; removes the deletable resources of the addons and the pipeline and touches nothing else |
| ConfigController.DeletionOrder | pkg/controller/config/config_controller.go:717-725 | deletion calls the API about the addons first and the pipeline after |
| ConfigController.Route | pkg/controller/config/config_controller.go:246-262 | every validate step belongs to the pipeline or the triggers |
| ConfigController.Position | pkg/controller/config/config_controller.go:246-261 | a step's position in the install order, or -1 exactly when it is not in it |
| ConfigController.RouteFollowsInstallOrder | pkg/controller/config/config_controller.go:246-261 | an empty ledger starts at applying the pipeline; each phase's failure code leads back to that phase and its success code to the next |
| ConfigController.Dispatch | pkg/controller/config/config_controller.go:245-262 | whatever a dispatched phase writes is the ledger read with one condition in front; API calls only extend the trace; codes the switch does not name do nothing; a crashed pass has written and changed nothing |
| ConfigController.Reconcile | pkg/controller/config/config_controller.go:213-263 | whatever is written is the ledger read with one condition in front; the cluster's calls only grow; a failed read of the watched Config is returned untouched; a ledger head the switch does not name does nothing; only a readable Config of the watched name can crash the pass, which then writes and changes nothing |
| ConfigController.ReconcileDispatches | pkg/controller/config/config_controller.go:245-262 | a readable Config of the watched name goes to the phase its ledger selects |
| ConfigController.VerifyStepDispatch | pkg/controller/config/config_controller.go:349-359 | the installed state does nothing when up to date and reapplies the pipeline otherwise |
| ConfigController.WrongNameMarkedInvalid | pkg/controller/config/config_controller.go:221-230 | a request for another name never touches the cluster, returns no error and does not requeue; it writes the invalid-resource condition naming the expected name unless the Config is missing or the write is refused |
| ConfigController.MissingConfigUninstalls | pkg/controller/config/config_controller.go:232-237 | a missing watched Config removes the addons' deletable resources and then the pipeline's, touches nothing else, writes nothing and does not requeue |
| ConfigController.ConfigDefaultsWithoutDataPanics | pkg/utils/transform/transform.go:23-29 | when the first non-RoleBinding to stop is a config-defaults ConfigMap that reaches the default-service-account transformer without data, the apply phase crashes: nothing is written, returned, applied or kept |
| ConfigController.AddonsCreatedKept | pkg/controller/config/config_controller.go:447-449 | an addons resource created by a fault-free apply is held with the creation annotations and is among the deletable resources |
| ConfigController.AddonsHeld | pkg/controller/config/config_controller.go:447-449 | the addons manifest held after a transformed pass is the one the apply left annotated |
| ConfigController.DeletableUninstalled | pkg/controller/config/config_controller.go:232-237 | a deletable addons key is gone after the uninstall a missing Config triggers, when nothing fails |
| ConfigController.CreatedAddonsUninstall | pkg/controller/config/config_controller.go:709-729 | an addons resource the operator created, Namespaces included, is removed by the uninstall a later missing Config triggers |
| ConfigController.InstalledFixedPoint | pkg/controller/config/config_controller.go:349-364 | an installed ledger does nothing exactly when it was written for the running version by this operator (or the operator has no UUID); otherwise the pipeline is reapplied and the pipeline phase's code is recorded unless the write is refused or the pass crashes |
| ConfigController.ApplyMoves | pkg/controller/config/config_controller.go:265-324 | an apply phase moves the ledger back to itself on failure or on to the next phase on success |
| ConfigController.ValidateMoves | pkg/controller/config/config_controller.go:577-675 | a validate phase moves the ledger back to itself on failure or on to the next phase on success |
| ConfigController.PassAdvancesOrRetries | pkg/controller/config/config_controller.go:213-263 | a pass moves the ledger at most one phase along the install order: back on a returned error, forward on success, and from the installed state back to the start |
| ConfigController.TrimPrefix | pkg/controller/config/config_controller.go:809 | the prefix and the result put together give the input when it has the prefix; otherwise the input comes back unchanged |
| ConfigController.FirstField | pkg/controller/config/config_controller.go:808-809 | the first field is a prefix without '=', and the whole string when there is no '=' |
| ConfigController.CollectImages | pkg/controller/config/config_controller.go:801-815 | an image is present exactly when some entry with the prefix names it, and it holds the URL of the last such entry |
| ConfigController.ImageNameOfName | pkg/controller/config/config_controller.go:808-809 | the image name the code cuts from an entry, the text before its first '=' less the prefix, is the variable name less the prefix whenever the name holds no '=' |
| ConfigController.CollectStep | pkg/controller/config/config_controller.go:803-812 | setting the last entry's image over the map built from the earlier entries gives the map for all entries |
| ConfigController.ImagesFromEnvAsWritten | pkg/controller/config/config_controller.go:801-815 | as written, no image value can contain '=' |
| ConfigController.ImagesFromEnv | pkg/controller/config/config_controller.go:801-815 | the corrected map: an image is present exactly when some entry with the prefix names it, and it holds the whole value of the last such entry |
| ConfigController.UrlAsWrittenCuts | pkg/controller/config/config_controller.go:808-810 | as written, an entry's URL is its value up to the first '=' |
| ConfigController.ImagesAgreeWithoutEquals | pkg/controller/config/config_controller.go:801-815 | when no value contains '=' the code as written and the corrected map agree |
| ConfigController.ImagesCutShort | pkg/controller/config/config_controller.go:808-810 | the value "a=b" is cut to "a" as written and kept whole by the corrected map |

## Left out

- API server I/O. Every Get, Create, Update, Delete and status write goes to the abstract `Cluster` store. Its fault table decides how each call ends (NotFound, Invalid, AlreadyExists or another error). Clientsets, the dynamic client's REST mapping and scheme conversion are not modelled.
- Timing. The `wait.PollImmediate` loop in `deleteAndCreate` (1 s interval, 60 s timeout) is one outcome computed from the store. Foreground deletion propagation is not modelled, and neither are the requeue delays beyond the values returned.
- Reading manifests from disk or URLs, YAML decoding, `NewManifest`/`ManifestFrom`, `sourceBasedOnRecursion`, `readAddons`, `readOptional`, `fetchCommuntiyResources`. Manifests are inputs.
- Flags and configuration loading, including the operator UUID file. Controller wiring: `Add`, `add`, `newReconciler`, `createCR`, `autoCreateCR`. Request loggers and logging. Error message texts, except the InvalidResource details.
- Helpers whose bodies are not part of this model are opaque parameters:
  - the image-replacing transformers (`DeploymentImages`, `TaskImages`);
  - `InjectLabel`, `ReplaceKind`, `ToLowerCaseKeys`;
  - the CRD webhook client-config transformer;
  - the affinity-assistant switch;
  - the RoleBinding namespace transformer;
  - `UpdateDeployment`.
- `mf.Any` and `mf.Not` are not modelled separately. Predicate composition is expressed through `Predicates.Select` and `Predicates.Complement`.
- `op.Config.InstallStatus` and `HasInstalledVersion` have no bodies in the visible types file.
  - `Ledger.InstallStatus` reads the head condition's code, or Empty when there is none.
  - The installed-version test compares the head condition's version.
- `getComponentVersion` is a parameter. It reads a label from the component's controller Deployment in the manifest and panics when that Deployment is absent; that panic is not modelled.
- The trigger webhook configuration name is a flag and is therefore a parameter.
- The three-way merge patch of the newer manifestival library is an oracle that says whether a patch is needed and what the patched object is. The text of the `kubectl.kubernetes.io/last-applied-configuration` annotation is a parameter.
- The newer manifestival `Delete` logs per-resource errors and always returns nil. The model records the deletions it performs and returns nothing.
- Whether a transformer of the newer library fails is an oracle of the transformer, except for the operator's own. A transformer either rewrites the document, returns an error, or panics. `Manifestival.Transform` stops at the first resource whose chain returns an error or panics.
- A panic is not recovered anywhere in the reconciler, so a pass that panics is modelled as a crashed pass (`ConfigController.Crashed`). It writes nothing, returns nothing and keeps nothing, and the process restart that follows is not modelled.
- The regular-expression engine of `exclusion.go` and of the RBAC ignore pattern is an uninterpreted match predicate.
- The addon runtime table (`flag.Runtimes`) and the label and annotation keys are parameters. The runtime map's iteration order is unspecified in Go, so the model takes the runtimes as a sequence.
- `Common.ToLower` folds ASCII letters only. Kind names and the fixed kind lists are ASCII, so nothing in the model depends on Unicode case folding.
- `unstructured.NestedFieldNoCopy`/`SetNestedField` errors that cannot occur on the paths the code writes are not modelled. Errors on the paths the code reads are modelled.
- `generate` writes into the labels map it reads back from the pipeline, and that write panics when the template has no labels. The model's labels are a map that is never nil, so this panic is not modelled.
- Rbac.DecodeSubject: follows the JSON decoding of the four string fields of `rbacv1.Subject` (kind, apiGroup, name, namespace), with apiGroup and namespace omitted when empty on the way back; k8s.io/api is not part of this model.
- Rbac.UpdateRoleBinding: the binding's fields other than `subjects` are written back as they were stored, whereas the typed client re-encodes them and drops any field `rbacv1.RoleBinding` does not know.
- The store key is (kind, namespace, name), not group/version/kind. Two kinds of the same name in different API groups share a key in the model.
- `Unstructured.Content` leaves out the namespace, labels, annotations and owner references when they are empty, and subjects when there are none. A manifest that sets one of them explicitly to an empty value is read as not setting it.
- LegacyTransform.InjectNamespaceDoc: a ClusterRoleBinding whose subjects field is absent or null panics. A subjects field that is not a list, or an entry that is not an object, cannot be represented in a document, so those two panics are not modelled.
- InstallController.World: the install controller is written against a manifestival version whose `Transform` returns an error and whose `DeleteAll` takes options (install_controller.go:146 and :187). The vendored jcrossley3 library returns a manifest from `Transform` and takes no options in `DeleteAll`. The transform error is therefore an unconstrained input (`transformError`), and the delete options are not modelled.
- The extension points of `pkg/controller/install/common/extensions.go` return an error, whereas the jcrossley3 transformers the install controller uses return a document or nil, or panic. Extensions are modelled with the latter signature. The closing no-op transformer is `InstallCommon.KeepAll`.
- The YAML manifest's `Apply` mutates each resource (owner and namespace) before creating it. The model applies the same change to a copy. The Go mutation is visible to later callers of `Resources`, which the model does not follow.
- Addons.PrepareBaseEffect: requires the supported-versions annotation key to differ from the preserve-namespace annotation key. Both keys are parameters, and the flags that define them are distinct.
- Transforms.Reencode: the typed round trip also writes `metadata.creationTimestamp: null`. A document cannot represent a null metadata field, so this field is not modelled.
- Transforms.Reencode: the metadata fields the document does not model (uid, resourceVersion and the like) are not followed through the round trip.
- Transforms.ConvertsToConfigMap: a binaryData value must also be valid base64 to convert; that check is not modelled.
- Transforms.InjectDefaultSAAsWritten: the conversion error's text is a fixed constant, not the converter's message naming the mistyped field.
- LegacyFilter.ByNamespaceAgrees: stated only outside ClusterRoleBindings, because `InjectNamespace` also moves the subjects of a ClusterRoleBinding and `ByNamespace` does not.

## Findings

| source | as written | input that shows it | evidently intended | confidence | as-written member | corrected member |
|---|---|---|---|---|---|---|
| pkg/utils/transform/transform.go:23-36 | the config-defaults ConfigMap's `data` map is written into without allocating it first | a ConfigMap named config-defaults with no `data` field: writing into a nil map panics (Transforms.InjectDefaultSAPanicsWithoutData) | create `data` when it is missing, then set `default-service-account` | not executed | Transforms.InjectDefaultSAAsWritten | Transforms.SetDefaultSA |
| pkg/controller/config/config_controller.go:801-815 | the image URL is the text between the first and second '=' of the `NAME=value` entry | `IMAGE_PIPELINE_X=a=b` gives image `a` for `X` instead of `a=b` (ConfigController.ImagesCutShort) | the image is the whole value after the first '=' | not executed | ConfigController.ImagesFromEnvAsWritten | ConfigController.ImagesFromEnv |
| pkg/controller/install/install_controller.go:182-204 | the error from applying the core manifest is assigned but never checked, and `install` goes on to the addons | a core `ApplyAll` failure with no addons to apply: `install` reports success (InstallController.InstallDropsApplyError) | return the core manifest's apply error | not executed | InstallController.InstallAsWritten | InstallController.InstallManifest |

=== FILE: addons.dfy ===
/**
 The pipeline addons: from a pipeline template, one base pipeline per
 language runtime (its build task pointed at the runtime's ClusterTask and
 given the runtime's parameters), and from each base pipeline one pipeline
 per deployment environment (its deploy task rewritten for OpenShift,
 Kubernetes or Knative). Done twice, for the workspace template and for the
 pipeline-resource template.

 The runtime table and the label keys are defined outside the files this
 model covers; they are parameters. Go ranges over the runtime table, a map,
 in an unspecified order; the model takes the runtimes as a sequence in
 whatever order that is.
 */
module Addons {
  import opened Common
  import opened Unstructured
  import Transforms

  /** The label and annotation keys the generator writes. */
  datatype Keys = Keys(environmentType: string, strategy: string, runtime: string, supportedVersions: string)

  /** What `unstructured.NestedFieldNoCopy` reports: the value, not found, or an error. */
  datatype Lookup = Found(v: Value) | Missing | NotAMap(error: Error)

  function AccessorError(): Error
  {
    Error(Other, "accessor error: expected map[string]interface{}")
  }

  /**
   `NestedFieldNoCopy`: follows `path` through nested objects. A missing
   key or a null on the way is "not found"; any other non-object on the way
   is an error.
   */
  function Nested(v: Value, path: seq<string>): (r: Lookup)
    ensures |path| == 0 ==> r == Found(v)
    decreases |path|
  {
    if |path| == 0 then Found(v)
    else if v == Null then Missing
    else if !v.Obj? then NotAMap(AccessorError())
    else if path[0] !in v.fields then Missing
    else Nested(v.fields[path[0]], path[1..])
  }

  /** A two-step lookup finds a value exactly when both steps go through objects. */
  lemma NestedTwo(o: Object, a: string, b: string)
    ensures Nested(Obj(o), [a, b]).Found? <==> a in o && o[a].Obj? && b in o[a].fields
    ensures Nested(Obj(o), [a, b]).Found? ==> Nested(Obj(o), [a, b]).v == o[a].fields[b]
  {
    assert [a, b][1..] == [b];
    assert [b][1..] == [];
  }

  /** `o` with `o[a][b]` set to `v`, for an `o[a]` that is already an object: `SetNestedField` on an existing path. */
  function SetIn(o: Object, a: string, b: string, v: Value): Object
    requires a in o && o[a].Obj?
  {
    o[a := Obj(o[a].fields[b := v])]
  }

  /** Setting a nested field and reading it back gives the value set; sibling fields read as before. */
  lemma SetInReadBack(o: Object, a: string, b: string, c: string, v: Value)
    requires a in o && o[a].Obj?
    ensures Nested(Obj(SetIn(o, a, b, v)), [a, b]) == Found(v)
    ensures c != b ==> Nested(Obj(SetIn(o, a, b, v)), [a, c]) == Nested(Obj(o), [a, c])
  {
    NestedTwo(SetIn(o, a, b, v), a, b);
    NestedTwo(SetIn(o, a, b, v), a, c);
    NestedTwo(o, a, c);
    assert [a, c][1..] == [c];
    assert [c][1..] == [];
  }

  function Strs(ss: seq<string>): Value
  {
    List(seq(|ss|, i requires 0 <= i < |ss| => Str(ss[i])))
  }

  function TaskRef(name: string): Value
  {
    Obj(map["name" := Str(name), "kind" := Str("ClusterTask")])
  }

  function Param(name: string, value: Value): Value
  {
    Obj(map["name" := Str(name), "value" := value])
  }

  /** The four ways a deploy task is rewritten. */
  datatype Deploy = OpenShiftDeploy | KubernetesDeploy | KnativeDeploy | KnativeResourcedDeploy

  /** The fields of a deploy task a rewrite sets. */
  function DeployFields(kind: Deploy): set<string>
  {
    match kind
    case OpenShiftDeploy => {"taskRef", "runAfter", "params"}
    case KubernetesDeploy => {"taskRef", "runAfter", "params"}
    case KnativeDeploy => {"name", "taskRef", "runAfter", "params"}
    case KnativeResourcedDeploy => {"name", "taskRef", "runAfter", "resources", "params"}
  }

  /**
   The deploy task builders: all run after "build"; OpenShift waits for the
   DeploymentConfig's rollout and Kubernetes for the Deployment's (through
   a kubectl script), both with the "openshift-client" ClusterTask; Knative
   renames the task "kn-service-create" and creates a service with the "kn"
   ClusterTask, from the IMAGE_NAME parameter or, with pipeline resources,
   from the "image" input fed by the build task.
   */
  function DeployTask(kind: Deploy, t: Object): (r: Object)
    ensures r.Keys == t.Keys + DeployFields(kind)
    ensures forall k :: k in t && k !in DeployFields(kind) ==> r[k] == t[k]
    ensures forall k :: k in DeployFields(kind) ==> r[k] == DeployValues(kind)[k]
    ensures r["runAfter"] == Strs(["build"])
    ensures r["taskRef"] == TaskRef(if kind.KnativeDeploy? || kind.KnativeResourcedDeploy? then "kn" else "openshift-client")
    ensures "name" in DeployFields(kind) ==> r["name"] == Str("kn-service-create")
  {
    t + DeployValues(kind)
  }

  /** The values a rewrite gives its fields; none depends on the task rewritten. */
  function DeployValues(kind: Deploy): (m: Object)
    ensures m.Keys == DeployFields(kind)
    ensures m["runAfter"] == Strs(["build"])
    ensures m["taskRef"] == TaskRef(if kind.KnativeDeploy? || kind.KnativeResourcedDeploy? then "kn" else "openshift-client")
    ensures "name" in m ==> m["name"] == Str("kn-service-create")
  {
    match kind
    case OpenShiftDeploy =>
      map["taskRef" := TaskRef("openshift-client"), "runAfter" := Strs(["build"]),
          "params" := List([Param("ARGS", Strs(["rollout", "status", "dc/$(params.APP_NAME)"]))])]
    case KubernetesDeploy =>
      map["taskRef" := TaskRef("openshift-client"), "runAfter" := Strs(["build"]),
          "params" := List([Param("SCRIPT", Str("kubectl $@")),
                            Param("ARGS", Strs(["rollout", "status", "deploy/$(params.APP_NAME)"]))])]
    case KnativeDeploy =>
      map["name" := Str("kn-service-create"), "taskRef" := TaskRef("kn"), "runAfter" := Strs(["build"]),
          "params" := List([Param("ARGS", Strs(["service", "create", "$(params.APP_NAME)", "--image=$(params.IMAGE_NAME)", "--force"]))])]
    case KnativeResourcedDeploy =>
      map["name" := Str("kn-service-create"), "taskRef" := TaskRef("kn"), "runAfter" := Strs(["build"]),
          "resources" := Obj(map["inputs" := List([Obj(map["name" := Str("image"), "resource" := Str("app-image"), "from" := Strs(["build"])])])]),
          "params" := List([Param("ARGS", Strs(["service", "create", "$(params.APP_NAME)", "--image=$(resources.inputs.image.url)", "--force"]))])]
  }

  /** Rewriting a deploy task a second time changes nothing. */
  lemma DeployTaskIdempotent(kind: Deploy, t: Object)
    ensures DeployTask(kind, DeployTask(kind, t)) == DeployTask(kind, t)
  {
    var once := DeployTask(kind, t);
    var twice := DeployTask(kind, once);
    forall k | k in once
      ensures twice[k] == once[k]
    {
    }
    assert twice.Keys == once.Keys;
  }

  /** One `pipeline` task generator: the environment label value, the name suffix and the deploy rewrite. */
  datatype Generator = Generator(environment: string, nameSuffix: string, deploy: Deploy)

  /** The generators used with the workspace template. */
  const WorkspacedGenerators := [
    Generator("openshift", "", OpenShiftDeploy),
    Generator("kubernetes", "-deployment", KubernetesDeploy),
    Generator("knative", "-knative", KnativeDeploy)]

  /** The generators used with the pipeline-resource template: Knative reads its image from a resource. */
  const ResourcedGenerators := [
    Generator("openshift", "", OpenShiftDeploy),
    Generator("kubernetes", "-deployment", KubernetesDeploy),
    Generator("knative", "-knative", KnativeResourcedDeploy)]

  /** `unstructured.Unstructured{}`. */
  const EmptyDoc := Doc("", None, "", "", map[], map[], [], None, None, map[])

  /** What `generate` returns: a pipeline and an error (either may be empty), or a panic. */
  datatype Generated = Gen(doc: Doc, err: Option<Error>) | GenPanic

  /** Where the deploy task sits: third task, or second with pipeline resources. */
  function DeployIndex(usingResource: bool): nat
  {
    if usingResource then 1 else 2
  }

  /** Where the build task sits: second task, or first with pipeline resources. */
  function BuildIndex(usingResource: bool): nat
  {
    if usingResource then 0 else 1
  }

  /** The tasks of a pipeline document, when its spec holds a list of them. */
  function Tasks(d: Doc): Option<seq<Value>>
  {
    match Nested(Obj(d.body), ["spec", "tasks"])
    case Found(List(items)) => Some(items)
    case _ => None
  }

  /**
   `generate`: the base pipeline labelled with the environment, renamed
   with the suffix (and "-pr" with pipeline resources), its deploy task
   rewritten. Tasks that cannot be read give an empty pipeline and the
   lookup's error (none when they are missing); a deploy task that is not
   there or not an object panics.
   */
  function Generate(g: Generator, keys: Keys, base: Doc, usingResource: bool): (r: Generated)
    ensures r.Gen? && r.doc != EmptyDoc ==> r.err.None?
    ensures Nested(Obj(base.body), ["spec", "tasks"]).NotAMap? ==> r == Gen(EmptyDoc, Some(Nested(Obj(base.body), ["spec", "tasks"]).error))
    ensures Nested(Obj(base.body), ["spec", "tasks"]).Missing? ==> r == Gen(EmptyDoc, None)
  {
    var index := DeployIndex(usingResource);
    match Nested(Obj(base.body), ["spec", "tasks"])
    case Missing => Gen(EmptyDoc, None)
    case NotAMap(e) => Gen(EmptyDoc, Some(e))
    case Found(tasks) =>
      if !tasks.List? || index >= |tasks.items| || !tasks.items[index].Obj? then GenPanic
      else
        NestedTwo(base.body, "spec", "tasks");
        var deployed := List(tasks.items[index := Obj(DeployTask(g.deploy, tasks.items[index].fields))]);
        var name := base.name + g.nameSuffix + (if usingResource then "-pr" else "");
        var d := base.(labels := base.labels[keys.environmentType := g.environment], name := name,
                       body := SetIn(base.body, "spec", "tasks", deployed));
        assert d != EmptyDoc by {
          assert "spec" in d.body;
        }
        Gen(d, None)
  }

  /**
   A generated pipeline is its base with the environment label, the new
   name and the deploy task rewritten: every other task, every other label
   and every other part of the spec are the base's.
   */
  lemma GenerateEffect(g: Generator, keys: Keys, base: Doc, usingResource: bool)
    requires Tasks(base).Some?
    requires Generate(g, keys, base, usingResource).Gen?
    ensures var d := Generate(g, keys, base, usingResource).doc;
      var i := DeployIndex(usingResource);
      var before := Tasks(base).value;
      && d.labels == base.labels[keys.environmentType := g.environment]
      && d.name == base.name + g.nameSuffix + (if usingResource then "-pr" else "")
      && d.annotations == base.annotations
      && Tasks(d).Some? && |Tasks(d).value| == |before|
      && Tasks(d).value[i] == Obj(DeployTask(g.deploy, before[i].fields))
      && (forall j :: 0 <= j < |before| && j != i ==> Tasks(d).value[j] == before[j])
      && (forall f :: f != "tasks" ==> Nested(Obj(d.body), ["spec", f]) == Nested(Obj(base.body), ["spec", f]))
  {
    GenerateShape(g, keys, base, usingResource);
    var tasks := Tasks(base).value;
    DeployRewritten(g, keys, base, usingResource, tasks, Generate(g, keys, base, usingResource).doc);
  }

  /** The effect of `generate`, stated on the document it builds. */
  lemma DeployRewritten(g: Generator, keys: Keys, base: Doc, usingResource: bool, tasks: seq<Value>, d: Doc)
    requires Tasks(base) == Some(tasks)
    requires DeployIndex(usingResource) < |tasks| && tasks[DeployIndex(usingResource)].Obj?
    requires var i := DeployIndex(usingResource);
      d == base.(labels := base.labels[keys.environmentType := g.environment],
                 name := base.name + g.nameSuffix + (if usingResource then "-pr" else ""),
                 body := SetIn(base.body, "spec", "tasks", List(tasks[i := Obj(DeployTask(g.deploy, tasks[i].fields))])))
    ensures var i := DeployIndex(usingResource);
      && Tasks(d).Some? && |Tasks(d).value| == |tasks|
      && Tasks(d).value[i] == Obj(DeployTask(g.deploy, tasks[i].fields))
      && (forall j :: 0 <= j < |tasks| && j != i ==> Tasks(d).value[j] == tasks[j])
      && (forall f :: f != "tasks" ==> Nested(Obj(d.body), ["spec", f]) == Nested(Obj(base.body), ["spec", f]))
  {
    var i := DeployIndex(usingResource);
    NestedTwo(base.body, "spec", "tasks");
    var deployed := List(tasks[i := Obj(DeployTask(g.deploy, tasks[i].fields))]);
    SetInReadBack(base.body, "spec", "tasks", "tasks", deployed);
    forall f | f != "tasks"
      ensures Nested(Obj(SetIn(base.body, "spec", "tasks", deployed)), ["spec", f]) == Nested(Obj(base.body), ["spec", f])
    {
      SetInReadBack(base.body, "spec", "tasks", f, deployed);
    }
  }

  /** The document a successful `generate` builds, written out. */
  lemma GenerateShape(g: Generator, keys: Keys, base: Doc, usingResource: bool)
    requires Tasks(base).Some?
    requires Generate(g, keys, base, usingResource).Gen?
    ensures var tasks := Tasks(base).value;
      var i := DeployIndex(usingResource);
      && i < |tasks| && tasks[i].Obj?
      && Generate(g, keys, base, usingResource) == Gen(base.(
           labels := base.labels[keys.environmentType := g.environment],
           name := base.name + g.nameSuffix + (if usingResource then "-pr" else ""),
           body := SetIn(base.body, "spec", "tasks", List(tasks[i := Obj(DeployTask(g.deploy, tasks[i].fields))]))), None)
  {
  }

  /** A language runtime: its name (the key of the runtime table) and its entry. */
  datatype Runtime = Runtime(name: string, runtime: string, supportedVersions: string, version: string, minorVersion: string)

  /** What preparing one runtime's base pipeline gives: the pipeline, an early return with its error (maybe none), or a panic. */
  datatype Prepared = Base(doc: Doc) | Abort(err: Option<Error>) | PrepPanic

  /** The parameter naming the build context: CONTEXT for buildah, PATH_CONTEXT otherwise. */
  function ContextParam(rt: Runtime): string
  {
    if rt.name == "buildah" then "CONTEXT" else "PATH_CONTEXT"
  }

  /** The parameters appended to the build task: the context, then the version and minor version when set. */
  function BuildParams(rt: Runtime): seq<Value>
  {
    [Param(ContextParam(rt), Str("$(params.PATH_CONTEXT)"))] +
    (if rt.version != "" then [Param("VERSION", Str(rt.version))] else []) +
    (if rt.minorVersion != "" then [Param("MINOR_VERSION", Str(rt.minorVersion))] else [])
  }

  function StringParam(name: string): Value
  {
    Obj(map["name" := Str(name), "type" := Str("string")])
  }

  /** The parameters appended to the pipeline: MAJOR_VERSION and MINOR_VERSION, each when its value is set. */
  function PipelineParams(rt: Runtime): seq<Value>
  {
    (if rt.version != "" then [StringParam("MAJOR_VERSION")] else []) +
    (if rt.minorVersion != "" then [StringParam("MINOR_VERSION")] else [])
  }

  /** The labels of a base pipeline: the docker strategy for buildah, the runtime otherwise. */
  function RuntimeLabels(keys: Keys, rt: Runtime): map<string, string>
  {
    if rt.name == "buildah" then map[keys.strategy := "docker"] else map[keys.runtime := rt.runtime]
  }

  /** The annotations of a base pipeline: namespace preserved, and the supported versions when set. */
  function RuntimeAnnotations(keys: Keys, rt: Runtime): map<string, string>
  {
    var preserve := map[Transforms.PreserveNamespace := "true"];
    if rt.supportedVersions != "" then preserve[keys.supportedVersions := rt.supportedVersions] else preserve
  }

  /**
   One iteration of `generateBasePipeline`'s runtime loop up to the task
   generators: the template copied, its labels and annotations replaced,
   named after the runtime; its build task pointed at the runtime's
   ClusterTask ("-pr" with pipeline resources) and given the runtime's
   parameters, which the pipeline's parameters follow. A missing parameter
   or task list ends generation with no error; a list that is not one, or a
   build task that is not there or not an object, panics. The two field
   writes at the end set paths just read, so they cannot fail.
   */
  function PrepareBase(template: Doc, rt: Runtime, keys: Keys, usingResource: bool): (r: Prepared)
    ensures Nested(Obj(template.body), ["spec", "params"]).Missing? ==> r == Abort(None)
    ensures Nested(Obj(template.body), ["spec", "params"]).NotAMap? ==> r == Abort(Some(Nested(Obj(template.body), ["spec", "params"]).error))
    ensures r.Base? ==> r.doc.name == rt.name && r.doc.labels == RuntimeLabels(keys, rt) && Tasks(r.doc).Some?
  {
    var d := template.(labels := RuntimeLabels(keys, rt), annotations := RuntimeAnnotations(keys, rt), name := rt.name);
    var index := BuildIndex(usingResource);
    var taskName := if usingResource then rt.name + "-pr" else rt.name;
    match Nested(Obj(d.body), ["spec", "params"])
    case Missing => Abort(None)
    case NotAMap(e) => Abort(Some(e))
    case Found(pipelineParams) =>
      match Nested(Obj(d.body), ["spec", "tasks"])
      case Missing => Abort(None)
      case NotAMap(e) => Abort(Some(e))
      case Found(tasks) =>
        if !tasks.List? || index >= |tasks.items| || !tasks.items[index].Obj? then PrepPanic
        else
          var build := tasks.items[index].fields["taskRef" := TaskRef(taskName)];
          if "params" !in build then Abort(None)
          else if !build["params"].List? then PrepPanic
          else if (rt.version != "" || rt.minorVersion != "") && !pipelineParams.List? then PrepPanic
          else
            NestedTwo(d.body, "spec", "params");
            var params := if rt.version != "" || rt.minorVersion != "" then List(pipelineParams.items + PipelineParams(rt)) else pipelineParams;
            var built := build["params" := List(build["params"].items + BuildParams(rt))];
            var withParams := SetIn(d.body, "spec", "params", params);
            var tasks' := List(tasks.items[index := Obj(built)]);
            SetInReadBack(withParams, "spec", "tasks", "tasks", tasks');
            Base(d.(body := SetIn(withParams, "spec", "tasks", tasks')))
  }

  /**
   A prepared base pipeline: named after the runtime, labelled for it,
   annotated to keep its namespace; its build task refers to the runtime's
   ClusterTask and ends with the build parameters, the other tasks are the
   template's, and the pipeline parameters end with the version parameters.
   */
  lemma PrepareBaseEffect(template: Doc, rt: Runtime, keys: Keys, usingResource: bool)
    requires PrepareBase(template, rt, keys, usingResource).Base?
    requires keys.supportedVersions != Transforms.PreserveNamespace
    ensures PreparedAs(template, rt, keys, usingResource, PrepareBase(template, rt, keys, usingResource).doc)
  {
    var d0 := template.(labels := RuntimeLabels(keys, rt), annotations := RuntimeAnnotations(keys, rt), name := rt.name);
    assert d0.body == template.body;
    var i := BuildIndex(usingResource);
    NestedTwo(template.body, "spec", "params");
    NestedTwo(template.body, "spec", "tasks");
    var pipelineParams := template.body["spec"].fields["params"];
    var tasks := template.body["spec"].fields["tasks"];
    var taskName := if usingResource then rt.name + "-pr" else rt.name;
    var build := tasks.items[i].fields["taskRef" := TaskRef(taskName)];
    var params := if rt.version != "" || rt.minorVersion != "" then List(pipelineParams.items + PipelineParams(rt)) else pipelineParams;
    var built := build["params" := List(build["params"].items + BuildParams(rt))];
    var withParams := SetIn(template.body, "spec", "params", params);
    var tasks' := List(tasks.items[i := Obj(built)]);
    SetInReadBack(withParams, "spec", "tasks", "tasks", tasks');
    var d := PrepareBase(template, rt, keys, usingResource).doc;
    assert d == d0.(body := SetIn(withParams, "spec", "tasks", tasks'));
    PreparedFrom(template, rt, keys, usingResource, d, tasks.items, built);
  }

  /**
   What a prepared base pipeline `d` looks like next to its template: named
   after the runtime, labelled for it, annotated to keep its namespace; its
   build task refers to the runtime's ClusterTask and ends with the build
   parameters, and the other tasks are the template's.
   */
  ghost predicate PreparedAs(template: Doc, rt: Runtime, keys: Keys, usingResource: bool, d: Doc)
  {
    var i := BuildIndex(usingResource);
    && d.name == rt.name
    && d.labels == RuntimeLabels(keys, rt)
    && Transforms.PreserveNamespace in d.annotations && d.annotations[Transforms.PreserveNamespace] == "true"
    && Tasks(template).Some? && Tasks(d).Some? && |Tasks(d).value| == |Tasks(template).value|
    && (forall j :: 0 <= j < |Tasks(d).value| && j != i ==> Tasks(d).value[j] == Tasks(template).value[j])
    && i < |Tasks(d).value| && Tasks(d).value[i].Obj? && "taskRef" in Tasks(d).value[i].fields && "params" in Tasks(d).value[i].fields
    && Tasks(template).value[i].Obj? && "params" in Tasks(template).value[i].fields
    && Tasks(template).value[i].fields["params"].List?
    && Tasks(d).value[i].fields["taskRef"] == TaskRef(if usingResource then rt.name + "-pr" else rt.name)
    && Tasks(d).value[i].fields["params"].List?
    && Tasks(d).value[i].fields["params"].items ==
       Tasks(template).value[i].fields["params"].items + BuildParams(rt)
  }

  /** The build task rewritten in place, with the runtime's metadata, gives a pipeline `PreparedAs` its template. */
  lemma PreparedFrom(template: Doc, rt: Runtime, keys: Keys, usingResource: bool, d: Doc, tasks: seq<Value>, built: Object)
    requires keys.supportedVersions != Transforms.PreserveNamespace
    requires Tasks(template) == Some(tasks)
    requires BuildIndex(usingResource) < |tasks| && tasks[BuildIndex(usingResource)].Obj?
    requires "params" in tasks[BuildIndex(usingResource)].fields && tasks[BuildIndex(usingResource)].fields["params"].List?
    requires built == tasks[BuildIndex(usingResource)].fields["taskRef" := TaskRef(if usingResource then rt.name + "-pr" else rt.name)]
      ["params" := List(tasks[BuildIndex(usingResource)].fields["params"].items + BuildParams(rt))]
    requires Tasks(d) == Some(tasks[BuildIndex(usingResource) := Obj(built)])
    requires d.name == rt.name && d.labels == RuntimeLabels(keys, rt) && d.annotations == RuntimeAnnotations(keys, rt)
    ensures PreparedAs(template, rt, keys, usingResource, d)
  {
    var i := BuildIndex(usingResource);
    assert Tasks(d).value[i] == Obj(built);
    assert built["params"].items == tasks[i].fields["params"].items + BuildParams(rt);
  }

  /** What generating for one template gives: the pipelines, an early return with its error (maybe none), or a panic. */
  datatype Generation = Generated(pipelines: seq<Doc>) | Aborted(err: Option<Error>) | GenerationPanic

  /**
   The generator loop for one base pipeline: one pipeline per generator in
   order; the first error discards them all, and an empty pipeline returned
   without an error is kept.
   */
  function GenerateEach(gens: seq<Generator>, keys: Keys, base: Doc, usingResource: bool): (r: Generation)
    ensures r.Generated? ==> |r.pipelines| == |gens|
  {
    if |gens| == 0 then Generated([])
    else
      match Generate(gens[0], keys, base, usingResource)
      case GenPanic => GenerationPanic
      case Gen(p, Some(e)) => Aborted(Some(e))
      case Gen(p, None) =>
        match GenerateEach(gens[1..], keys, base, usingResource)
        case Generated(ps) => Generated([p] + ps)
        case other => other
  }

  /** Each pipeline the loop yields is what its generator made of the base pipeline. */
  lemma {:induction false} GenerateEachPipeline(gens: seq<Generator>, keys: Keys, base: Doc, usingResource: bool, j: nat)
    requires GenerateEach(gens, keys, base, usingResource).Generated?
    requires j < |gens|
    ensures Generate(gens[j], keys, base, usingResource) == Gen(GenerateEach(gens, keys, base, usingResource).pipelines[j], None)
    decreases j
  {
    if j > 0 {
      GenerateEachPipeline(gens[1..], keys, base, usingResource, j - 1);
      assert gens[1..][j - 1] == gens[j];
    }
  }

  /**
   Whether `generate` succeeds, fails or panics depends only on the base
   pipeline's tasks, never on the generator: all generators fare alike.
   */
  lemma GenerateAlike(g: Generator, h: Generator, keys: Keys, base: Doc, usingResource: bool)
    ensures Generate(g, keys, base, usingResource).GenPanic? == Generate(h, keys, base, usingResource).GenPanic?
    ensures Generate(g, keys, base, usingResource).Gen? ==> Generate(g, keys, base, usingResource).err == Generate(h, keys, base, usingResource).err
  {
  }

  /**
   So the generator loop fails as its first generator does: it panics when
   that one panics and returns that one's error; otherwise every generator
   yields a pipeline.
   */
  lemma {:induction false} GenerateEachFails(gens: seq<Generator>, keys: Keys, base: Doc, usingResource: bool)
    requires |gens| > 0
    ensures var r := GenerateEach(gens, keys, base, usingResource);
      var first := Generate(gens[0], keys, base, usingResource);
      && (r.GenerationPanic? <==> first.GenPanic?)
      && (r.Aborted? <==> first.Gen? && first.err.Some?)
      && (r.Aborted? ==> r.err == first.err)
    decreases |gens|
  {
    if |gens| > 1 {
      GenerateEachFails(gens[1..], keys, base, usingResource);
      GenerateAlike(gens[0], gens[1], keys, base, usingResource);
      assert gens[1..][0] == gens[1];
    }
  }

  /**
   `generateBasePipeline`: for each runtime in turn, its base pipeline and
   then every generator's pipeline for it, all appended in order. An early
   return from any runtime discards everything gathered so far, even when
   it carries no error; an empty template panics once a runtime is visited.
   */
  function GenerateBasePipeline(template: seq<Doc>, runtimes: seq<Runtime>, gens: seq<Generator>, keys: Keys, usingResource: bool): (r: Generation)
    ensures |runtimes| > 0 && |template| == 0 ==> r.GenerationPanic?
    decreases |runtimes|
  {
    if |runtimes| == 0 then Generated([])
    else if |template| == 0 then GenerationPanic
    else
      match RuntimePipelines(template[0], runtimes[0], gens, keys, usingResource)
      case Generated(ps) =>
        (match GenerateBasePipeline(template, runtimes[1..], gens, keys, usingResource)
         case Generated(qs) => Generated(ps + qs)
         case other => other)
      case other => other
  }

  /** One runtime's turn: its base pipeline, then the generator loop over it. */
  function RuntimePipelines(template: Doc, rt: Runtime, gens: seq<Generator>, keys: Keys, usingResource: bool): (r: Generation)
    ensures r.Generated? ==> |r.pipelines| == |gens|
  {
    match PrepareBase(template, rt, keys, usingResource)
    case PrepPanic => GenerationPanic
    case Abort(e) => Aborted(e)
    case Base(b) => GenerateEach(gens, keys, b, usingResource)
  }

  /** `n` blocks of `g` elements each, counted block by block. */
  function Blocks(n: nat, g: nat): nat
  {
    if n == 0 then 0 else g + Blocks(n - 1, g)
  }

  /** Counting block by block agrees with multiplying. */
  lemma {:induction false} BlocksIsProduct(n: nat, g: nat)
    ensures Blocks(n, g) == n * g
  {
    if n > 0 {
      BlocksIsProduct(n - 1, g);
      MulShift(n, 0, g);
    }
  }

  /** A template that yields pipelines yields one per runtime and generator. */
  lemma GenerateBasePipelineCount(template: seq<Doc>, runtimes: seq<Runtime>, gens: seq<Generator>, keys: Keys, usingResource: bool)
    requires GenerateBasePipeline(template, runtimes, gens, keys, usingResource).Generated?
    ensures |GenerateBasePipeline(template, runtimes, gens, keys, usingResource).pipelines| == |runtimes| * |gens|
  {
    GeneratedBlocks(template, runtimes, gens, keys, usingResource);
    BlocksIsProduct(|runtimes|, |gens|);
  }

  lemma {:induction false} GeneratedBlocks(template: seq<Doc>, runtimes: seq<Runtime>, gens: seq<Generator>, keys: Keys, usingResource: bool)
    requires GenerateBasePipeline(template, runtimes, gens, keys, usingResource).Generated?
    ensures |GenerateBasePipeline(template, runtimes, gens, keys, usingResource).pipelines| == Blocks(|runtimes|, |gens|)
    decreases |runtimes|
  {
    if |runtimes| == 0 {
      assert runtimes == [];
      NoRuntimesNoPipelines(template, gens, keys, usingResource);
    } else {
      BlocksStep(template, runtimes, gens, keys, usingResource);
      GeneratedBlocks(template, runtimes[1..], gens, keys, usingResource);
    }
  }

  /** The count for all runtimes follows from the count for all but the first. */
  lemma BlocksStep(template: seq<Doc>, runtimes: seq<Runtime>, gens: seq<Generator>, keys: Keys, usingResource: bool)
    requires |runtimes| > 0
    requires GenerateBasePipeline(template, runtimes, gens, keys, usingResource).Generated?
    ensures GenerateBasePipeline(template, runtimes[1..], gens, keys, usingResource).Generated?
    ensures |GenerateBasePipeline(template, runtimes[1..], gens, keys, usingResource).pipelines| == Blocks(|runtimes[1..]|, |gens|) ==>
      |GenerateBasePipeline(template, runtimes, gens, keys, usingResource).pipelines| == Blocks(|runtimes|, |gens|)
  {
    SplitLength(template, runtimes, gens, keys, usingResource);
  }

  /** Without runtimes there is nothing to generate. */
  lemma NoRuntimesNoPipelines(template: seq<Doc>, gens: seq<Generator>, keys: Keys, usingResource: bool)
    ensures GenerateBasePipeline(template, [], gens, keys, usingResource) == Generated([])
  {
  }

  /** The first runtime contributes one pipeline per generator. */
  lemma SplitLength(template: seq<Doc>, runtimes: seq<Runtime>, gens: seq<Generator>, keys: Keys, usingResource: bool)
    requires |runtimes| > 0
    requires GenerateBasePipeline(template, runtimes, gens, keys, usingResource).Generated?
    ensures GenerateBasePipeline(template, runtimes[1..], gens, keys, usingResource).Generated?
    ensures |GenerateBasePipeline(template, runtimes, gens, keys, usingResource).pipelines| ==
      |gens| + |GenerateBasePipeline(template, runtimes[1..], gens, keys, usingResource).pipelines|
  {
    var ps := SplitBlocks(template, runtimes, gens, keys, usingResource);
  }


  lemma {:induction false} MulIndex(i: nat, j: nat, n: nat, g: nat)
    requires i < n && j < g
    ensures i * g + j < n * g
    decreases n
  {
    assert n * g == (n - 1) * g + g;
    if i < n - 1 {
      MulIndex(i, j, n - 1, g);
    }
  }

  lemma MulShift(i: nat, j: nat, g: nat)
    requires i > 0
    ensures i * g + j == g + ((i - 1) * g + j)
  {
    assert i * g == (i - 1) * g + g;
  }

  /** The pipelines for several runtimes are those of the first runtime followed by those of the rest. */
  lemma GenerateBasePipelineSplit(template: seq<Doc>, runtimes: seq<Runtime>, gens: seq<Generator>, keys: Keys, usingResource: bool)
    requires |runtimes| > 0
    requires GenerateBasePipeline(template, runtimes, gens, keys, usingResource).Generated?
    ensures |template| > 0 && PrepareBase(template[0], runtimes[0], keys, usingResource).Base?
    ensures var b := PrepareBase(template[0], runtimes[0], keys, usingResource).doc;
      && GenerateEach(gens, keys, b, usingResource).Generated?
      && GenerateBasePipeline(template, runtimes[1..], gens, keys, usingResource).Generated?
      && GenerateBasePipeline(template, runtimes, gens, keys, usingResource).pipelines ==
         GenerateEach(gens, keys, b, usingResource).pipelines + GenerateBasePipeline(template, runtimes[1..], gens, keys, usingResource).pipelines
  {
  }

  /** In a list made of one block of `g` followed by the rest, block `i > 0` lies in the rest. */
  lemma BlockIndex<T>(all: seq<T>, ps: seq<T>, qs: seq<T>, g: nat, i: nat, j: nat)
    requires all == ps + qs && |ps| == g && j < g && 0 < i
    requires (i - 1) * g + j < |qs|
    ensures i * g + j < |all| && all[i * g + j] == qs[(i - 1) * g + j]
  {
    MulShift(i, j, g);
  }

  /** `p` is what generator `g` makes of the base pipeline `template` gives for runtime `rt`. */
  predicate PipelineFor(template: Doc, rt: Runtime, g: Generator, keys: Keys, usingResource: bool, p: Doc)
  {
    var b := PrepareBase(template, rt, keys, usingResource);
    b.Base? && Generate(g, keys, b.doc, usingResource) == Gen(p, None)
  }

  /** The pipeline at position `i * |gens| + j` of `all` comes from runtime `i` and generator `j`. */
  predicate PlacedAt(template: seq<Doc>, runtimes: seq<Runtime>, gens: seq<Generator>, keys: Keys, usingResource: bool, all: seq<Doc>, i: nat, j: nat)
    requires i < |runtimes| && j < |gens|
  {
    |template| > 0 && i * |gens| + j < |all| &&
    PipelineFor(template[0], runtimes[i], gens[j], keys, usingResource, all[i * |gens| + j])
  }

  /**
   Where each pipeline comes from: the one at position `i * |gens| + j` is
   generator `j` applied to the base pipeline of runtime `i`.
   */
  lemma {:induction false} GenerateBasePipelineLayout(template: seq<Doc>, runtimes: seq<Runtime>, gens: seq<Generator>, keys: Keys, usingResource: bool, i: nat, j: nat)
    requires GenerateBasePipeline(template, runtimes, gens, keys, usingResource).Generated?
    requires i < |runtimes| && j < |gens|
    ensures PlacedAt(template, runtimes, gens, keys, usingResource, GenerateBasePipeline(template, runtimes, gens, keys, usingResource).pipelines, i, j)
    decreases i
  {
    var ps := SplitBlocks(template, runtimes, gens, keys, usingResource);
    if i == 0 {
      PlacedFirst(template, runtimes, gens, keys, usingResource,
                  GenerateBasePipeline(template, runtimes, gens, keys, usingResource).pipelines, ps,
                  GenerateBasePipeline(template, runtimes[1..], gens, keys, usingResource).pipelines, j);
    } else {
      GenerateBasePipelineLayout(template, runtimes[1..], gens, keys, usingResource, i - 1, j);
      PlacedShift(template, runtimes, gens, keys, usingResource,
                  GenerateBasePipeline(template, runtimes, gens, keys, usingResource).pipelines, ps,
                  GenerateBasePipeline(template, runtimes[1..], gens, keys, usingResource).pipelines, i, j);
    }
  }

  /** The pipelines split into the first runtime's block, as its generators made it, and the rest's. */
  lemma SplitBlocks(template: seq<Doc>, runtimes: seq<Runtime>, gens: seq<Generator>, keys: Keys, usingResource: bool)
    returns (ps: seq<Doc>)
    requires |runtimes| > 0
    requires GenerateBasePipeline(template, runtimes, gens, keys, usingResource).Generated?
    ensures GenerateBasePipeline(template, runtimes[1..], gens, keys, usingResource).Generated?
    ensures GenerateBasePipeline(template, runtimes, gens, keys, usingResource).pipelines ==
      ps + GenerateBasePipeline(template, runtimes[1..], gens, keys, usingResource).pipelines
    ensures |template| > 0 && PrepareBase(template[0], runtimes[0], keys, usingResource).Base?
    ensures GenerateEach(gens, keys, PrepareBase(template[0], runtimes[0], keys, usingResource).doc, usingResource) == Generated(ps)
  {
    GenerateBasePipelineSplit(template, runtimes, gens, keys, usingResource);
    var b := PrepareBase(template[0], runtimes[0], keys, usingResource).doc;
    ps := GenerateEach(gens, keys, b, usingResource).pipelines;
  }

  /** The first block of the list is the first runtime's pipelines, generator by generator. */
  lemma PlacedFirst(template: seq<Doc>, runtimes: seq<Runtime>, gens: seq<Generator>, keys: Keys, usingResource: bool,
                    all: seq<Doc>, ps: seq<Doc>, qs: seq<Doc>, j: nat)
    requires |template| > 0 && |runtimes| > 0 && j < |gens|
    requires PrepareBase(template[0], runtimes[0], keys, usingResource).Base?
    requires GenerateEach(gens, keys, PrepareBase(template[0], runtimes[0], keys, usingResource).doc, usingResource) == Generated(ps)
    requires all == ps + qs
    ensures PlacedAt(template, runtimes, gens, keys, usingResource, all, 0, j)
  {
    GenerateEachPipeline(gens, keys, PrepareBase(template[0], runtimes[0], keys, usingResource).doc, usingResource, j);
    assert all[j] == ps[j];
  }

  /** Placement in the pipelines of the later runtimes carries over, one block further on, to the whole list. */
  lemma PlacedShift(template: seq<Doc>, runtimes: seq<Runtime>, gens: seq<Generator>, keys: Keys, usingResource: bool,
                    all: seq<Doc>, ps: seq<Doc>, qs: seq<Doc>, i: nat, j: nat)
    requires 0 < i < |runtimes| && j < |gens|
    requires all == ps + qs && |ps| == |gens|
    requires PlacedAt(template, runtimes[1..], gens, keys, usingResource, qs, i - 1, j)
    ensures PlacedAt(template, runtimes, gens, keys, usingResource, all, i, j)
  {
    assert runtimes[1..][i - 1] == runtimes[i];
    BlockIndex(all, ps, qs, |gens|, i, j);
  }

  /** A pipeline generated from a base pipeline with tasks takes its name and labels from the base and the generator. */
  lemma GenerateIdentity(g: Generator, keys: Keys, base: Doc, usingResource: bool, d: Doc)
    requires Tasks(base).Some?
    requires Generate(g, keys, base, usingResource) == Gen(d, None)
    ensures d.name == base.name + g.nameSuffix + (if usingResource then "-pr" else "")
    ensures d.labels == base.labels[keys.environmentType := g.environment]
  {
  }

  /**
   A generated pipeline is named after its runtime and its generator's
   suffix, "-pr" last with pipeline resources, and carries its generator's
   environment label over its runtime's labels.
   */
  lemma PipelineForIdentity(template: Doc, rt: Runtime, g: Generator, keys: Keys, usingResource: bool, p: Doc)
    requires PipelineFor(template, rt, g, keys, usingResource, p)
    ensures p.name == rt.name + g.nameSuffix + (if usingResource then "-pr" else "")
    ensures p.labels == RuntimeLabels(keys, rt)[keys.environmentType := g.environment]
  {
    GenerateIdentity(g, keys, PrepareBase(template, rt, keys, usingResource).doc, usingResource, p);
  }

  /** What `CreatePipelines` gives: the pipelines, an error, or a panic. */
  datatype Creation = Created(pipelines: seq<Doc>) | CreateFailed(error: Error) | CreatePanic

  /** One template's share of `CreatePipelines`: an early return without an error contributes nothing. */
  function Share(g: Generation): (r: Creation)
  {
    match g
    case Generated(ps) => Created(ps)
    case Aborted(None) => Created([])
    case Aborted(Some(e)) => CreateFailed(e)
    case GenerationPanic => CreatePanic
  }

  /**
   `CreatePipelines`: the workspace template (read from disk: a parameter)
   with the workspace generators, then the pipeline-resource template with
   the resource generators; the first failure ends it. The pipelines are
   gathered into a manifest, which cannot fail for a list of resources.
   */
  function CreatePipelines(workspaced: Result<seq<Doc>>, resourced: Result<seq<Doc>>, runtimes: seq<Runtime>, keys: Keys): (r: Creation)
    ensures workspaced.Fail? ==> r == CreateFailed(workspaced.error)
    ensures r.Created? ==> workspaced.Ok? && resourced.Ok?
    ensures r.Created? ==>
      var w := GenerateBasePipeline(workspaced.value, runtimes, WorkspacedGenerators, keys, false);
      var p := GenerateBasePipeline(resourced.value, runtimes, ResourcedGenerators, keys, true);
      Share(w).Created? && Share(p).Created? && r.pipelines == Share(w).pipelines + Share(p).pipelines
  {
    match workspaced
    case Fail(e) => CreateFailed(e)
    case Ok(wt) =>
      match Share(GenerateBasePipeline(wt, runtimes, WorkspacedGenerators, keys, false))
      case Created(wps) =>
        (match resourced
         case Fail(e) => CreateFailed(e)
         case Ok(rt) =>
           match Share(GenerateBasePipeline(rt, runtimes, ResourcedGenerators, keys, true))
           case Created(rps) => Created(wps + rps)
           case other => other)
      case other => other
  }

  /** The pipeline `offset + i * |gens| + j` of `all` is named for runtime `i` and generator `j`, then `suffix`. */
  predicate NamedAt(all: seq<Doc>, offset: nat, runtimes: seq<Runtime>, gens: seq<Generator>, suffix: string, i: nat, j: nat)
    requires i < |runtimes| && j < |gens|
  {
    offset + i * |gens| + j < |all| && all[offset + i * |gens| + j].name == runtimes[i].name + gens[j].nameSuffix + suffix
  }

  /** Every pipeline one template yields is named for its runtime and generator. */
  lemma {:induction false} GeneratedNames(template: seq<Doc>, runtimes: seq<Runtime>, gens: seq<Generator>, keys: Keys, usingResource: bool, i: nat, j: nat)
    requires GenerateBasePipeline(template, runtimes, gens, keys, usingResource).Generated?
    requires i < |runtimes| && j < |gens|
    ensures NamedAt(GenerateBasePipeline(template, runtimes, gens, keys, usingResource).pipelines, 0, runtimes, gens,
                    if usingResource then "-pr" else "", i, j)
    decreases i
  {
    var ps := SplitBlocks(template, runtimes, gens, keys, usingResource);
    if i == 0 {
      FirstNamed(PrepareBase(template[0], runtimes[0], keys, usingResource).doc, runtimes, gens, keys, usingResource,
                 GenerateBasePipeline(template, runtimes, gens, keys, usingResource).pipelines, ps,
                 GenerateBasePipeline(template, runtimes[1..], gens, keys, usingResource).pipelines, j);
    } else {
      GeneratedNames(template, runtimes[1..], gens, keys, usingResource, i - 1, j);
      NamedShift(GenerateBasePipeline(template, runtimes, gens, keys, usingResource).pipelines, ps,
                 GenerateBasePipeline(template, runtimes[1..], gens, keys, usingResource).pipelines,
                 runtimes, gens, if usingResource then "-pr" else "", i, j);
    }
  }

  /** The block generated from a base pipeline named for the first runtime is named for it, generator by generator. */
  lemma FirstNamed(base: Doc, runtimes: seq<Runtime>, gens: seq<Generator>, keys: Keys, usingResource: bool,
                   all: seq<Doc>, ps: seq<Doc>, qs: seq<Doc>, j: nat)
    requires |runtimes| > 0 && j < |gens|
    requires base.name == runtimes[0].name && Tasks(base).Some?
    requires GenerateEach(gens, keys, base, usingResource) == Generated(ps)
    requires all == ps + qs
    ensures NamedAt(all, 0, runtimes, gens, if usingResource then "-pr" else "", 0, j)
  {
    GenerateEachPipeline(gens, keys, base, usingResource, j);
    GenerateIdentity(gens[j], keys, base, usingResource, ps[j]);
    assert all[j] == ps[j];
  }

  /** A name found in the later runtimes' pipelines is found one block further on in the whole list. */
  lemma NamedShift(all: seq<Doc>, ps: seq<Doc>, qs: seq<Doc>, runtimes: seq<Runtime>, gens: seq<Generator>, suffix: string, i: nat, j: nat)
    requires 0 < i < |runtimes| && j < |gens|
    requires all == ps + qs && |ps| == |gens|
    requires NamedAt(qs, 0, runtimes[1..], gens, suffix, i - 1, j)
    ensures NamedAt(all, 0, runtimes, gens, suffix, i, j)
  {
    assert runtimes[1..][i - 1] == runtimes[i];
    BlockIndex(all, ps, qs, |gens|, i, j);
  }

  /**
   When both templates yield their pipelines, there are six per runtime:
   the three workspace pipelines of every runtime first, none named with
   "-pr", then the three pipeline-resource ones, all ending in "-pr".
   */
  lemma CreatePipelinesLayout(workspaced: seq<Doc>, resourced: seq<Doc>, runtimes: seq<Runtime>, keys: Keys)
    requires GenerateBasePipeline(workspaced, runtimes, WorkspacedGenerators, keys, false).Generated?
    requires GenerateBasePipeline(resourced, runtimes, ResourcedGenerators, keys, true).Generated?
    ensures CreatePipelines(Ok(workspaced), Ok(resourced), runtimes, keys).Created?
    ensures |CreatePipelines(Ok(workspaced), Ok(resourced), runtimes, keys).pipelines| == 6 * |runtimes|
    ensures forall i: nat, j: nat :: i < |runtimes| && j < 3 ==>
      NamedAt(CreatePipelines(Ok(workspaced), Ok(resourced), runtimes, keys).pipelines, 0, runtimes, WorkspacedGenerators, "", i, j) &&
      NamedAt(CreatePipelines(Ok(workspaced), Ok(resourced), runtimes, keys).pipelines, 3 * |runtimes|, runtimes, ResourcedGenerators, "-pr", i, j)
  {
    CreatedBlocks(workspaced, resourced, runtimes, keys);
    GenerateBasePipelineCount(workspaced, runtimes, WorkspacedGenerators, keys, false);
    GenerateBasePipelineCount(resourced, runtimes, ResourcedGenerators, keys, true);
    forall i: nat, j: nat | i < |runtimes| && j < 3
      ensures NamedAt(CreatePipelines(Ok(workspaced), Ok(resourced), runtimes, keys).pipelines, 0, runtimes, WorkspacedGenerators, "", i, j)
      ensures NamedAt(CreatePipelines(Ok(workspaced), Ok(resourced), runtimes, keys).pipelines, 3 * |runtimes|, runtimes, ResourcedGenerators, "-pr", i, j)
    {
      CreatedNamesAt(workspaced, resourced, runtimes, keys, i, j);
    }
  }

  /** Both templates yielding their pipelines, the result is the workspace pipelines followed by the resource ones. */
  lemma CreatedBlocks(workspaced: seq<Doc>, resourced: seq<Doc>, runtimes: seq<Runtime>, keys: Keys)
    requires GenerateBasePipeline(workspaced, runtimes, WorkspacedGenerators, keys, false).Generated?
    requires GenerateBasePipeline(resourced, runtimes, ResourcedGenerators, keys, true).Generated?
    ensures CreatePipelines(Ok(workspaced), Ok(resourced), runtimes, keys) ==
      Created(GenerateBasePipeline(workspaced, runtimes, WorkspacedGenerators, keys, false).pipelines +
              GenerateBasePipeline(resourced, runtimes, ResourcedGenerators, keys, true).pipelines)
  {
  }

  /** The two pipelines of runtime `i` and generator `j` in the created list carry their names. */
  lemma CreatedNamesAt(workspaced: seq<Doc>, resourced: seq<Doc>, runtimes: seq<Runtime>, keys: Keys, i: nat, j: nat)
    requires GenerateBasePipeline(workspaced, runtimes, WorkspacedGenerators, keys, false).Generated?
    requires GenerateBasePipeline(resourced, runtimes, ResourcedGenerators, keys, true).Generated?
    requires i < |runtimes| && j < 3
    ensures CreatePipelines(Ok(workspaced), Ok(resourced), runtimes, keys).Created?
    ensures NamedAt(CreatePipelines(Ok(workspaced), Ok(resourced), runtimes, keys).pipelines, 0, runtimes, WorkspacedGenerators, "", i, j)
    ensures NamedAt(CreatePipelines(Ok(workspaced), Ok(resourced), runtimes, keys).pipelines, 3 * |runtimes|, runtimes, ResourcedGenerators, "-pr", i, j)
  {
    CreatedBlocks(workspaced, resourced, runtimes, keys);
    GenerateBasePipelineCount(workspaced, runtimes, WorkspacedGenerators, keys, false);
    var w := GenerateBasePipeline(workspaced, runtimes, WorkspacedGenerators, keys, false).pipelines;
    var p := GenerateBasePipeline(resourced, runtimes, ResourcedGenerators, keys, true).pipelines;
    GeneratedNames(workspaced, runtimes, WorkspacedGenerators, keys, false, i, j);
    GeneratedNames(resourced, runtimes, ResourcedGenerators, keys, true, i, j);
    ScaleByThree(|w|, |runtimes|, |WorkspacedGenerators|);
    NamedInConcat(w, p, 3 * |runtimes|, runtimes, WorkspacedGenerators, "", i, j);
    NamedInConcat(w, p, 3 * |runtimes|, runtimes, ResourcedGenerators, "-pr", i, j);
  }

  lemma ScaleByThree(total: nat, n: nat, g: nat)
    requires g == 3 && total == n * g
    ensures total == 3 * n
  {
  }

  /** Names found in either part of a concatenation are found in the whole, the second part's shifted by the first's length. */
  lemma NamedInConcat(a: seq<Doc>, b: seq<Doc>, offset: nat, runtimes: seq<Runtime>, gens: seq<Generator>, suffix: string, i: nat, j: nat)
    requires i < |runtimes| && j < |gens| && offset == |a|
    ensures NamedAt(a, 0, runtimes, gens, suffix, i, j) ==> NamedAt(a + b, 0, runtimes, gens, suffix, i, j)
    ensures NamedAt(b, 0, runtimes, gens, suffix, i, j) ==> NamedAt(a + b, offset, runtimes, gens, suffix, i, j)
  {
  }
}

=== FILE: cluster.dfy ===
/**
 The Kubernetes API server as an abstract store. Objects are filed by
 (kind, namespace, name); a static fault table says which calls fail and
 with what error; every call is appended to a trace so that call order and
 the absence of writes can be stated. Each call is a pure function from one
 cluster state to the next.
 */
module Cluster {
  import opened Common
  import opened Unstructured

  datatype Verb = GetVerb | CreateVerb | UpdateVerb | DeleteVerb

  /** One API call, as a recording client would log it. */
  datatype Call = Call(verb: Verb, key: Key)

  datatype State = State(
    objects: map<Key, Object>,
    faults: map<(Verb, Key), Error>,
    calls: seq<Call>)

  /** The fault injected for a call, if any. */
  function Fault(c: State, v: Verb, k: Key): Option<Error>
  {
    if (v, k) in c.faults then Some(c.faults[(v, k)]) else None
  }

  function NotFoundError(k: Key): Error
  {
    Error(NotFound, k.kind + " \"" + k.name + "\" not found")
  }

  function AlreadyExistsError(k: Key): Error
  {
    Error(AlreadyExists, k.kind + " \"" + k.name + "\" already exists")
  }

  function Record(c: State, v: Verb, k: Key): State
  {
    c.(calls := c.calls + [Call(v, k)])
  }

  /** GET: the stored object, the injected fault, or NotFound. */
  function Get(c: State, k: Key): (r: (State, Result<Object>))
    ensures r.0 == Record(c, GetVerb, k)
    ensures r.1.Ok? <==> Fault(c, GetVerb, k).None? && k in c.objects
    ensures r.1.Ok? ==> r.1.value == c.objects[k]
    ensures Fault(c, GetVerb, k).None? && k !in c.objects ==> r.1 == Fail(NotFoundError(k))
  {
    var c' := Record(c, GetVerb, k);
    if Fault(c, GetVerb, k).Some? then (c', Fail(Fault(c, GetVerb, k).value))
    else if k in c.objects then (c', Ok(c.objects[k]))
    else (c', Fail(NotFoundError(k)))
  }

  /** CREATE: stores a new object; AlreadyExists when the key is taken. */
  function Create(c: State, k: Key, o: Object): (r: (State, Option<Error>))
    ensures r.0.calls == c.calls + [Call(CreateVerb, k)] && r.0.faults == c.faults
    ensures r.1.None? <==> Fault(c, CreateVerb, k).None? && k !in c.objects
    ensures r.1.None? ==> r.0.objects == c.objects[k := o]
    ensures r.1.Some? ==> r.0.objects == c.objects
    ensures r.0.objects - {k} == c.objects - {k} && c.objects.Keys <= r.0.objects.Keys
  {
    StoreOutside(c.objects, k, o);
    var c' := Record(c, CreateVerb, k);
    if Fault(c, CreateVerb, k).Some? then (c', Fault(c, CreateVerb, k))
    else if k in c.objects then (c', Some(AlreadyExistsError(k)))
    else (c'.(objects := c.objects[k := o]), None)
  }

  /** UPDATE: replaces an existing object; NotFound when there is none. */
  function Update(c: State, k: Key, o: Object): (r: (State, Option<Error>))
    ensures r.0.calls == c.calls + [Call(UpdateVerb, k)] && r.0.faults == c.faults
    ensures r.1.None? <==> Fault(c, UpdateVerb, k).None? && k in c.objects
    ensures r.1.None? ==> r.0.objects == c.objects[k := o]
    ensures r.1.Some? ==> r.0.objects == c.objects
    ensures r.0.objects - {k} == c.objects - {k} && c.objects.Keys <= r.0.objects.Keys
  {
    StoreOutside(c.objects, k, o);
    var c' := Record(c, UpdateVerb, k);
    if Fault(c, UpdateVerb, k).Some? then (c', Fault(c, UpdateVerb, k))
    else if k !in c.objects then (c', Some(NotFoundError(k)))
    else (c'.(objects := c.objects[k := o]), None)
  }

  /** Storing under `k` changes nothing under any other key. */
  lemma StoreOutside(m: map<Key, Object>, k: Key, o: Object)
    ensures m[k := o] - {k} == m - {k}
  {
  }

  /** DELETE: removes an existing object; NotFound when there is none. */
  function Delete(c: State, k: Key): (r: (State, Option<Error>))
    ensures r.0.calls == c.calls + [Call(DeleteVerb, k)] && r.0.faults == c.faults
    ensures r.1.None? <==> Fault(c, DeleteVerb, k).None? && k in c.objects
    ensures r.1.None? ==> r.0.objects == c.objects - {k}
    ensures r.1.Some? ==> r.0.objects == c.objects
  {
    var c' := Record(c, DeleteVerb, k);
    if Fault(c, DeleteVerb, k).Some? then (c', Fault(c, DeleteVerb, k))
    else if k !in c.objects then (c', Some(NotFoundError(k)))
    else (c'.(objects := c.objects - {k}), None)
  }

  /** True when no call concerning one of `keys` has a fault injected. */
  predicate NoFaults(c: State, keys: set<Key>)
  {
    forall v: Verb, k: Key :: k in keys ==> (v, k) !in c.faults
  }

  /** Two stores that agree outside `s1`, and outside `s2`, compose to agree outside both. */
  lemma SameOutside(a: map<Key, Object>, b: map<Key, Object>, m: map<Key, Object>, s1: set<Key>, s2: set<Key>)
    requires a - s1 == b - s1 && b - s2 == m - s2
    ensures a - (s1 + s2) == m - (s1 + s2)
  {
    forall k | k !in s1 + s2
      ensures (k in a <==> k in m) && (k in a ==> a[k] == m[k])
    {
      assert k in a - s1 <==> k in b - s1;
      assert k in b - s2 <==> k in m - s2;
      if k in a {
        assert (a - s1)[k] == (b - s1)[k];
        assert (b - s2)[k] == (m - s2)[k];
      }
    }
  }

  /**
   Two write steps, the first confined to `k1` and the second to `k2`:
   together they keep every object present, change nothing outside both
   sets and make calls about both sets only.
   */
  lemma WritesCompose(a: State, b: State, c: State, k1: set<Key>, k2: set<Key>)
    requires b.faults == a.faults && Extends(a, b, k1) && a.objects.Keys <= b.objects.Keys && b.objects - k1 == a.objects - k1
    requires c.faults == b.faults && Extends(b, c, k2) && b.objects.Keys <= c.objects.Keys && c.objects - k2 == b.objects - k2
    ensures c.faults == a.faults && Extends(a, c, k1 + k2) && a.objects.Keys <= c.objects.Keys
    ensures c.objects - (k1 + k2) == a.objects - (k1 + k2)
  {
    ExtendsTrans(a, b, c, k1, k2);
    SameOutside(c.objects, b.objects, a.objects, k2, k1);
    assert k1 + k2 == k2 + k1;
  }

  /** A write step confined to `k1` is confined to any larger set. */
  lemma WritesWiden(a: State, b: State, k1: set<Key>, k2: set<Key>)
    requires Extends(a, b, k1) && b.objects - k1 == a.objects - k1 && k1 <= k2
    ensures Extends(a, b, k2) && b.objects - k2 == a.objects - k2
  {
    forall k | k !in k2
      ensures (k in b.objects <==> k in a.objects) && (k in b.objects ==> b.objects[k] == a.objects[k])
    {
      assert k in b.objects - k1 <==> k in a.objects - k1;
      if k in b.objects {
        assert (b.objects - k1)[k] == (a.objects - k1)[k];
      }
    }
  }

  /**
   Two removal steps, the first confined to `k1` and the second to `k2`:
   together they only remove, only within both sets, and remove all of both
   when neither meets a fault.
   */
  lemma RemovalsCompose(a: State, b: State, c: State, k1: set<Key>, k2: set<Key>)
    requires b.faults == a.faults && b.objects.Keys <= a.objects.Keys && b.objects - k1 == a.objects - k1
    requires NoFaults(a, k1) ==> b.objects == a.objects - k1
    requires c.faults == b.faults && c.objects.Keys <= b.objects.Keys && c.objects - k2 == b.objects - k2
    requires NoFaults(b, k2) ==> c.objects == b.objects - k2
    ensures c.faults == a.faults && c.objects.Keys <= a.objects.Keys
    ensures c.objects - (k2 + k1) == a.objects - (k2 + k1)
    ensures NoFaults(a, k2 + k1) ==> c.objects == a.objects - (k2 + k1)
  {
    SameOutside(c.objects, b.objects, a.objects, k2, k1);
    assert k1 + k2 == k2 + k1;
  }

  /** True when no call in `calls` is a write (create, update or delete). */
  predicate ReadOnly(calls: seq<Call>)
  {
    forall i :: 0 <= i < |calls| ==> calls[i].verb == GetVerb
  }

  /** True when every call in `calls` concerns one of `keys`. */
  predicate Touches(calls: seq<Call>, keys: set<Key>)
  {
    forall i :: 0 <= i < |calls| ==> calls[i].key in keys
  }

  /**
   `after` continues the trace of `before`: every earlier call is kept in
   place and every call added concerns one of `keys`.
   */
  predicate Extends(before: State, after: State, keys: set<Key>)
  {
    |before.calls| <= |after.calls| && after.calls[..|before.calls|] == before.calls &&
    Touches(after.calls[|before.calls|..], keys)
  }

  /** Continuing a continuation: the calls added by both steps concern the keys of either. */
  lemma ExtendsTrans(a: State, b: State, c: State, k1: set<Key>, k2: set<Key>)
    requires Extends(a, b, k1) && Extends(b, c, k2)
    ensures Extends(a, c, k1 + k2)
  {
    assert c.calls[..|a.calls|] == c.calls[..|b.calls|][..|a.calls|];
    forall i | 0 <= i < |c.calls| - |a.calls|
      ensures c.calls[|a.calls|..][i].key in k1 + k2
    {
      if |a.calls| + i < |b.calls| {
        assert c.calls[|a.calls| + i] == b.calls[|a.calls| + i];
        assert b.calls[|a.calls|..][i] == b.calls[|a.calls| + i];
      } else {
        assert c.calls[|b.calls|..][|a.calls| + i - |b.calls|] == c.calls[|a.calls| + i];
      }
    }
  }

  /** Widening the keys a continuation may concern. */
  lemma ExtendsWiden(a: State, b: State, k1: set<Key>, k2: set<Key>)
    requires Extends(a, b, k1) && k1 <= k2
    ensures Extends(a, b, k2)
  {
  }

  /** True when no call about `later` is followed by a call about `earlier`. */
  predicate Ordered(calls: seq<Call>, earlier: set<Key>, later: set<Key>)
  {
    forall i, j :: 0 <= i < j < |calls| && calls[i].key in later ==> calls[j].key !in earlier
  }

  /**
   Two continuations over disjoint keys, one after the other: every call
   about the first step's keys comes before every call about the second's.
   */
  lemma ExtendsOrdered(a: State, b: State, c: State, k1: set<Key>, k2: set<Key>)
    requires Extends(a, b, k1) && Extends(b, c, k2) && k1 !! k2
    ensures Ordered(c.calls[|a.calls|..], k1, k2)
  {
    var calls := c.calls[|a.calls|..];
    var n := |b.calls| - |a.calls|;
    forall i | 0 <= i < |calls|
      ensures i < n ==> calls[i].key in k1
      ensures i >= n ==> calls[i].key in k2
    {
      if i < n {
        assert calls[i] == c.calls[|a.calls| + i] == b.calls[|a.calls| + i];
        assert b.calls[|a.calls|..][i] == b.calls[|a.calls| + i];
      } else {
        assert c.calls[|b.calls|..][i - n] == calls[i];
      }
    }
  }

  /** The keys a list of documents is filed under. */
  function Keys(docs: seq<Doc>): set<Key>
  {
    set i | 0 <= i < |docs| :: KeyOf(docs[i])
  }

  /** The keys of a non-empty manifest: its first document's and the rest's. */
  lemma KeysCons(docs: seq<Doc>)
    requires |docs| > 0
    ensures Keys(docs) == Keys(docs[1..]) + {KeyOf(docs[0])}
    ensures Keys(docs) == {KeyOf(docs[0])} + Keys(docs[1..])
  {
    assert docs == [docs[0]] + docs[1..];
    KeysAppend([docs[0]], docs[1..]);
    KeysSingle(docs[0]);
  }

  lemma KeysAppend(a: seq<Doc>, b: seq<Doc>)
    ensures Keys(a + b) == Keys(a) + Keys(b)
  {
    forall k | k in Keys(a + b) ensures k in Keys(a) + Keys(b) {
      var i :| 0 <= i < |a + b| && k == KeyOf((a + b)[i]);
      if i >= |a| { assert (a + b)[i] == b[i - |a|]; }
    }
    forall k | k in Keys(a) ensures k in Keys(a + b) {
      var i :| 0 <= i < |a| && k == KeyOf(a[i]);
      assert (a + b)[i] == a[i];
    }
    forall k | k in Keys(b) ensures k in Keys(a + b) {
      var i :| 0 <= i < |b| && k == KeyOf(b[i]);
      assert (a + b)[|a| + i] == b[i];
    }
  }

  /** A document's key is among the keys of any list holding it. */
  lemma KeyIn(docs: seq<Doc>, d: Doc)
    requires d in docs
    ensures KeyOf(d) in Keys(docs)
  {
    var i :| 0 <= i < |docs| && docs[i] == d;
  }

  /** Fewer documents, fewer keys. */
  lemma KeysSubset(sub: seq<Doc>, docs: seq<Doc>)
    requires forall d :: d in sub ==> d in docs
    ensures Keys(sub) <= Keys(docs)
  {
    forall k | k in Keys(sub) ensures k in Keys(docs) {
      var i :| 0 <= i < |sub| && k == KeyOf(sub[i]);
      KeyIn(docs, sub[i]);
    }
  }

  lemma KeysSingle(d: Doc)
    ensures Keys([d]) == {KeyOf(d)}
  {
    assert KeyOf([d][0]) in Keys([d]);
  }
}

=== FILE: common.dfy ===
/**
 Shared vocabulary of the operator model: optional values, results, the
 Kubernetes API error classification, and the few `strings` package
 operations the Go sources rely on.
 */
module Common {

  /** Go's nil-or-value, for pointers the sources test against nil. */
  datatype Option<+T> = None | Some(value: T) {
    function GetOr(default: T): T
    {
      match this
      case Some(v) => v
      case None => default
    }
  }

  /**
   The classification `k8s.io/apimachinery/pkg/api/errors` offers through
   IsNotFound, IsAlreadyExists and IsInvalid; every other API failure is Other.
   */
  datatype Reason = NotFound | AlreadyExists | Invalid | Other

  /** An error value: its classification and its `Error()` text. */
  datatype Error = Error(reason: Reason, message: string)

  /** A value or the error that replaced it. */
  datatype Result<+T> = Ok(value: T) | Fail(error: Error)

  /** True when `err` is set and classified as NotFound. */
  predicate IsNotFound(err: Option<Error>)
  {
    err.Some? && err.value.reason == NotFound
  }

  /**
   `ignoreNotFound`: a NotFound error reads as success, any other error is
   passed through unchanged.
   */
  function IgnoreNotFound(err: Option<Error>): (r: Option<Error>)
    ensures r.None? <==> err.None? || err.value.reason == NotFound
    ensures r.Some? ==> r == err
  {
    if IsNotFound(err) then None else err
  }

  /** ASCII lower-casing of one character. */
  function Lower(c: char): char
  {
    if 'A' <= c <= 'Z' then (c as int + 32) as char else c
  }

  /** `strings.ToLower`, restricted to ASCII letters. */
  function ToLower(s: string): string
  {
    seq(|s|, i requires 0 <= i < |s| => Lower(s[i]))
  }

  /** Lower-casing twice is lower-casing once. */
  lemma ToLowerIdempotent(s: string)
    ensures ToLower(ToLower(s)) == ToLower(s)
  {
  }

  /** Lower-casing works character by character, so it distributes over concatenation and prefixes. */
  lemma ToLowerAppend(a: string, b: string)
    ensures ToLower(a + b) == ToLower(a) + ToLower(b)
  {
  }

  lemma ToLowerPrefix(s: string, n: nat)
    requires n <= |s|
    ensures ToLower(s[..n]) == ToLower(s)[..n]
  {
  }

  predicate HasPrefix(s: string, prefix: string)
  {
    |prefix| <= |s| && s[..|prefix|] == prefix
  }

  predicate HasSuffix(s: string, suffix: string)
  {
    |suffix| <= |s| && s[|s| - |suffix|..] == suffix
  }
}

=== FILE: config_controller.dfy ===
/**
 The config controller: one reconciliation pass over the cluster-wide
 `Config` resource. The head of its condition ledger says which phase runs
 next (apply pipeline, validate it, apply triggers, validate them, apply
 addons, apply community resources, then stay installed); every phase
 writes its own success or failure code at the head, so a failed phase is
 retried on the next pass and a successful one hands over to the next.

 Everything the pass reads from or writes to the API server other than the
 manifests is an input here: how the status write ends, the Deployments and
 webhook configurations the validators look up, and the transformers whose
 bodies are not part of this model.
 */
module ConfigController {
  import opened Common
  import opened Unstructured
  import opened Ledger
  import Cluster
  import Manifestival
  import Predicates
  import Transforms
  import Readiness

  /** `reconcile.Result`: whether to requeue, and after how many seconds. */
  datatype Requeue = Requeue(requeue: bool, after: nat)

  /** The empty result: the pass is finished and nothing is scheduled. */
  const Stop := Requeue(false, 0)

  /** The delay the validate phases ask for, in seconds. */
  const ValidateDelay := 15

  /** The operator's settings the controller reads. */
  datatype Flags = Flags(
    resourceWatched: string,
    tektonVersion: string,
    operatorUUID: string,
    triggersWebhookConfiguration: string)

  /** The default service account written into config-defaults. */
  const DefaultSA := "pipeline"

  const PipelineControllerName := "tekton-pipelines-controller"
  const PipelineWebhookName := "tekton-pipelines-webhook"
  const PipelineWebhookConfiguration := "webhook.pipeline.tekton.dev"
  const TriggerControllerName := "tekton-triggers-controller"
  const TriggerWebhookName := "tekton-triggers-webhook"

  /** The four manifests the controller installs. */
  datatype Component = Pipeline | Triggers | Addons | Community

  /**
   The reconciler's own state: the four manifests (replaced by their
   transformed form once a transformation succeeds) and the component
   versions read back after validation.
   */
  datatype Reconciler = Reconciler(
    pipeline: Manifestival.Manifest,
    triggers: Manifestival.Manifest,
    addons: Manifestival.Manifest,
    community: Manifestival.Manifest,
    pipelineVersion: string,
    triggersVersion: string)

  function ManifestOf(rec: Reconciler, comp: Component): Manifestival.Manifest
  {
    match comp
    case Pipeline => rec.pipeline
    case Triggers => rec.triggers
    case Addons => rec.addons
    case Community => rec.community
  }

  function WithManifest(rec: Reconciler, comp: Component, m: Manifestival.Manifest): (r: Reconciler)
    ensures ManifestOf(r, comp) == m
    ensures forall other :: other != comp ==> ManifestOf(r, other) == ManifestOf(rec, other)
    ensures r.pipelineVersion == rec.pipelineVersion && r.triggersVersion == rec.triggersVersion
  {
    match comp
    case Pipeline => rec.(pipeline := m)
    case Triggers => rec.(triggers := m)
    case Addons => rec.(addons := m)
    case Community => rec.(community := m)
  }

  /**
   How the status write ends: stored and read back, refused by the API
   server, or stored but not read back.
   */
  datatype StatusWrite = Persisted | Rejected(error: Error) | RefreshFailed(error: Error)

  /**
   What a pass sees of the world: the cluster store, the outcomes of the
   calls made outside it, and the transformers whose bodies are not
   modelled.
   */
  datatype World = World(
    cluster: Cluster.State,
    lastApplied: Doc -> string,
    patch: Manifestival.Patcher,
    injectOwner: Owner -> Manifestival.Transformer,
    injectNamespace: string -> Manifestival.Transformer,
    crdWebhookClientConfig: string -> Manifestival.Transformer,
    disableAffinityAssistant: Manifestival.Transformer,
    roleBindingNamespace: string -> Manifestival.Transformer,
    extras: Component -> seq<Manifestival.Transformer>,
    deployment: (string, string) -> Result<Readiness.Deployment>,
    webhook: string -> Option<Error>,
    componentVersion: (Manifestival.Manifest, string, string) -> string,
    statusWrite: StatusWrite)

  /**
   The end of a pass: the result and error returned, the status stored (if
   any), and the new state. A pass that panics never returns: `panicked`
   marks it, and such a pass has written nothing and changed nothing.
   */
  datatype Outcome = Outcome(
    result: Requeue,
    err: Option<Error>,
    written: Option<Status>,
    rec: Reconciler,
    cluster: Cluster.State,
    panicked: bool)

  /** A pass that panicked before its first write. */
  function Crashed(w: World, rec: Reconciler): Outcome
  {
    Outcome(Stop, None, None, rec, w.cluster, true)
  }

  /** The owner every installed resource points back to. */
  function OwnerOf(cfg: Config): Owner
  {
    Owner("operator.tekton.dev/v1alpha1", "Config", cfg.name, "", cfg.uid)
  }

  // ---------------------------------------------------------------- transformManifest

  predicate IsRoleBinding(d: Doc)
  {
    d.Kind() == "RoleBinding"
  }

  predicate NotRoleBinding(d: Doc)
  {
    !IsRoleBinding(d)
  }

  /**
   The transformers for everything but RoleBindings: the fixed five, then
   the phase's own. The fourth is the operator's default-service-account
   transformer as written, which panics on a config-defaults without data.
   */
  function RestChain(w: World, cfg: Config, comp: Component): (r: seq<Manifestival.Transformer>)
    ensures |r| == 5 + |w.extras(comp)| && r[5..] == w.extras(comp)
    ensures r[3] == Transforms.InjectDefaultSA(DefaultSA)
  {
    [w.injectOwner(OwnerOf(cfg)),
     Transforms.InjectNamespaceConditional(Transforms.PreserveNamespace, w.injectNamespace(cfg.targetNamespace)),
     w.crdWebhookClientConfig(cfg.targetNamespace),
     Transforms.InjectDefaultSA(DefaultSA),
     w.disableAffinityAssistant] + w.extras(comp)
  }

  /** The same chain with the corrected default-service-account transformer, which never panics. */
  function RestChainCorrected(w: World, cfg: Config, comp: Component): (r: seq<Manifestival.Transformer>)
    ensures |r| == |RestChain(w, cfg, comp)|
    ensures forall i :: 0 <= i < |r| && i != 3 ==> r[i] == RestChain(w, cfg, comp)[i]
    ensures r[3] == Transforms.InjectDefaultSACorrected(DefaultSA)
    ensures forall d :: !r[3](d).Panicked?
  {
    RestChain(w, cfg, comp)[3 := Transforms.InjectDefaultSACorrected(DefaultSA)]
  }

  /** The transformers for RoleBindings. */
  function RoleBindingChain(w: World, cfg: Config): seq<Manifestival.Transformer>
  {
    [w.injectOwner(OwnerOf(cfg)), w.roleBindingNamespace(cfg.targetNamespace)]
  }

  /** True when some document's transformation stops with an error or a panic. */
  predicate SomeStops(docs: seq<Doc>, fns: seq<Manifestival.Transformer>)
  {
    exists i :: 0 <= i < |docs| && !Manifestival.TransformDoc(fns, docs[i]).Rewritten?
  }

  /** The manifest's documents that are not RoleBindings, and those that are, each in manifest order. */
  lemma RoleBindingSplit(docs: seq<Doc>)
    ensures Predicates.Filter(docs, [Some(Predicates.ByKind("RoleBinding"))]) == Predicates.Select(docs, IsRoleBinding)
    ensures Predicates.Filter(docs, [Some(Predicates.Complement(Predicates.ByKind("RoleBinding")))]) ==
      Predicates.Select(docs, NotRoleBinding)
    ensures |Predicates.Select(docs, NotRoleBinding)| + |Predicates.Select(docs, IsRoleBinding)| == |docs|
  {
    var p := Predicates.ByKind("RoleBinding");
    Predicates.FilterSelects(docs, p, IsRoleBinding);
    Predicates.FilterSelects(docs, Predicates.Complement(p), NotRoleBinding);
    RoleBindingSizes(docs);
  }

  /** Every document is a RoleBinding or not, never both. */
  lemma RoleBindingSizes(docs: seq<Doc>)
    ensures |Predicates.Select(docs, NotRoleBinding)| + |Predicates.Select(docs, IsRoleBinding)| == |docs|
  {
    Predicates.SelectPartition(docs, IsRoleBinding);
    Predicates.SelectSame(docs, d => !IsRoleBinding(d), NotRoleBinding);
  }

  /**
   `transformManifest`: the non-RoleBindings through `restFns`, then the
   RoleBindings through `rbFns`, concatenated in that order. The first
   document whose transformation stops decides the outcome: its error, or
   its panic; the non-RoleBindings are all transformed before any
   RoleBinding. The two kind filters of the code pick the documents
   `Select` picks (`RoleBindingSplit`).
   */
  function TransformManifest(m: Manifestival.Manifest, restFns: seq<Manifestival.Transformer>, rbFns: seq<Manifestival.Transformer>)
    : (r: Manifestival.Rewrite<Manifestival.Manifest>)
    ensures var rest := Predicates.Select(m.resources, NotRoleBinding);
      var rbs := Predicates.Select(m.resources, IsRoleBinding);
      && (r.Rewritten? <==> !SomeStops(rest, restFns) && !SomeStops(rbs, rbFns))
      && (SomeStops(rest, restFns) ==>
            exists i :: Manifestival.StopsAt(restFns, rest, i) && Manifestival.StopsLike(r, Manifestival.TransformDoc(restFns, rest[i])))
      && (!SomeStops(rest, restFns) && SomeStops(rbs, rbFns) ==>
            exists j :: Manifestival.StopsAt(rbFns, rbs, j) && Manifestival.StopsLike(r, Manifestival.TransformDoc(rbFns, rbs[j])))
      && (r.Rewritten? ==> |r.value.resources| == |m.resources| == |rest| + |rbs|)
      && (r.Rewritten? ==> forall i :: 0 <= i < |rest| ==>
            Manifestival.TransformDoc(restFns, rest[i]) == Manifestival.Rewritten(r.value.resources[i]))
      && (r.Rewritten? ==> forall j :: 0 <= j < |rbs| ==>
            Manifestival.TransformDoc(rbFns, rbs[j]) == Manifestival.Rewritten(r.value.resources[|rest| + j]))
  {
    RoleBindingSizes(m.resources);
    TransformParts(Predicates.Select(m.resources, NotRoleBinding), Predicates.Select(m.resources, IsRoleBinding), restFns, rbFns)
  }

  /** The two passes of `transformManifest` over the parts already split off. */
  function TransformParts(rest: seq<Doc>, rbs: seq<Doc>,
                          restFns: seq<Manifestival.Transformer>, rbFns: seq<Manifestival.Transformer>)
    : (r: Manifestival.Rewrite<Manifestival.Manifest>)
    ensures r.Rewritten? <==> !SomeStops(rest, restFns) && !SomeStops(rbs, rbFns)
    ensures SomeStops(rest, restFns) ==>
      exists i :: Manifestival.StopsAt(restFns, rest, i) && Manifestival.StopsLike(r, Manifestival.TransformDoc(restFns, rest[i]))
    ensures !SomeStops(rest, restFns) && SomeStops(rbs, rbFns) ==>
      exists j :: Manifestival.StopsAt(rbFns, rbs, j) && Manifestival.StopsLike(r, Manifestival.TransformDoc(rbFns, rbs[j]))
    ensures r.Rewritten? ==> |r.value.resources| == |rest| + |rbs|
    ensures r.Rewritten? ==> forall i :: 0 <= i < |rest| ==>
      Manifestival.TransformDoc(restFns, rest[i]) == Manifestival.Rewritten(r.value.resources[i])
    ensures r.Rewritten? ==> forall j :: 0 <= j < |rbs| ==>
      Manifestival.TransformDoc(rbFns, rbs[j]) == Manifestival.Rewritten(r.value.resources[|rest| + j])
  {
    match Manifestival.Transform(Manifestival.Manifest(rest), restFns)
    case Refused(e) => Manifestival.Refused(e)
    case Panicked => Manifestival.Panicked
    case Rewritten(rest') =>
      match Manifestival.Transform(Manifestival.Manifest(rbs), rbFns)
      case Refused(e) => Manifestival.Refused(e)
      case Panicked => Manifestival.Panicked
      case Rewritten(rb') =>
        TransformedParts(rest, rbs, restFns, rbFns, rest', rb');
        Manifestival.Rewritten(Manifestival.Append(rest', rb'))
  }

  /** Both parts transformed: the joined result holds each part's documents transformed, in place. */
  lemma TransformedParts(rest: seq<Doc>, rbs: seq<Doc>, restFns: seq<Manifestival.Transformer>, rbFns: seq<Manifestival.Transformer>,
                         a: Manifestival.Manifest, b: Manifestival.Manifest)
    requires Manifestival.Transform(Manifestival.Manifest(rest), restFns) == Manifestival.Rewritten(a)
    requires Manifestival.Transform(Manifestival.Manifest(rbs), rbFns) == Manifestival.Rewritten(b)
    ensures !SomeStops(rest, restFns) && !SomeStops(rbs, rbFns)
    ensures var r := Manifestival.Append(a, b).resources;
      && |r| == |rest| + |rbs|
      && (forall i :: 0 <= i < |rest| ==> Manifestival.TransformDoc(restFns, rest[i]) == Manifestival.Rewritten(r[i]))
      && (forall j :: 0 <= j < |rbs| ==> Manifestival.TransformDoc(rbFns, rbs[j]) == Manifestival.Rewritten(r[|rest| + j]))
  {
    var r := Manifestival.Append(a, b).resources;
    assert |a.resources| == |rest| && |b.resources| == |rbs|;
    forall i | 0 <= i < |rest|
      ensures Manifestival.TransformDoc(restFns, rest[i]) == Manifestival.Rewritten(r[i])
    {
      assert r[i] == r[..|a.resources|][i];
    }
    forall j | 0 <= j < |rbs|
      ensures Manifestival.TransformDoc(rbFns, rbs[j]) == Manifestival.Rewritten(r[|rest| + j])
    {
      assert r[|rest| + j] == r[|a.resources|..][j];
    }
  }

  // ---------------------------------------------------------------- applying a component

  /** `fmt.Errorf(context + ": %w", e)`: the same classification, the context in front of the text. */
  function Wrap(context: string, e: Error): (r: Error)
    ensures r.reason == e.reason
    ensures HasPrefix(r.message, context) && HasSuffix(r.message, e.message)
  {
    Error(e.reason, context + ": " + e.message)
  }

  /** The error `wait.PollImmediate` returns when its condition never holds. */
  const PollTimeout := Error(Other, "timed out waiting for the condition")

  /** True when a read of `k` reports NotFound. */
  predicate Gone(c: Cluster.State, k: Key)
  {
    match Cluster.Fault(c, Cluster.GetVerb, k)
    case Some(e) => e.reason == NotFound
    case None => k !in c.objects
  }

  /**
   The wait after deleting the Deployments and Services: every one of them
   must read as NotFound. A read failing otherwise ends the wait with that
   error; a resource still present keeps it polling until it times out,
   since nothing else changes the store in between.
   */
  function WaitGone(c: Cluster.State, docs: seq<Doc>): (r: (Cluster.State, Option<Error>))
    ensures r.0.objects == c.objects && r.0.faults == c.faults
    ensures Cluster.Extends(c, r.0, Cluster.Keys(docs))
    ensures r.1.None? <==> forall i :: 0 <= i < |docs| ==> Gone(c, KeyOf(docs[i]))
    ensures r.1.Some? ==> r.1.value == PollTimeout || r.1.value.reason != NotFound
    decreases |docs|
  {
    if |docs| == 0 then
      assert c.calls[|c.calls|..] == [];
      (c, None)
    else
      var k := KeyOf(docs[0]);
      var got := Cluster.Get(c, k);
      assert Cluster.Extends(c, got.0, {k}) by {
        assert got.0.calls[|c.calls|..] == [Cluster.Call(Cluster.GetVerb, k)];
      }
      assert Cluster.Keys(docs) == {k} + Cluster.Keys(docs[1..]) by {
        assert docs == [docs[0]] + docs[1..];
        Cluster.KeysAppend([docs[0]], docs[1..]);
        Cluster.KeysSingle(docs[0]);
      }
      assert forall i :: 1 <= i < |docs| ==> docs[i] == docs[1..][i - 1];
      match got.1
      case Fail(e) =>
        if e.reason == NotFound then
          var rest := WaitGone(got.0, docs[1..]);
          Cluster.ExtendsTrans(c, got.0, rest.0, {k}, Cluster.Keys(docs[1..]));
          rest
        else
          Cluster.ExtendsWiden(c, got.0, {k}, Cluster.Keys(docs));
          (got.0, Some(e))
      case Ok(_) =>
        Cluster.ExtendsWiden(c, got.0, {k}, Cluster.Keys(docs));
        (got.0, Some(PollTimeout))
  }

  /** The deletable documents' keys are among the documents' keys, and all of them when every document is deletable. */
  lemma DeletableKeys(docs: seq<Doc>)
    ensures Cluster.Keys(Manifestival.Deletable(docs)) <= Cluster.Keys(docs)
    ensures (forall i :: 0 <= i < |docs| ==> Manifestival.OkToDelete(docs[i])) ==>
      Cluster.Keys(Manifestival.Deletable(docs)) == Cluster.Keys(docs)
  {
    Cluster.KeysSubset(Manifestival.Deletable(docs), docs);
    if forall i :: 0 <= i < |docs| ==> Manifestival.OkToDelete(docs[i]) {
      Cluster.KeysSubset(docs, Manifestival.Deletable(docs));
    }
  }

  /**
   `deleteAndCreate`: delete the Deployments and Services, wait until none
   of them can be read, then apply them again. Only their keys are touched.
   */
  function DeleteAndCreate(c: Cluster.State, w: World, docs: seq<Doc>): (r: (Cluster.State, Option<Error>))
    ensures r.0.faults == c.faults
    ensures Cluster.Extends(c, r.0, Cluster.Keys(docs))
    ensures r.0.objects - Cluster.Keys(docs) == c.objects - Cluster.Keys(docs)
    ensures r.1.None? ==> Cluster.Keys(docs) <= r.0.objects.Keys
  {
    var deleted := Manifestival.Delete(c, docs).0;
    Manifestival.DeleteTrace(c, docs);
    DeletableKeys(docs);
    Cluster.ExtendsWiden(c, deleted, Cluster.Keys(Manifestival.Deletable(docs)), Cluster.Keys(docs));
    var wait := WaitGone(deleted, docs);
    Cluster.ExtendsTrans(c, deleted, wait.0, Cluster.Keys(docs), Cluster.Keys(docs));
    assert deleted.objects - Cluster.Keys(docs) == c.objects - Cluster.Keys(docs) by {
      Cluster.SameOutside(deleted.objects, c.objects, c.objects,
        Cluster.Keys(Manifestival.Deletable(docs)), Cluster.Keys(docs));
      assert Cluster.Keys(Manifestival.Deletable(docs)) + Cluster.Keys(docs) == Cluster.Keys(docs);
    }
    if wait.1.Some? then wait
    else
      var again := Manifestival.Apply(wait.0, w.lastApplied, w.patch, docs);
      Cluster.ExtendsTrans(c, wait.0, again.0, Cluster.Keys(docs), Cluster.Keys(docs));
      (again.0, again.1)
  }

  /**
   With no injected failures on their keys and no Namespace among them, the
   wait after deleting the documents succeeds at once.
   */
  lemma RecreateClearsTheWay(c: Cluster.State, docs: seq<Doc>)
    requires Cluster.NoFaults(c, Cluster.Keys(docs))
    requires forall i :: 0 <= i < |docs| ==> Manifestival.OkToDelete(docs[i])
    ensures WaitGone(Manifestival.Delete(c, docs).0, docs).1.None?
  {
    DeletableKeys(docs);
    var deleted := Manifestival.Delete(c, docs).0;
    forall i | 0 <= i < |docs| ensures Gone(deleted, KeyOf(docs[i])) {
      Cluster.KeyIn(docs, docs[i]);
      assert (Cluster.GetVerb, KeyOf(docs[i])) !in c.faults;
    }
  }

  /** `recreateResource`: the kinds that are deleted and created again when an update is refused as invalid. */
  predicate Recreated(d: Doc)
  {
    d.Kind() == "Deployment" || d.Kind() == "Service"
  }

  predicate Kept(d: Doc)
  {
    !Recreated(d)
  }

  function RecreateResource(): Predicates.Predicate
  {
    Predicates.Test(Recreated)
  }

  /**
   The split of a manifest into Deployments and Services and everything
   else: the two filters select them in manifest order, their keys are
   disjoint and together are the manifest's keys, and none of the
   recreated documents is a Namespace.
   */
  lemma RecreateSplit(docs: seq<Doc>)
    ensures Predicates.Filter(docs, [Some(RecreateResource())]) == Predicates.Select(docs, Recreated)
    ensures Predicates.Filter(docs, [Some(Predicates.Complement(RecreateResource()))]) == Predicates.Select(docs, Kept)
    ensures Cluster.Keys(Predicates.Select(docs, Kept)) + Cluster.Keys(Predicates.Select(docs, Recreated)) == Cluster.Keys(docs)
    ensures Cluster.Keys(Predicates.Select(docs, Kept)) !! Cluster.Keys(Predicates.Select(docs, Recreated))
    ensures forall d :: d in Predicates.Select(docs, Recreated) ==> Manifestival.OkToDelete(d)
  {
    Predicates.FilterSelects(docs, RecreateResource(), Recreated);
    Predicates.FilterSelects(docs, Predicates.Complement(RecreateResource()), Kept);
    RecreateKeys(docs);
  }

  /** The keys of the two parts: disjoint, together the manifest's, and no Namespace among the recreated. */
  lemma RecreateKeys(docs: seq<Doc>)
    ensures Cluster.Keys(Predicates.Select(docs, Kept)) + Cluster.Keys(Predicates.Select(docs, Recreated)) == Cluster.Keys(docs)
    ensures Cluster.Keys(Predicates.Select(docs, Kept)) !! Cluster.Keys(Predicates.Select(docs, Recreated))
    ensures forall d :: d in Predicates.Select(docs, Recreated) ==> Manifestival.OkToDelete(d)
  {
    var kept := Predicates.Select(docs, Kept);
    var recreated := Predicates.Select(docs, Recreated);
    Cluster.KeysSubset(kept, docs);
    Cluster.KeysSubset(recreated, docs);
    forall k | k in Cluster.Keys(docs) ensures k in Cluster.Keys(kept) + Cluster.Keys(recreated) {
      var i :| 0 <= i < |docs| && k == KeyOf(docs[i]);
      if Recreated(docs[i]) {
        Cluster.KeyIn(recreated, docs[i]);
      } else {
        Cluster.KeyIn(kept, docs[i]);
      }
    }
    forall k | k in Cluster.Keys(recreated) ensures k.kind == "Deployment" || k.kind == "Service" {
      var j :| 0 <= j < |recreated| && k == KeyOf(recreated[j]);
      assert recreated[j] in recreated;
    }
    forall k | k in Cluster.Keys(kept) ensures k.kind != "Deployment" && k.kind != "Service" {
      var i :| 0 <= i < |kept| && k == KeyOf(kept[i]);
      assert kept[i] in kept;
    }
  }

  /** The error contexts of the apply phases. */
  function NonRecreateContext(comp: Component): string
  {
    if comp == Pipeline then "failed to apply non deployment and service pipeline manifest"
    else "failed to apply non deployment and service trigger manifest"
  }

  function RecreateContext(comp: Component): string
  {
    if comp == Pipeline then "failed to recreate pipeline deployments and services"
    else "failed to recreate trigger deployments and services"
  }

  function RecreateApplyContext(comp: Component): string
  {
    if comp == Pipeline then "failed to apply pipeline deployments and service"
    else "failed to apply trigger deployments and services"
  }

  const AddonsContext := "failed to apply addons yaml manifest"

  /**
   How applying a component's manifest ended: the cluster afterwards, the
   underlying error (recorded in the ledger), the error returned, and the
   manifest's resources as the reconciler holds them afterwards.
   */
  datatype Applied = Applied(cluster: Cluster.State, cause: Option<Error>, err: Option<Error>, held: seq<Doc>)

  /** The returned error is the recorded cause, possibly with context in front. */
  predicate Explains(a: Applied)
  {
    (a.cause.None? <==> a.err.None?) &&
    (a.err.Some? ==> a.err.value.reason == a.cause.value.reason && HasSuffix(a.err.value.message, a.cause.value.message))
  }

  /** Whether a component's Deployments and Services are applied separately from the rest. */
  predicate Splits(comp: Component)
  {
    comp == Pipeline || comp == Triggers
  }

  /**
   The second half of the split apply: the Deployments and Services, and
   when an update of them is refused as invalid, their deletion and
   re-creation. Only their keys are touched.
   */
  function ApplyRecreated(c: Cluster.State, w: World, comp: Component, recreated: seq<Doc>): (r: Applied)
    requires Splits(comp)
    ensures Explains(r)
    ensures r.cluster.faults == c.faults
    ensures Cluster.Extends(c, r.cluster, Cluster.Keys(recreated))
    ensures r.cluster.objects - Cluster.Keys(recreated) == c.objects - Cluster.Keys(recreated)
    ensures r.err.None? ==> Cluster.Keys(recreated) <= r.cluster.objects.Keys
  {
    var kr := Cluster.Keys(recreated);
    var second := Manifestival.Apply(c, w.lastApplied, w.patch, recreated);
    if second.1.None? then Applied(second.0, None, None, recreated)
    else if second.1.value.reason == Invalid then
      var again := DeleteAndCreate(second.0, w, recreated);
      Cluster.ExtendsTrans(c, second.0, again.0, kr, kr);
      if again.1.Some? then
        Applied(again.0, again.1, Some(Wrap(RecreateContext(comp), again.1.value)), recreated)
      else
        Applied(again.0, None, None, recreated)
    else
      Applied(second.0, second.1, Some(Wrap(RecreateApplyContext(comp), second.1.value)), recreated)
  }

  /**
   The apply step of the pipeline and triggers phases: everything but
   Deployments and Services first, then those. Every call about the first
   set precedes every call about the second; only the manifest's keys are
   touched; a success leaves every resource present. The code's two filters
   pick the documents `Select` picks here (`RecreateSplit`), and they apply
   copies, so the manifest held is left as it was.
   */
  function SplitApply(c: Cluster.State, w: World, comp: Component, docs: seq<Doc>): (r: Applied)
    requires Splits(comp)
    ensures Explains(r)
    ensures r.held == docs
    ensures r.cluster.faults == c.faults
    ensures Cluster.Extends(c, r.cluster, Cluster.Keys(docs))
    ensures Cluster.Ordered(r.cluster.calls[|c.calls|..],
      Cluster.Keys(Predicates.Select(docs, Kept)), Cluster.Keys(Predicates.Select(docs, Recreated)))
    ensures r.cluster.objects - Cluster.Keys(docs) == c.objects - Cluster.Keys(docs)
    ensures r.err.None? ==> Cluster.Keys(docs) <= r.cluster.objects.Keys
  {
    RecreateKeys(docs);
    var kept := Predicates.Select(docs, Kept);
    var recreated := Predicates.Select(docs, Recreated);
    var kk := Cluster.Keys(kept);
    var kr := Cluster.Keys(recreated);
    var first := Manifestival.Apply(c, w.lastApplied, w.patch, kept);
    if first.1.Some? then
      assert first.0.calls[|first.0.calls|..] == [];
      Compose(c, first.0, first.0, kk, kr, Cluster.Keys(docs));
      Applied(first.0, first.1, Some(Wrap(NonRecreateContext(comp), first.1.value)), docs)
    else
      var rest := ApplyRecreated(first.0, w, comp, recreated);
      Compose(c, first.0, rest.cluster, kk, kr, Cluster.Keys(docs));
      rest.(held := docs)
  }

  /**
   Two steps over disjoint keys, the first leaving its keys present: the
   calls of the first all come before those of the second, only their keys
   are touched, and when the second leaves its keys present all are.
   */
  lemma Compose(c: Cluster.State, mid: Cluster.State, fin: Cluster.State, kk: set<Key>, kr: set<Key>, all: set<Key>)
    requires Cluster.Extends(c, mid, kk) && Cluster.Extends(mid, fin, kr)
    requires kk !! kr && kk + kr == all
    requires mid.objects - kk == c.objects - kk && fin.objects - kr == mid.objects - kr
    ensures Cluster.Extends(c, fin, all)
    ensures Cluster.Ordered(fin.calls[|c.calls|..], kk, kr)
    ensures fin.objects - all == c.objects - all
    ensures kk <= mid.objects.Keys && kr <= fin.objects.Keys ==> all <= fin.objects.Keys
  {
    Cluster.ExtendsOrdered(c, mid, fin, kk, kr);
    Cluster.ExtendsTrans(c, mid, fin, kk, kr);
    Cluster.SameOutside(fin.objects, mid.objects, c.objects, kr, kk);
    assert kr + kk == all;
    if kk <= mid.objects.Keys && kr <= fin.objects.Keys {
      forall k | k in kk ensures k in fin.objects {
        assert k in mid.objects - kr;
      }
    }
  }

  /**
   The apply step of the addons and community phases: the whole manifest
   in one call. An addons failure is returned with context, a community
   failure as it is. The call is on the manifest the reconciler holds, so
   the resources it created keep their annotations there.
   */
  function WholeApply(c: Cluster.State, w: World, comp: Component, docs: seq<Doc>): (r: Applied)
    requires !Splits(comp)
    ensures Explains(r)
    ensures r.held == Manifestival.Apply(c, w.lastApplied, w.patch, docs).2
    ensures r.cluster.faults == c.faults
    ensures Cluster.Extends(c, r.cluster, Cluster.Keys(docs))
    ensures r.cluster.objects - Cluster.Keys(docs) == c.objects - Cluster.Keys(docs)
    ensures r.err.None? ==> Cluster.Keys(docs) <= r.cluster.objects.Keys
    ensures comp == Community ==> r.err == r.cause
  {
    var all := Manifestival.Apply(c, w.lastApplied, w.patch, docs);
    if all.1.None? then Applied(all.0, None, None, all.2)
    else
      var e := all.1.value;
      assert e.message[|e.message| - |e.message|..] == e.message;
      Applied(all.0, all.1, Some(if comp == Addons then Wrap(AddonsContext, e) else e), all.2)
  }

  /**
   The apply step of a phase. The manifest held afterwards is the one
   applied, with the resources a whole-manifest apply created annotated.
   */
  function ApplyComponent(c: Cluster.State, w: World, comp: Component, docs: seq<Doc>): (r: Applied)
    ensures Explains(r)
    ensures r.cluster.faults == c.faults
    ensures Cluster.Extends(c, r.cluster, Cluster.Keys(docs))
    ensures r.cluster.objects - Cluster.Keys(docs) == c.objects - Cluster.Keys(docs)
    ensures r.err.None? ==> Cluster.Keys(docs) <= r.cluster.objects.Keys
    ensures Splits(comp) ==> r.held == docs
    ensures !Splits(comp) ==> r.held == Manifestival.Apply(c, w.lastApplied, w.patch, docs).2
    ensures Manifestival.Annotates(w.lastApplied, docs, r.held)
    ensures Cluster.Keys(r.held) == Cluster.Keys(docs)
  {
    if Splits(comp) then
      assert Manifestival.Annotates(w.lastApplied, docs, docs);
      SplitApply(c, w, comp, docs)
    else
      Manifestival.ApplyAnnotates(c, w.lastApplied, w.patch, docs);
      Manifestival.AnnotatesKeys(w.lastApplied, docs, Manifestival.Apply(c, w.lastApplied, w.patch, docs).2);
      WholeApply(c, w, comp, docs)
  }

  // ---------------------------------------------------------------- the ledger writes

  /**
   `updateStatus`: the stored status is the old ledger with the condition
   in front and the running operator's UUID, unless the write is refused;
   the error is that of the write or of the read-back.
   */
  function UpdateStatus(flags: Flags, w: World, cfg: Config, c: Condition): (r: (Option<Status>, Option<Error>))
    ensures r.0.None? <==> w.statusWrite.Rejected?
    ensures r.0.Some? ==> r.0.value == Prepend(cfg.status, c, flags.operatorUUID)
    ensures r.1.None? <==> w.statusWrite.Persisted?
  {
    var tmp := Prepend(cfg.status, c, flags.operatorUUID);
    match w.statusWrite
    case Persisted => (Some(tmp), None)
    case Rejected(e) => (None, Some(e))
    case RefreshFailed(e) => (Some(tmp), Some(e))
  }

  /** The condition a phase writes: its code and details, the operator's Tekton version and the component versions. */
  function Cond(flags: Flags, rec: Reconciler, code: Code, details: string): Condition
  {
    Condition(code, details, flags.tektonVersion, rec.pipelineVersion, rec.triggersVersion)
  }

  /** A failed step: its failure code, with the cause's text, is written; the write's own error is dropped. */
  function Failed(flags: Flags, w: World, cfg: Config, rec: Reconciler, cluster: Cluster.State,
                  code: Code, cause: Error, result: Requeue, err: Error): Outcome
  {
    Outcome(result, Some(err), UpdateStatus(flags, w, cfg, Cond(flags, rec, code, cause.message)).0, rec, cluster, false)
  }

  /** The codes the apply phases write. */
  function AppliedCode(comp: Component): Code
  {
    match comp
    case Pipeline => AppliedPipeline
    case Triggers => AppliedTriggers
    case Addons => AppliedAddons
    case Community => InstalledStatus
  }

  function ApplyErrorCode(comp: Component): Code
  {
    match comp
    case Pipeline => PipelineApplyError
    case Triggers => TriggersError
    case Addons => AddonsError
    case Community => CommunityResourcesError
  }

  /** The codes the validate phases write. */
  function ValidatedCode(comp: Component): Code
  {
    if comp == Pipeline then ValidatedPipeline else ValidatedTriggers
  }

  function ValidateErrorCode(comp: Component): Code
  {
    if comp == Pipeline then PipelineValidateError else TriggersValidateError
  }

  /** True when `s` is `before` with exactly one condition in front, stamped with the running operator's UUID. */
  predicate OneMore(flags: Flags, before: Status, s: Status)
  {
    s.operatorUUID == flags.operatorUUID && |s.conditions| == |before.conditions| + 1 && s.conditions[1..] == before.conditions
  }

  // ---------------------------------------------------------------- the apply phases

  /**
   `applyPipeline`, `applyTriggers`, `applyAddons` and
   `applyCommunityResources`: transform the component's manifest and keep
   the result, apply it, and write the phase's success or failure code.
   A panic while transforming ends the pass before anything is written or
   kept. A success requeues at once; a failure returns an error and does not
   requeue, and the ledger holds the underlying error's text. Only the
   manifest's keys are touched, and a success leaves all of them present.
   The addons and community manifests are applied as held, so the
   resources the apply created stay annotated in the reconciler.
   */
  function ApplyPhase(flags: Flags, w: World, rec: Reconciler, cfg: Config, comp: Component): (o: Outcome)
    ensures var t := TransformManifest(ManifestOf(rec, comp), RestChain(w, cfg, comp), RoleBindingChain(w, cfg));
      && (o.panicked <==> t.Panicked?)
      && (o.panicked ==> o == Crashed(w, rec))
      && (t.Refused? ==> o.rec == rec && o.cluster == w.cluster && o.err == Some(t.error))
      && (t.Rewritten? && Splits(comp) ==> ManifestOf(o.rec, comp) == t.value)
      && (t.Rewritten? && !Splits(comp) ==>
            ManifestOf(o.rec, comp).resources == Manifestival.Apply(w.cluster, w.lastApplied, w.patch, t.value.resources).2)
      && (t.Rewritten? ==> Manifestival.Annotates(w.lastApplied, t.value.resources, ManifestOf(o.rec, comp).resources))
    ensures o.result == Requeue(true, 0) || (o.result == Stop && (o.err.Some? || o.panicked))
    ensures o.result.requeue ==> (o.err.None? <==> w.statusWrite.Persisted?)
    ensures !o.panicked ==> (o.written.None? <==> w.statusWrite.Rejected?)
    ensures o.written.Some? ==> OneMore(flags, cfg.status, o.written.value)
    ensures o.written.Some? ==> (
      var head := o.written.value.conditions[0];
      && head.version == flags.tektonVersion
      && head.pipelineVersion == rec.pipelineVersion && head.triggersVersion == rec.triggersVersion
      && head.code == (if o.result.requeue then AppliedCode(comp) else ApplyErrorCode(comp))
      && (o.result.requeue ==> head.details == "")
      && (!o.result.requeue ==> HasSuffix(o.err.value.message, head.details)))
    ensures o.rec == WithManifest(rec, comp, ManifestOf(o.rec, comp))
    ensures o.cluster.faults == w.cluster.faults
    ensures Cluster.Extends(w.cluster, o.cluster, Cluster.Keys(ManifestOf(o.rec, comp).resources))
    ensures var keys := Cluster.Keys(ManifestOf(o.rec, comp).resources);
      && o.cluster.objects - keys == w.cluster.objects - keys
      && (o.result.requeue ==> keys <= o.cluster.objects.Keys)
  {
    match TransformManifest(ManifestOf(rec, comp), RestChain(w, cfg, comp), RoleBindingChain(w, cfg))
    case Panicked =>
      assert w.cluster.calls[|w.cluster.calls|..] == [];
      assert rec == WithManifest(rec, comp, ManifestOf(rec, comp));
      Crashed(w, rec)
    case Refused(e) =>
      assert w.cluster.calls[|w.cluster.calls|..] == [];
      assert rec == WithManifest(rec, comp, ManifestOf(rec, comp));
      Failed(flags, w, cfg, rec, w.cluster, ApplyErrorCode(comp), e, Stop, e)
    case Rewritten(m) =>
      var a := ApplyComponent(w.cluster, w, comp, m.resources);
      var rec' := WithManifest(rec, comp, Manifestival.Manifest(a.held));
      if a.err.Some? then
        Failed(flags, w, cfg, rec', a.cluster, ApplyErrorCode(comp), a.cause.value, Stop, a.err.value)
      else
        var write := UpdateStatus(flags, w, cfg, Cond(flags, rec', AppliedCode(comp), ""));
        Outcome(Requeue(true, 0), write.1, write.0, rec', a.cluster, false)
  }

  // ---------------------------------------------------------------- the validate phases

  function ControllerName(comp: Component): string
  {
    if comp == Pipeline then PipelineControllerName else TriggerControllerName
  }

  function WebhookName(comp: Component): string
  {
    if comp == Pipeline then PipelineWebhookName else TriggerWebhookName
  }

  function WebhookConfiguration(flags: Flags, comp: Component): string
  {
    if comp == Pipeline then PipelineWebhookConfiguration else flags.triggersWebhookConfiguration
  }

  /** The label of the controller Deployment that carries the component's release. */
  function ReleaseLabel(comp: Component): string
  {
    if comp == Pipeline then "pipeline.tekton.dev/release" else "triggers.tekton.dev/release"
  }

  /**
   `validateDeployments`: the controller's readiness, then the webhook's;
   the first lookup error is returned, and the component runs exactly when
   both are ready.
   */
  function ValidateDeployments(w: World, ns: string, controller: string, webhook: string): (r: Result<bool>)
    ensures var c := Readiness.DeploymentReady(w.deployment(controller, ns));
      var h := Readiness.DeploymentReady(w.deployment(webhook, ns));
      && (r == Ok(true) <==> c == Ok(true) && h == Ok(true))
      && (r.Fail? <==> c.Fail? || h.Fail?)
      && (c.Fail? ==> r == c)
      && (c.Ok? && h.Fail? ==> r == h)
  {
    match Readiness.DeploymentReady(w.deployment(controller, ns))
    case Fail(e) => Fail(e)
    case Ok(c) =>
      match Readiness.DeploymentReady(w.deployment(webhook, ns))
      case Fail(e) => Fail(e)
      case Ok(h) => Ok(c && h)
  }

  function Running(flags: Flags, w: World, cfg: Config, comp: Component): Result<bool>
  {
    ValidateDeployments(w, cfg.targetNamespace, ControllerName(comp), WebhookName(comp))
  }

  /** The component's Deployments are ready and its webhook configuration exists. */
  predicate Validated(flags: Flags, w: World, cfg: Config, comp: Component)
  {
    Running(flags, w, cfg, comp) == Ok(true) && w.webhook(WebhookConfiguration(flags, comp)).None?
  }

  /** Not yet: a Deployment is not ready, or the webhook configuration does not exist yet. */
  predicate Pending(flags: Flags, w: World, cfg: Config, comp: Component)
  {
    Running(flags, w, cfg, comp) == Ok(false) ||
    (Running(flags, w, cfg, comp) == Ok(true) && IsNotFound(w.webhook(WebhookConfiguration(flags, comp))))
  }

  /** The reconciler with a component's version replaced. */
  function WithVersion(rec: Reconciler, comp: Component, v: string): Reconciler
  {
    if comp == Pipeline then rec.(pipelineVersion := v) else rec.(triggersVersion := v)
  }

  /**
   `validatePipeline` and `validateTriggers`. While the component is not up
   yet, the pass writes nothing and asks to be requeued after 15 seconds.
   A lookup error writes the validate-error code and is returned, with the
   15-second delay only when it was the webhook lookup that failed. Once
   the component is up its release is read from the manifest, the
   validated code is written, and the pass is requeued after 15 seconds
   unless the write failed. The cluster is never written.
   */
  function ValidatePhase(flags: Flags, w: World, rec: Reconciler, cfg: Config, comp: Component): (o: Outcome)
    requires Splits(comp)
    ensures o.cluster == w.cluster
    ensures forall c :: ManifestOf(o.rec, c) == ManifestOf(rec, c)
    ensures Pending(flags, w, cfg, comp) ==> o == Outcome(Requeue(true, ValidateDelay), None, None, rec, w.cluster, false)
    ensures !Pending(flags, w, cfg, comp) ==> (o.written.None? <==> w.statusWrite.Rejected?)
    ensures o.written.Some? ==> OneMore(flags, cfg.status, o.written.value)
    ensures o.written.Some? ==> (
      var head := o.written.value.conditions[0];
      && head.version == flags.tektonVersion
      && (head.code == ValidatedCode(comp) <==> Validated(flags, w, cfg, comp))
      && (head.code == ValidatedCode(comp) || head.code == ValidateErrorCode(comp))
      && (head.code == ValidateErrorCode(comp) ==> o.err.Some? && head.details == o.err.value.message))
    ensures Validated(flags, w, cfg, comp) ==>
      && o.rec == WithVersion(rec, comp, w.componentVersion(ManifestOf(rec, comp), ControllerName(comp), ReleaseLabel(comp)))
      && o.err == UpdateStatus(flags, w, cfg, Cond(flags, o.rec, ValidatedCode(comp), "")).1
      && o.result == (if o.err.Some? then Stop else Requeue(true, ValidateDelay))
    ensures !Validated(flags, w, cfg, comp) && !Pending(flags, w, cfg, comp) ==> o.err.Some? && o.rec == rec && !o.result.requeue
  {
    match Running(flags, w, cfg, comp)
    case Fail(e) => Failed(flags, w, cfg, rec, w.cluster, ValidateErrorCode(comp), e, Stop, e)
    case Ok(running) =>
      if !running then Outcome(Requeue(true, ValidateDelay), None, None, rec, w.cluster, false)
      else
        var found := Readiness.Webhook(w.webhook(WebhookConfiguration(flags, comp)));
        if found.1.Some? then
          Failed(flags, w, cfg, rec, w.cluster, ValidateErrorCode(comp), found.1.value, Requeue(false, ValidateDelay), found.1.value)
        else if !found.0 then Outcome(Requeue(true, ValidateDelay), None, None, rec, w.cluster, false)
        else
          var rec' := WithVersion(rec, comp, w.componentVersion(ManifestOf(rec, comp), ControllerName(comp), ReleaseLabel(comp)));
          var write := UpdateStatus(flags, w, cfg, Cond(flags, rec', ValidatedCode(comp), ""));
          Outcome(if write.1.Some? then Stop else Requeue(true, ValidateDelay), write.1, write.0, rec', w.cluster, false)
  }

  // ---------------------------------------------------------------- deletion

  /**
   `reconcileDeletion`: the addons, then the pipeline, with foreground
   propagation; nothing is written to the ledger and the pass is not
   requeued. `Delete` never fails, so neither does this.
   */
  function ReconcileDeletion(w: World, rec: Reconciler): (o: Outcome)
    ensures o.result == Stop && o.err.None? && o.written.None? && o.rec == rec
    ensures o.cluster.faults == w.cluster.faults
    ensures var gone := Cluster.Keys(Manifestival.Deletable(rec.addons.resources)) +
                        Cluster.Keys(Manifestival.Deletable(rec.pipeline.resources));
      && o.cluster.objects - gone == w.cluster.objects - gone
      && (Cluster.NoFaults(w.cluster, gone) ==> o.cluster.objects == w.cluster.objects - gone)
  {
    var addons := Manifestival.Delete(w.cluster, rec.addons.resources);
    var pipeline := Manifestival.Delete(addons.0, rec.pipeline.resources);
    var ka := Cluster.Keys(Manifestival.Deletable(rec.addons.resources));
    var kp := Cluster.Keys(Manifestival.Deletable(rec.pipeline.resources));
    Cluster.SameOutside(pipeline.0.objects, addons.0.objects, w.cluster.objects, kp, ka);
    assert kp + ka == ka + kp;
    Outcome(Stop, None, None, rec, pipeline.0, false)
  }

  /** Deletion calls the API about the addons first and the pipeline after, and about nothing else. */
  lemma DeletionOrder(w: World, rec: Reconciler)
    ensures var mid := Manifestival.Delete(w.cluster, rec.addons.resources).0;
      && Cluster.Extends(w.cluster, mid, Cluster.Keys(Manifestival.Deletable(rec.addons.resources)))
      && Cluster.Extends(mid, ReconcileDeletion(w, rec).cluster, Cluster.Keys(Manifestival.Deletable(rec.pipeline.resources)))
  {
    var mid := Manifestival.Delete(w.cluster, rec.addons.resources).0;
    Manifestival.DeleteTrace(w.cluster, rec.addons.resources);
    Manifestival.DeleteTrace(mid, rec.pipeline.resources);
  }

  // ---------------------------------------------------------------- dispatch

  /** What a pass does, by the code at the head of the ledger. */
  datatype Step = ApplyStep(comp: Component) | ValidateStep(comp: Component) | VerifyStep | Idle

  /**
   The `switch` of `Reconcile`: a success code and the next phase's failure
   code lead to the same phase; codes the controller never writes for a
   phase, the invalid-resource code included, lead nowhere.
   */
  function Route(code: Code): (s: Step)
    ensures s.ValidateStep? ==> Splits(s.comp)
  {
    match code
    case EmptyStatus | PipelineApplyError => ApplyStep(Pipeline)
    case AppliedPipeline | PipelineValidateError => ValidateStep(Pipeline)
    case ValidatedPipeline | TriggersError => ApplyStep(Triggers)
    case AppliedTriggers | TriggersValidateError => ValidateStep(Triggers)
    case ValidatedTriggers | AddonsError => ApplyStep(Addons)
    case AppliedAddons | CommunityResourcesError => ApplyStep(Community)
    case InstalledStatus => VerifyStep
    case _ => Idle
  }

  /** The phases in the order a fresh install goes through them. */
  const InstallOrder: seq<Step> := [
    ApplyStep(Pipeline), ValidateStep(Pipeline), ApplyStep(Triggers), ValidateStep(Triggers),
    ApplyStep(Addons), ApplyStep(Community), VerifyStep]

  /** Where a step sits in the install order, or -1 for a step outside it. */
  function Position(s: Step): (i: int)
    ensures -1 <= i < |InstallOrder|
    ensures i >= 0 ==> InstallOrder[i] == s
    ensures i == -1 <==> s !in InstallOrder
  {
    match s
    case ApplyStep(Pipeline) => 0
    case ValidateStep(Pipeline) => 1
    case ApplyStep(Triggers) => 2
    case ValidateStep(Triggers) => 3
    case ApplyStep(Addons) => 4
    case ApplyStep(Community) => 5
    case VerifyStep => 6
    case _ => -1
  }

  /** The code a phase writes when it succeeds and when it fails. */
  function SuccessCode(s: Step): Code
    requires s.ApplyStep? || s.ValidateStep?
  {
    if s.ApplyStep? then AppliedCode(s.comp) else ValidatedCode(s.comp)
  }

  function FailureCode(s: Step): Code
    requires s.ApplyStep? || s.ValidateStep?
  {
    if s.ApplyStep? then ApplyErrorCode(s.comp) else ValidateErrorCode(s.comp)
  }

  /**
   The dispatch table walks the install order: an empty ledger starts at
   the first phase, a phase's failure code leads back to it, and its
   success code leads to the next one.
   */
  lemma RouteFollowsInstallOrder()
    ensures Route(EmptyStatus) == InstallOrder[0]
    ensures forall i :: 0 <= i < |InstallOrder| - 1 ==>
      && Route(FailureCode(InstallOrder[i])) == InstallOrder[i]
      && Route(SuccessCode(InstallOrder[i])) == InstallOrder[i + 1]
  {
    forall i | 0 <= i < |InstallOrder| - 1
      ensures Route(FailureCode(InstallOrder[i])) == InstallOrder[i]
      ensures Route(SuccessCode(InstallOrder[i])) == InstallOrder[i + 1]
    {
      if i == 0 {} else if i == 1 {} else if i == 2 {} else if i == 3 {} else if i == 4 {} else {}
    }
  }

  /** `matchesUUID`: an operator without a UUID accepts every ledger. */
  predicate MatchesUuid(flags: Flags, target: string)
  {
    flags.operatorUUID == "" || flags.operatorUUID == target
  }

  /** `validateVersion`'s test: installed at the running Tekton version, by this operator. */
  predicate UpToDate(flags: Flags, cfg: Config)
  {
    IsInstalled(cfg, flags.tektonVersion) && MatchesUuid(flags, cfg.status.operatorUUID)
  }

  /** A pass that does nothing. */
  function Nothing(w: World, rec: Reconciler): Outcome
  {
    Outcome(Stop, None, None, rec, w.cluster, false)
  }

  /** The phase the head of the ledger selects. */
  function Dispatch(flags: Flags, w: World, rec: Reconciler, cfg: Config): (o: Outcome)
    ensures o.written.Some? ==> !w.statusWrite.Rejected? && OneMore(flags, cfg.status, o.written.value)
    ensures o.cluster.faults == w.cluster.faults
    ensures |w.cluster.calls| <= |o.cluster.calls| && o.cluster.calls[..|w.cluster.calls|] == w.cluster.calls
    ensures Route(InstallStatus(cfg)) == Idle ==> o == Nothing(w, rec)
    ensures o.panicked ==> o == Crashed(w, rec)
  {
    match Route(InstallStatus(cfg))
    case ApplyStep(comp) => ApplyPhase(flags, w, rec, cfg, comp)
    case ValidateStep(comp) => ValidatePhase(flags, w, rec, cfg, comp)
    case VerifyStep => if UpToDate(flags, cfg) then Nothing(w, rec) else ApplyPhase(flags, w, rec, cfg, Pipeline)
    case Idle => Nothing(w, rec)
  }

  /** What the failed read leaves in the Go variable: an empty Config. */
  const EmptyConfig := Config("", "", "", Status("", []))

  /** `markInvalidResource`: the invalid-resource code with the expected name; its write error is only logged. */
  function MarkInvalid(flags: Flags, w: World, rec: Reconciler, cfg: Config): Outcome
  {
    var c := Condition(InvalidResource, "metadata.name must be " + flags.resourceWatched, "unknown",
                       rec.pipelineVersion, rec.triggersVersion);
    Outcome(Stop, None, UpdateStatus(flags, w, cfg, c).0, rec, w.cluster, false)
  }

  /**
   `Reconcile` for a request naming `name`, given what reading the Config
   of that name returned. A Config of another name is marked invalid and
   left alone; a missing Config uninstalls; a failed read is returned;
   otherwise the head of the ledger selects the phase. Whatever is written
   is the ledger read with one condition in front, and the API calls made
   only extend the trace.
   */
  function Reconcile(flags: Flags, w: World, rec: Reconciler, name: string, fetch: Result<Config>): (o: Outcome)
    ensures o.written.Some? ==> !w.statusWrite.Rejected?
    ensures o.written.Some? ==> OneMore(flags, (if fetch.Ok? then fetch.value else EmptyConfig).status, o.written.value)
    ensures o.cluster.faults == w.cluster.faults
    ensures |w.cluster.calls| <= |o.cluster.calls| && o.cluster.calls[..|w.cluster.calls|] == w.cluster.calls
    ensures name == flags.resourceWatched && fetch.Fail? && fetch.error.reason != NotFound ==>
      o == Outcome(Stop, Some(fetch.error), None, rec, w.cluster, false)
    ensures name == flags.resourceWatched && fetch.Ok? && Route(InstallStatus(fetch.value)) == Idle ==>
      o == Nothing(w, rec)
    ensures o.panicked ==> name == flags.resourceWatched && fetch.Ok? && o == Crashed(w, rec)
  {
    if name != flags.resourceWatched then
      if fetch.Fail? && fetch.error.reason == NotFound then Nothing(w, rec)
      else MarkInvalid(flags, w, rec, if fetch.Ok? then fetch.value else EmptyConfig)
    else if fetch.Fail? then
      if fetch.error.reason == NotFound then
        DeletionOrder(w, rec);
        Cluster.ExtendsTrans(w.cluster, Manifestival.Delete(w.cluster, rec.addons.resources).0,
          ReconcileDeletion(w, rec).cluster,
          Cluster.Keys(Manifestival.Deletable(rec.addons.resources)),
          Cluster.Keys(Manifestival.Deletable(rec.pipeline.resources)));
        ReconcileDeletion(w, rec)
      else Outcome(Stop, Some(fetch.error), None, rec, w.cluster, false)
    else Dispatch(flags, w, rec, fetch.value)
  }

  /**
   A request for any other name never touches the cluster or requeues; the
   Config it names is marked invalid unless it does not exist.
   */
  lemma WrongNameMarkedInvalid(flags: Flags, w: World, rec: Reconciler, name: string, fetch: Result<Config>)
    requires name != flags.resourceWatched
    ensures var o := Reconcile(flags, w, rec, name, fetch);
      && o.result == Stop && o.err.None? && o.cluster == w.cluster && o.rec == rec
      && (o.written.Some? <==> !(fetch.Fail? && fetch.error.reason == NotFound) && !w.statusWrite.Rejected?)
      && (o.written.Some? ==> (o.written.value.conditions[0] ==
            Condition(InvalidResource, "metadata.name must be " + flags.resourceWatched, "unknown",
                      rec.pipelineVersion, rec.triggersVersion)))
  {
  }

  /**
   A missing Config uninstalls: the addons' deletable resources are removed,
   then the pipeline's, nothing else is touched, nothing is written and the
   pass is not requeued.
   */
  lemma MissingConfigUninstalls(flags: Flags, w: World, rec: Reconciler, e: Error)
    requires e.reason == NotFound
    ensures var o := Reconcile(flags, w, rec, flags.resourceWatched, Fail(e));
      var ka := Cluster.Keys(Manifestival.Deletable(rec.addons.resources));
      var kp := Cluster.Keys(Manifestival.Deletable(rec.pipeline.resources));
      var mid := Manifestival.Delete(w.cluster, rec.addons.resources).0;
      && o.result == Stop && o.err.None? && o.written.None?
      && Cluster.Extends(w.cluster, mid, ka) && Cluster.Extends(mid, o.cluster, kp)
      && o.cluster.objects - (ka + kp) == w.cluster.objects - (ka + kp)
      && (Cluster.NoFaults(w.cluster, ka + kp) ==> o.cluster.objects == w.cluster.objects - (ka + kp))
  {
    DeletionOrder(w, rec);
  }

  /**
   The installed state is a fixed point exactly when it is up to date: an
   installed ledger written for the running version by this operator makes
   the pass do nothing, and any other installed ledger reinstalls the
   pipeline, which is recorded unless the status write is refused.
   */
  lemma InstalledFixedPoint(flags: Flags, w: World, rec: Reconciler, cfg: Config)
    requires InstallStatus(cfg) == InstalledStatus
    ensures var o := Reconcile(flags, w, rec, flags.resourceWatched, Ok(cfg));
      && (UpToDate(flags, cfg) ==> o == Nothing(w, rec))
      && (!UpToDate(flags, cfg) ==>
            && Cluster.Extends(w.cluster, o.cluster, Cluster.Keys(ManifestOf(o.rec, Pipeline).resources))
            && (o.written.Some? <==> !w.statusWrite.Rejected? && !o.panicked)
            && (o.written.Some? ==> o.written.value.conditions[0].code in {AppliedPipeline, PipelineApplyError})
            && (o.panicked ==> o == Crashed(w, rec)))
  {
    ReconcileDispatches(flags, w, rec, cfg);
    VerifyStepDispatch(flags, w, rec, cfg);
    if !UpToDate(flags, cfg) {
      ApplyPhaseRecords(flags, w, rec, cfg, Pipeline);
    }
  }

  /**
   A config-defaults ConfigMap that reaches the default-service-account
   transformer without a data field crashes the pass: it is the first
   non-RoleBinding document whose chain stops, so the transformation
   panics, and nothing is applied, written or kept.
   */
  lemma ConfigDefaultsWithoutDataPanics(flags: Flags, w: World, rec: Reconciler, cfg: Config, comp: Component, i: int)
    requires var rest := Predicates.Select(ManifestOf(rec, comp).resources, NotRoleBinding);
      && 0 <= i < |rest|
      && (forall j :: 0 <= j < i ==> Manifestival.TransformDoc(RestChain(w, cfg, comp), rest[j]).Rewritten?)
      && Manifestival.TransformDoc(RestChain(w, cfg, comp)[..3], rest[i]).Rewritten?
      && ReachesWithoutData(Manifestival.TransformDoc(RestChain(w, cfg, comp)[..3], rest[i]).value)
    ensures var o := ApplyPhase(flags, w, rec, cfg, comp);
      && o.panicked && o.written.None? && o.err.None?
      && o.cluster == w.cluster && o.rec == rec
  {
    var fns := RestChain(w, cfg, comp);
    var rest := Predicates.Select(ManifestOf(rec, comp).resources, NotRoleBinding);
    var d' := Manifestival.TransformDoc(fns[..3], rest[i]).value;
    Manifestival.TransformDocSplit(fns, 3, rest[i]);
    assert fns[3..][0] == fns[3];
    assert Manifestival.TransformDoc(fns, rest[i]).Panicked?;
    assert Manifestival.StopsAt(fns, rest, i);
    var t := TransformManifest(ManifestOf(rec, comp), fns, RoleBindingChain(w, cfg));
    assert SomeStops(rest, fns);
    var i' :| Manifestival.StopsAt(fns, rest, i') && Manifestival.StopsLike(t, Manifestival.TransformDoc(fns, rest[i']));
    if i' < i {
      assert false;
    } else if i < i' {
      assert false;
    }
    assert t.Panicked?;
  }

  /** A config-defaults ConfigMap whose data is absent or null: the as-written transformer panics on it. */
  predicate ReachesWithoutData(d: Doc)
  {
    && Transforms.IsConfigDefaults(d)
    && Transforms.ConvertsToConfigMap(d)
    && Transforms.ConfigMapData(d).None?
  }

  /**
   The addons are applied as held, so a resource the pass created is kept
   with the created-by annotation: it is among the deletable resources,
   and the uninstall that a later missing Config triggers removes it.
   */
  lemma CreatedAddonsUninstall(flags: Flags, w: World, rec: Reconciler, cfg: Config, i: int,
                               w': World, e: Error)
    requires var t := TransformManifest(rec.addons, RestChain(w, cfg, Addons), RoleBindingChain(w, cfg));
      && t.Rewritten?
      && 0 <= i < |t.value.resources|
      && Cluster.NoFaults(w.cluster, Cluster.Keys(t.value.resources))
      && KeyOf(t.value.resources[i]) !in w.cluster.objects
      && KeyOf(t.value.resources[i]) !in Cluster.Keys(t.value.resources[..i])
      && Manifestival.Apply(w.cluster, w.lastApplied, w.patch, t.value.resources).1.None?
    requires e.reason == NotFound
    ensures var t := TransformManifest(rec.addons, RestChain(w, cfg, Addons), RoleBindingChain(w, cfg));
      var o := ApplyPhase(flags, w, rec, cfg, Addons);
      var k := KeyOf(t.value.resources[i]);
      var gone := Cluster.Keys(Manifestival.Deletable(o.rec.addons.resources)) +
                  Cluster.Keys(Manifestival.Deletable(o.rec.pipeline.resources));
      && k in Cluster.Keys(Manifestival.Deletable(o.rec.addons.resources))
      && (Cluster.NoFaults(w'.cluster, gone) ==>
            k !in Reconcile(flags, w', o.rec, flags.resourceWatched, Fail(e)).cluster.objects)
  {
    var o := ApplyPhase(flags, w, rec, cfg, Addons);
    AddonsCreatedKept(flags, w, rec, cfg, i);
    var t := TransformManifest(rec.addons, RestChain(w, cfg, Addons), RoleBindingChain(w, cfg));
    DeletableUninstalled(flags, w', o.rec, e, KeyOf(t.value.resources[i]));
  }

  /** A resource a fault-free addons apply created is held with the created-by annotation, so it is deletable. */
  lemma AddonsCreatedKept(flags: Flags, w: World, rec: Reconciler, cfg: Config, i: int)
    requires var t := TransformManifest(rec.addons, RestChain(w, cfg, Addons), RoleBindingChain(w, cfg));
      && t.Rewritten?
      && 0 <= i < |t.value.resources|
      && Cluster.NoFaults(w.cluster, Cluster.Keys(t.value.resources))
      && KeyOf(t.value.resources[i]) !in w.cluster.objects
      && KeyOf(t.value.resources[i]) !in Cluster.Keys(t.value.resources[..i])
      && Manifestival.Apply(w.cluster, w.lastApplied, w.patch, t.value.resources).1.None?
    ensures var t := TransformManifest(rec.addons, RestChain(w, cfg, Addons), RoleBindingChain(w, cfg));
      var held := ApplyPhase(flags, w, rec, cfg, Addons).rec.addons.resources;
      && |held| == |t.value.resources|
      && held[i] == Manifestival.ForCreate(w.lastApplied, t.value.resources[i])
      && KeyOf(t.value.resources[i]) in Cluster.Keys(Manifestival.Deletable(held))
  {
    var t := TransformManifest(rec.addons, RestChain(w, cfg, Addons), RoleBindingChain(w, cfg));
    AddonsHeld(flags, w, rec, cfg);
    Manifestival.CreatedIsDeletable(w.cluster, w.lastApplied, w.patch, t.value.resources, i);
    Manifestival.CreatedKeyDeletable(w.cluster, w.lastApplied, w.patch, t.value.resources, i);
  }

  /** The addons manifest held after a transformed pass is the one the apply returned. */
  lemma AddonsHeld(flags: Flags, w: World, rec: Reconciler, cfg: Config)
    requires TransformManifest(rec.addons, RestChain(w, cfg, Addons), RoleBindingChain(w, cfg)).Rewritten?
    ensures var t := TransformManifest(rec.addons, RestChain(w, cfg, Addons), RoleBindingChain(w, cfg));
      ApplyPhase(flags, w, rec, cfg, Addons).rec.addons.resources ==
        Manifestival.Apply(w.cluster, w.lastApplied, w.patch, t.value.resources).2
  {
    var t := TransformManifest(rec.addons, RestChain(w, cfg, Addons), RoleBindingChain(w, cfg));
    var a := ApplyComponent(w.cluster, w, Addons, t.value.resources);
    assert ApplyPhase(flags, w, rec, cfg, Addons).rec == WithManifest(rec, Addons, Manifestival.Manifest(a.held));
  }

  /** A deletable addons key is gone after the uninstall a missing Config triggers, when nothing fails. */
  lemma DeletableUninstalled(flags: Flags, w: World, rec: Reconciler, e: Error, k: Key)
    requires e.reason == NotFound
    requires k in Cluster.Keys(Manifestival.Deletable(rec.addons.resources))
    ensures var gone := Cluster.Keys(Manifestival.Deletable(rec.addons.resources)) +
                        Cluster.Keys(Manifestival.Deletable(rec.pipeline.resources));
      Cluster.NoFaults(w.cluster, gone) ==> k !in Reconcile(flags, w, rec, flags.resourceWatched, Fail(e)).cluster.objects
  {
    MissingConfigUninstalls(flags, w, rec, e);
  }

  /** A Config of the watched name that could be read goes to the phase its ledger selects. */
  lemma ReconcileDispatches(flags: Flags, w: World, rec: Reconciler, cfg: Config)
    ensures Reconcile(flags, w, rec, flags.resourceWatched, Ok(cfg)) == Dispatch(flags, w, rec, cfg)
  {
  }

  /** The verify step does nothing for an up-to-date Config and reapplies the pipeline otherwise. */
  lemma VerifyStepDispatch(flags: Flags, w: World, rec: Reconciler, cfg: Config)
    requires InstallStatus(cfg) == InstalledStatus
    ensures Dispatch(flags, w, rec, cfg) ==
      if UpToDate(flags, cfg) then Nothing(w, rec) else ApplyPhase(flags, w, rec, cfg, Pipeline)
  {
    var code := InstallStatus(cfg);
    assert Route(code) == VerifyStep;
  }

  /** An apply phase writes its status unless the write is refused, and the code it writes is the phase's own. */
  lemma ApplyPhaseRecords(flags: Flags, w: World, rec: Reconciler, cfg: Config, comp: Component)
    ensures var o := ApplyPhase(flags, w, rec, cfg, comp);
      && Cluster.Extends(w.cluster, o.cluster, Cluster.Keys(ManifestOf(o.rec, comp).resources))
      && (o.written.Some? <==> !w.statusWrite.Rejected? && !o.panicked)
      && (o.written.Some? ==> o.written.value.conditions[0].code in {AppliedCode(comp), ApplyErrorCode(comp)})
      && (o.panicked ==> o.written.None? && o.cluster == w.cluster && o.rec == rec)
  {
  }

  /**
   A pass that wrote code `q`'s phase after running phase `p` moved at most
   one phase along the install order: back to the same phase on a failure,
   which is returned as an error; on to the next on a success, which is
   requeued or returns the write's error; and from the installed state back
   to the start.
   */
  predicate Moves(p: int, q: int, o: Outcome)
  {
    && 0 <= p && 0 <= q
    && (q == p || q == p + 1 || (p == |InstallOrder| - 1 && q <= 1))
    && (q == p ==> o.err.Some?)
    && (q == p + 1 ==> o.result.requeue || o.err.Some?)
  }

  lemma ApplyMoves(flags: Flags, w: World, rec: Reconciler, cfg: Config, comp: Component)
    ensures var o := ApplyPhase(flags, w, rec, cfg, comp);
      o.written.Some? ==> Moves(Position(ApplyStep(comp)), Position(Route(o.written.value.conditions[0].code)), o)
  {
    var o := ApplyPhase(flags, w, rec, cfg, comp);
    if o.written.Some? {
      ApplyCodeMoves(comp, o);
    }
  }

  /** An apply phase writes its success code when it requeues and its failure code when it returns an error. */
  lemma ApplyCodeMoves(comp: Component, o: Outcome)
    requires o.written.Some? && |o.written.value.conditions| > 0
    requires o.written.value.conditions[0].code == (if o.result.requeue then AppliedCode(comp) else ApplyErrorCode(comp))
    requires !o.result.requeue ==> o.err.Some?
    ensures Moves(Position(ApplyStep(comp)), Position(Route(o.written.value.conditions[0].code)), o)
  {
  }

  lemma ValidateMoves(flags: Flags, w: World, rec: Reconciler, cfg: Config, comp: Component)
    requires Splits(comp)
    ensures var o := ValidatePhase(flags, w, rec, cfg, comp);
      o.written.Some? ==> Moves(Position(ValidateStep(comp)), Position(Route(o.written.value.conditions[0].code)), o)
  {
    var o := ValidatePhase(flags, w, rec, cfg, comp);
    if o.written.Some? {
      var code := o.written.value.conditions[0].code;
      if code == ValidatedCode(comp) {
        assert Validated(flags, w, cfg, comp);
      }
      ValidateCodeMoves(comp, o);
    }
  }

  /** A validate phase writes its success code when it requeues or fails, and its failure code with an error. */
  lemma ValidateCodeMoves(comp: Component, o: Outcome)
    requires Splits(comp)
    requires o.written.Some? && |o.written.value.conditions| > 0
    requires var code := o.written.value.conditions[0].code;
      && (code == ValidatedCode(comp) || code == ValidateErrorCode(comp))
      && (code == ValidatedCode(comp) ==> o.result.requeue || o.err.Some?)
      && (code == ValidateErrorCode(comp) ==> o.err.Some?)
    ensures Moves(Position(ValidateStep(comp)), Position(Route(o.written.value.conditions[0].code)), o)
  {
  }

  /** One pass moves the ledger at most one phase along the install order, in the sense of `Moves`. */
  lemma PassAdvancesOrRetries(flags: Flags, w: World, rec: Reconciler, cfg: Config)
    ensures var o := Reconcile(flags, w, rec, flags.resourceWatched, Ok(cfg));
      o.written.Some? ==> Moves(Position(Route(InstallStatus(cfg))), Position(Route(o.written.value.conditions[0].code)), o)
  {
    assert Reconcile(flags, w, rec, flags.resourceWatched, Ok(cfg)) == Dispatch(flags, w, rec, cfg);
    match Route(InstallStatus(cfg))
    case ApplyStep(comp) => ApplyMoves(flags, w, rec, cfg, comp);
    case ValidateStep(comp) => ValidateMoves(flags, w, rec, cfg, comp);
    case VerifyStep => ApplyMoves(flags, w, rec, cfg, Pipeline);
    case Idle =>
  }

  // ---------------------------------------------------------------- images from the environment

  /** One entry of the process environment. */
  datatype EnvVar = EnvVar(name: string, value: string)

  /** The entry as `os.Environ` reports it. */
  function Entry(e: EnvVar): string
  {
    e.name + "=" + e.value
  }

  predicate Admitted(e: EnvVar, prefix: string)
  {
    HasPrefix(Entry(e), prefix)
  }

  function TrimPrefix(s: string, prefix: string): (r: string)
    ensures HasPrefix(s, prefix) ==> prefix + r == s
    ensures !HasPrefix(s, prefix) ==> r == s
  {
    if HasPrefix(s, prefix) then s[|prefix|..] else s
  }

  /** The text before the first '=' of `s`, all of it when there is none: `strings.Split(s, "=")[0]`. */
  function FirstField(s: string): (r: string)
    ensures HasPrefix(s, r) && '=' !in r
    ensures '=' !in s ==> r == s
  {
    s[..IndexOf(s, '=')]
  }

  /** `strings.Split(s, "=")[1]` for a string holding '=': the text between the first '=' and the next. */
  function SecondField(s: string): (r: string)
    requires '=' in s
    ensures '=' !in r
  {
    FirstField(s[IndexOf(s, '=') + 1..])
  }

  /** The image an admitted entry names: the entry up to its first '=', less the prefix. */
  function ImageName(e: EnvVar, prefix: string): string
  {
    TrimPrefix(FirstField(Entry(e)), prefix)
  }

  /**
   The operating system keeps '=' out of variable names, and for such a
   name the image is the name less the prefix.
   */
  lemma ImageNameOfName(e: EnvVar, prefix: string)
    requires '=' !in e.name
    ensures ImageName(e, prefix) == TrimPrefix(e.name, prefix)
  {
    var s := Entry(e);
    assert s[|e.name|] == '=';
    assert s[..|e.name|] == e.name;
  }

  /** Entry `i` is the last admitted entry whose image name is `k`. */
  ghost predicate LastFor(env: seq<EnvVar>, prefix: string, k: string, i: int)
  {
    0 <= i < |env| && Admitted(env[i], prefix) && ImageName(env[i], prefix) == k &&
    forall j :: i < j < |env| ==> !(Admitted(env[j], prefix) && ImageName(env[j], prefix) == k)
  }

  /**
   The image map built from `env`: an image is present exactly when some
   admitted entry names it, and holds the URL of the last such entry.
   */
  ghost predicate Collected(env: seq<EnvVar>, prefix: string, url: EnvVar -> string, r: map<string, string>)
  {
    && (forall k :: k in r <==> exists i :: 0 <= i < |env| && Admitted(env[i], prefix) && ImageName(env[i], prefix) == k)
    && (forall k :: k in r ==> exists i :: LastFor(env, prefix, k, i) && r[k] == url(env[i]))
  }

  /** `imagesFromEnv`, with how an entry's URL is read left as a parameter: admitted entries set their image in environment order. */
  function CollectImages(env: seq<EnvVar>, prefix: string, url: EnvVar -> string): (r: map<string, string>)
    ensures Collected(env, prefix, url, r)
    decreases |env|
  {
    if |env| == 0 then map[]
    else
      var before := CollectImages(env[..|env| - 1], prefix, url);
      var e := env[|env| - 1];
      CollectStep(env, prefix, url, before);
      if Admitted(e, prefix) then before[ImageName(e, prefix) := url(e)] else before
  }

  /** Setting the last entry's image over the map of the others gives the map of all. */
  lemma CollectStep(env: seq<EnvVar>, prefix: string, url: EnvVar -> string, before: map<string, string>)
    requires |env| > 0 && Collected(env[..|env| - 1], prefix, url, before)
    ensures var e := env[|env| - 1];
      Collected(env, prefix, url, if Admitted(e, prefix) then before[ImageName(e, prefix) := url(e)] else before)
  {
    var e := env[|env| - 1];
    var r := if Admitted(e, prefix) then before[ImageName(e, prefix) := url(e)] else before;
    CollectStepKeys(env, prefix, url, before, r);
    CollectStepValues(env, prefix, url, before, r);
  }

  /** After the step, an image is present exactly when some admitted entry names it. */
  lemma CollectStepKeys(env: seq<EnvVar>, prefix: string, url: EnvVar -> string, before: map<string, string>, r: map<string, string>)
    requires |env| > 0 && Collected(env[..|env| - 1], prefix, url, before)
    requires var e := env[|env| - 1]; r == if Admitted(e, prefix) then before[ImageName(e, prefix) := url(e)] else before
    ensures forall k :: k in r <==> exists i :: 0 <= i < |env| && Admitted(env[i], prefix) && ImageName(env[i], prefix) == k
  {
    forall k | exists i :: 0 <= i < |env| && Admitted(env[i], prefix) && ImageName(env[i], prefix) == k
      ensures k in r
    {
      var i :| 0 <= i < |env| && Admitted(env[i], prefix) && ImageName(env[i], prefix) == k;
      CollectStepNamed(env, prefix, url, before, r, k, i);
    }
    forall k | k in r
      ensures exists i :: 0 <= i < |env| && Admitted(env[i], prefix) && ImageName(env[i], prefix) == k
    {
      var i := CollectStepSource(env, prefix, url, before, r, k);
    }
  }

  /** An image named by an admitted entry is in the map after the step. */
  lemma CollectStepNamed(env: seq<EnvVar>, prefix: string, url: EnvVar -> string, before: map<string, string>, r: map<string, string>, k: string, i: nat)
    requires |env| > 0 && Collected(env[..|env| - 1], prefix, url, before)
    requires var e := env[|env| - 1]; r == if Admitted(e, prefix) then before[ImageName(e, prefix) := url(e)] else before
    requires i < |env| && Admitted(env[i], prefix) && ImageName(env[i], prefix) == k
    ensures k in r
  {
    if i < |env| - 1 {
      assert env[..|env| - 1][i] == env[i];
    }
  }

  /** An image in the map after the step is named by some admitted entry. */
  lemma CollectStepSource(env: seq<EnvVar>, prefix: string, url: EnvVar -> string, before: map<string, string>, r: map<string, string>, k: string) returns (i: nat)
    requires |env| > 0 && Collected(env[..|env| - 1], prefix, url, before)
    requires var e := env[|env| - 1]; r == if Admitted(e, prefix) then before[ImageName(e, prefix) := url(e)] else before
    requires k in r
    ensures i < |env| && Admitted(env[i], prefix) && ImageName(env[i], prefix) == k
  {
    var init := env[..|env| - 1];
    if k !in before {
      i := |env| - 1;
    } else {
      i :| 0 <= i < |init| && Admitted(init[i], prefix) && ImageName(init[i], prefix) == k;
      assert init[i] == env[i];
    }
  }

  /** After the step, every image holds the URL of the last admitted entry naming it. */
  lemma CollectStepValues(env: seq<EnvVar>, prefix: string, url: EnvVar -> string, before: map<string, string>, r: map<string, string>)
    requires |env| > 0 && Collected(env[..|env| - 1], prefix, url, before)
    requires var e := env[|env| - 1]; r == if Admitted(e, prefix) then before[ImageName(e, prefix) := url(e)] else before
    ensures forall k :: k in r ==> exists i :: LastFor(env, prefix, k, i) && r[k] == url(env[i])
  {
    var init := env[..|env| - 1];
    var e := env[|env| - 1];
    forall k | k in r
      ensures exists i :: LastFor(env, prefix, k, i) && r[k] == url(env[i])
    {
      if Admitted(e, prefix) && ImageName(e, prefix) == k {
        assert LastFor(env, prefix, k, |env| - 1);
      } else {
        var i :| LastFor(init, prefix, k, i) && before[k] == url(init[i]);
        LastForGrows(env, prefix, k, i);
      }
    }
  }

  /** The last entry for a key stays the last when an entry for another key is appended. */
  lemma LastForGrows(env: seq<EnvVar>, prefix: string, k: string, i: int)
    requires |env| > 0 && LastFor(env[..|env| - 1], prefix, k, i)
    requires !(Admitted(env[|env| - 1], prefix) && ImageName(env[|env| - 1], prefix) == k)
    ensures LastFor(env, prefix, k, i) && env[i] == env[..|env| - 1][i]
  {
    var init := env[..|env| - 1];
    forall j | i < j < |env|
      ensures !(Admitted(env[j], prefix) && ImageName(env[j], prefix) == k)
    {
      if j < |init| {
        assert init[j] == env[j];
      }
    }
  }

  /** The URL as the code reads it: the text after the name's '=' up to the next '='. */
  function UrlAsWritten(e: EnvVar): (r: string)
    ensures '=' !in r
  {
    SecondField(Entry(e))
  }

  /** The URL as intended: the whole value. */
  function Url(e: EnvVar): string
  {
    e.value
  }

  /** `imagesFromEnv` as written: a value holding '=' is cut short at it. */
  function ImagesFromEnvAsWritten(env: seq<EnvVar>, prefix: string): (r: map<string, string>)
    ensures forall k :: k in r ==> '=' !in r[k]
  {
    var r := CollectImages(env, prefix, UrlAsWritten);
    forall k | k in r ensures '=' !in r[k] {
      var i := CollectedFrom(env, prefix, UrlAsWritten, r, k);
    }
    r
  }

  /** Every image of a collected map holds the URL of some entry. */
  lemma CollectedFrom(env: seq<EnvVar>, prefix: string, url: EnvVar -> string, r: map<string, string>, k: string) returns (i: nat)
    requires Collected(env, prefix, url, r) && k in r
    ensures i < |env| && r[k] == url(env[i])
  {
    i :| LastFor(env, prefix, k, i) && r[k] == url(env[i]);
  }

  /** `imagesFromEnv` with every image holding the whole value of its last entry. */
  function ImagesFromEnv(env: seq<EnvVar>, prefix: string): (r: map<string, string>)
    ensures forall k :: k in r <==> exists i :: 0 <= i < |env| && Admitted(env[i], prefix) && ImageName(env[i], prefix) == k
    ensures forall k :: k in r ==> exists i :: LastFor(env, prefix, k, i) && r[k] == env[i].value
  {
    CollectImages(env, prefix, Url)
  }

  /** For an entry whose name has no '=', the code's URL is the value up to its first '='. */
  lemma UrlAsWrittenCuts(e: EnvVar)
    requires '=' !in e.name
    ensures UrlAsWritten(e) == FirstField(e.value)
  {
    var s := Entry(e);
    assert s[|e.name|] == '=';
    assert IndexOf(s, '=') == |e.name|;
    assert s[|e.name| + 1..] == e.value;
  }

  /** Without '=' in any value the code agrees with the intended reading. */
  lemma {:induction false} ImagesAgreeWithoutEquals(env: seq<EnvVar>, prefix: string)
    requires forall i :: 0 <= i < |env| ==> '=' !in env[i].name && '=' !in env[i].value
    ensures ImagesFromEnvAsWritten(env, prefix) == ImagesFromEnv(env, prefix)
    decreases |env|
  {
    if |env| > 0 {
      var init := env[..|env| - 1];
      ImagesAgreeWithoutEquals(init, prefix);
      UrlAsWrittenCuts(env[|env| - 1]);
    }
  }

  /** A single admitted entry gives a one-image map. */
  lemma CollectOne(e: EnvVar, prefix: string, url: EnvVar -> string)
    requires Admitted(e, prefix)
    ensures CollectImages([e], prefix, url) == map[ImageName(e, prefix) := url(e)]
  {
    assert [e][..0] == [];
  }

  /** An image reference carrying '=' in its value is cut short by the code and kept whole when intended. */
  lemma ImagesCutShort()
    ensures ImagesFromEnvAsWritten([EnvVar("IMAGE_PIPELINE_X", "a=b")], "IMAGE_PIPELINE_") == map["X" := "a"]
    ensures ImagesFromEnv([EnvVar("IMAGE_PIPELINE_X", "a=b")], "IMAGE_PIPELINE_") == map["X" := "a=b"]
  {
    var e := EnvVar("IMAGE_PIPELINE_X", "a=b");
    var prefix := "IMAGE_PIPELINE_";
    SampleAdmitted(e, prefix);
    SampleCut(e);
    CollectOne(e, prefix, UrlAsWritten);
    CollectOne(e, prefix, Url);
  }

  lemma SampleAdmitted(e: EnvVar, prefix: string)
    requires e == EnvVar("IMAGE_PIPELINE_X", "a=b") && prefix == "IMAGE_PIPELINE_"
    ensures Admitted(e, prefix) && ImageName(e, prefix) == "X"
  {
    ImageNameOfName(e, prefix);
    assert Entry(e)[..|prefix|] == prefix;
    assert e.name[|prefix|..] == "X";
  }

  lemma SampleCut(e: EnvVar)
    requires e == EnvVar("IMAGE_PIPELINE_X", "a=b")
    ensures UrlAsWritten(e) == "a" && Url(e) == "a=b"
  {
    SampleNameClean(e);
    UrlAsWrittenCuts(e);
    SampleFirstField();
  }

  lemma SampleNameClean(e: EnvVar)
    requires e == EnvVar("IMAGE_PIPELINE_X", "a=b")
    ensures '=' !in e.name
  {
  }

  lemma SampleFirstField()
    ensures FirstField("a=b") == "a"
  {
    var s := "a=b";
    assert s[0] != '=' && s[1] == '=';
    assert IndexOf(s, '=') == 1;
  }
}

=== FILE: exclusion.dfy ===
/**
 The namespace deny-list: a namespace is excluded when some entry of the
 list, read as a regular expression, matches it, or equals it. The regular
 expression engine is a parameter.
 */
module Exclusion {
  /**
   `regexp.MatchString(pattern, s)`; a pattern that does not compile
   reports no match (the Go code drops the error).
   */
  type Matcher = (string, string) -> bool

  /** One entry excludes a namespace: the pattern matches it or is the very name. */
  predicate Excludes(matches: Matcher, pattern: string, ns: string)
  {
    matches(pattern, ns) || pattern == ns
  }

  /** Reference definition: the first entry excludes the namespace, or one of the rest does. */
  function Excluded(matches: Matcher, list: seq<string>, ns: string): bool
  {
    |list| > 0 && (Excludes(matches, list[0], ns) || Excluded(matches, list[1..], ns))
  }

  /** The reference definition holds exactly when some entry excludes the namespace. */
  lemma {:induction false} ExcludedIffSome(matches: Matcher, list: seq<string>, ns: string)
    ensures Excluded(matches, list, ns) <==> exists p :: p in list && Excludes(matches, p, ns)
    decreases |list|
  {
    if |list| > 0 {
      ExcludedIffSome(matches, list[1..], ns);
      assert forall p :: p in list <==> p == list[0] || p in list[1..];
    }
  }

  /**
   `IsNamespaceExcluded`: scans the list in order and stops at the first
   entry that excludes the namespace.
   */
  method IsNamespaceExcluded(matches: Matcher, list: seq<string>, ns: string) returns (excluded: bool)
    ensures excluded <==> exists k :: 0 <= k < |list| && Excludes(matches, list[k], ns)
    ensures excluded == Excluded(matches, list, ns)
  {
    ExcludedIffSome(matches, list, ns);
    var n := 0;
    while n < |list|
      invariant 0 <= n <= |list|
      invariant forall k :: 0 <= k < n ==> !Excludes(matches, list[k], ns)
    {
      if matches(list[n], ns) || list[n] == ns {
        return true;
      }
      n := n + 1;
    }
    return false;
  }

  /** The verdict depends only on which entries the list holds, not on their order or repetition. */
  lemma ExclusionIgnoresOrder(matches: Matcher, a: seq<string>, b: seq<string>, ns: string)
    requires forall p :: p in a <==> p in b
    ensures Excluded(matches, a, ns) == Excluded(matches, b, ns)
  {
    ExcludedIffSome(matches, a, ns);
    ExcludedIffSome(matches, b, ns);
  }

  /** Adding entries to the list never lets an excluded namespace back in. */
  lemma ExclusionGrows(matches: Matcher, a: seq<string>, b: seq<string>, ns: string)
    requires Excluded(matches, a, ns)
    ensures Excluded(matches, a + b, ns) && Excluded(matches, b + a, ns)
  {
    ExcludedIffSome(matches, a, ns);
    ExcludedIffSome(matches, a + b, ns);
    ExcludedIffSome(matches, b + a, ns);
    var p :| p in a && Excludes(matches, p, ns);
    assert p in a + b && p in b + a;
  }

  /**
   A list naming the namespace outright excludes it whatever the patterns
   before it match, as in the "Ignore specific namespace" case.
   */
  lemma ExactNameExcluded(matches: Matcher)
    ensures Excluded(matches, ["^(foo)-", "specific-namespace"], "specific-namespace")
  {
    ExcludedIffSome(matches, ["^(foo)-", "specific-namespace"], "specific-namespace");
    assert "specific-namespace" in ["^(foo)-", "specific-namespace"];
  }
}

=== FILE: extensions.dfy ===
/**
 Install extensions: optional bundles of extra transformers and pre- and
 post-install hooks that activities contribute for an `Install`, and the
 ConfigMap helper kept beside them. Hooks and activities are opaque
 functions of the `Install`; the client and scheme they are handed are left
 out.
 */
module InstallCommon {
  import opened Common
  import opened Unstructured
  import LegacyTransform
  import InstallController

  type Install = InstallController.Install

  /** An `Extender`: a hook run on the `Install`, returning an error or nil. */
  type Hook = Install -> Option<Error>

  datatype Extension = Extension(
    transformers: seq<LegacyTransform.Transformer>,
    preInstalls: seq<Hook>,
    postInstalls: seq<Hook>)

  /** One of `Activities`: an extension, nil, or an error. */
  type Activity = Install -> Result<Option<Extension>>

  /** The extensions a list of activities contributes when none fails: the non-nil ones in order. */
  function Present(acts: seq<Activity>, i: Install): (r: seq<Extension>)
    ensures |r| <= |acts|
    ensures forall e :: e in r ==> exists k :: 0 <= k < |acts| && acts[k](i) == Ok(Some(e))
  {
    if |acts| == 0 then []
    else
      var rest := Present(acts[1..], i);
      assert forall e :: e in rest ==> exists k :: 0 <= k < |acts| && acts[k](i) == Ok(Some(e)) by {
        forall e | e in rest
          ensures exists k :: 0 <= k < |acts| && acts[k](i) == Ok(Some(e))
        {
          var k :| 0 <= k < |acts[1..]| && acts[1..][k](i) == Ok(Some(e));
          assert acts[k + 1] == acts[1..][k];
        }
      }
      match acts[0](i)
      case Ok(Some(e)) => [e] + rest
      case _ => rest
  }

  lemma {:induction false} PresentAppend(a: seq<Activity>, b: seq<Activity>, i: Install)
    ensures Present(a + b, i) == Present(a, i) + Present(b, i)
    decreases |a|
  {
    if |a| == 0 {
      assert a + b == b;
    } else {
      assert (a + b)[0] == a[0];
      assert (a + b)[1..] == a[1..] + b;
      PresentAppend(a[1..], b, i);
    }
  }

  /**
   `Activities.Extend`: runs the activities in order, keeping each non-nil
   extension. The first failure is returned together with what was gathered
   before it; the activities after it are not run.
   */
  method Extend(acts: seq<Activity>, i: Install) returns (result: seq<Extension>, err: Option<Error>)
    ensures err.None? <==> forall k :: 0 <= k < |acts| ==> acts[k](i).Ok?
    ensures err.None? ==> result == Present(acts, i)
    ensures err.Some? ==>
      exists k :: 0 <= k < |acts| && acts[k](i) == Fail(err.value) &&
        (forall j :: 0 <= j < k ==> acts[j](i).Ok?) && result == Present(acts[..k], i)
  {
    result := [];
    var n := 0;
    while n < |acts|
      invariant 0 <= n <= |acts|
      invariant forall j :: 0 <= j < n ==> acts[j](i).Ok?
      invariant result == Present(acts[..n], i)
    {
      var r := acts[n](i);
      if r.Fail? {
        return result, Some(r.error);
      }
      PresentAppend(acts[..n], [acts[n]], i);
      assert acts[..n + 1] == acts[..n] + [acts[n]];
      assert [acts[n]][1..] == [];
      if r.value.Some? {
        result := result + [r.value.value];
      }
      n := n + 1;
    }
    assert acts[..n] == acts;
    err := None;
  }

  /** The transformers of all extensions, extension by extension. */
  function AllTransformers(exts: seq<Extension>): (r: seq<LegacyTransform.Transformer>)
    ensures forall e, t :: e in exts && t in e.transformers ==> t in r
  {
    if |exts| == 0 then []
    else
      var rest := AllTransformers(exts[1..]);
      assert forall e :: e in exts ==> e == exts[0] || e in exts[1..];
      exts[0].transformers + rest
  }

  /** The closing transformer of `Extensions.Transform`, which leaves every document as it is. */
  function KeepAll(): LegacyTransform.Transformer
  {
    d => LegacyTransform.Keep(d)
  }

  /**
   `Extensions.Transform`: the owner and namespace transformers of the
   `Install`, then every extension's transformers in order, then a closing
   no-op.
   */
  function Transformers(exts: seq<Extension>, env: map<string, string>, i: Install): (r: seq<LegacyTransform.Transformer>)
    ensures |r| == 3 + |AllTransformers(exts)|
    ensures r[..2] == InstallController.Transformers(env, i)
    ensures r[2..|r| - 1] == AllTransformers(exts)
    ensures r[|r| - 1] == KeepAll()
  {
    InstallController.Transformers(env, i) + AllTransformers(exts) + [KeepAll()]
  }

  /** Transforming with the closing no-op is transforming without it. */
  lemma KeepAllChangesNothing(docs: seq<Doc>)
    ensures LegacyTransform.Transform(docs, [KeepAll()]) == LegacyTransform.Transformed(docs)
  {
    var r := LegacyTransform.Transform(docs, [KeepAll()]);
    forall j | 0 <= j < |docs|
      ensures LegacyTransform.Chain([KeepAll()], docs[j]) == LegacyTransform.Keep(docs[j])
    {
      KeepAllKeeps(docs[j]);
    }
    LegacyTransform.TransformKeepsAll(docs, [KeepAll()]);
    assert forall i :: 0 <= i < |docs| ==> r.docs[i] == docs[i];
  }

  lemma KeepAllKeeps(d: Doc)
    ensures LegacyTransform.Chain([KeepAll()], d) == LegacyTransform.Keep(d)
  {
    assert [KeepAll()][1..] == [];
  }

  /**
   A manifest transformed by the extended list is the manifest transformed
   by the install controller's two transformers and then by the extensions'
   own, in that order, a panic in either pass being a panic of the whole:
   the closing no-op adds nothing.
   */
  lemma ExtendedTransform(docs: seq<Doc>, exts: seq<Extension>, env: map<string, string>, i: Install)
    ensures LegacyTransform.Transform(docs, Transformers(exts, env, i)) ==
      LegacyTransform.Then(LegacyTransform.Transform(docs, InstallController.Transformers(env, i)), AllTransformers(exts))
  {
    var base := InstallController.Transformers(env, i);
    var all := AllTransformers(exts);
    assert Transformers(exts, env, i) == (base + all) + [KeepAll()];
    LegacyTransform.TransformCompose(docs, base + all, [KeepAll()]);
    if LegacyTransform.Transform(docs, base + all).Transformed? {
      KeepAllChangesNothing(LegacyTransform.Transform(docs, base + all).docs);
    }
    LegacyTransform.TransformCompose(docs, base, all);
  }

  /**
   Hooks run in order until one fails: the error of the first failing hook,
   or None when all succeed.
   */
  function RunHooks(hooks: seq<Hook>, i: Install): (r: Option<Error>)
    ensures r.None? <==> forall k :: 0 <= k < |hooks| ==> hooks[k](i).None?
    ensures r.Some? ==>
      exists k :: 0 <= k < |hooks| && hooks[k](i) == r &&
        forall j :: 0 <= j < k ==> hooks[j](i).None?
  {
    if |hooks| == 0 then None
    else if hooks[0](i).Some? then hooks[0](i)
    else
      var rest := RunHooks(hooks[1..], i);
      assert forall k :: 1 <= k < |hooks| ==> hooks[k] == hooks[1..][k - 1];
      if rest.Some? then
        var k :| 0 <= k < |hooks[1..]| && hooks[1..][k](i) == rest && forall j :: 0 <= j < k ==> hooks[1..][j](i).None?;
        assert hooks[k + 1](i) == rest;
        rest
      else rest
  }

  lemma {:induction false} RunHooksAppend(a: seq<Hook>, b: seq<Hook>, i: Install)
    ensures RunHooks(a + b, i) == if RunHooks(a, i).Some? then RunHooks(a, i) else RunHooks(b, i)
    decreases |a|
  {
    if |a| == 0 {
      assert a + b == b;
    } else {
      assert (a + b)[0] == a[0];
      assert (a + b)[1..] == a[1..] + b;
      RunHooksAppend(a[1..], b, i);
    }
  }

  /** Which list of hooks an install phase runs. */
  datatype Phase = Pre | Post

  function HooksOf(e: Extension, p: Phase): seq<Hook>
  {
    match p
    case Pre => e.preInstalls
    case Post => e.postInstalls
  }

  /** The hooks of one phase of all extensions, extension by extension. */
  function AllHooks(exts: seq<Extension>, p: Phase): seq<Hook>
  {
    if |exts| == 0 then [] else HooksOf(exts[0], p) + AllHooks(exts[1..], p)
  }

  /**
   `PreInstall` and `PostInstall`: for each extension in order, its hooks of
   the phase in order; the first error is returned.
   */
  function RunPhase(exts: seq<Extension>, p: Phase, i: Install): (r: Option<Error>)
  {
    if |exts| == 0 then None
    else
      var first := RunHooks(HooksOf(exts[0], p), i);
      if first.Some? then first else RunPhase(exts[1..], p, i)
  }

  /**
   The nested loops of a phase behave as one loop over all of its hooks in
   extension order, so a phase fails exactly when one of its hooks does, and
   with the first such hook's error.
   */
  lemma {:induction false} RunPhaseIsFlat(exts: seq<Extension>, p: Phase, i: Install)
    ensures RunPhase(exts, p, i) == RunHooks(AllHooks(exts, p), i)
    ensures RunPhase(exts, p, i).None? <==> forall k :: 0 <= k < |AllHooks(exts, p)| ==> AllHooks(exts, p)[k](i).None?
    decreases |exts|
  {
    if |exts| > 0 {
      RunPhaseIsFlat(exts[1..], p, i);
      RunHooksAppend(HooksOf(exts[0], p), AllHooks(exts[1..], p), i);
    }
  }

  /** A phase over extensions without hooks of that phase succeeds. */
  lemma {:induction false} NoHooksNoError(exts: seq<Extension>, p: Phase, i: Install)
    requires forall k :: 0 <= k < |exts| ==> HooksOf(exts[k], p) == []
    ensures RunPhase(exts, p, i).None?
    decreases |exts|
  {
    if |exts| > 0 {
      NoHooksNoError(exts[1..], p, i);
    }
  }

  /**
   `UpdateConfigMap`: every entry of `data` is stored in the ConfigMap's
   `data`, written only where the key is missing or holds another value. The
   result also gives the keys written. A ConfigMap without `data` gains one
   only when something is written. Keys are independent of one another, so
   the order Go visits them in does not matter and the writes are modelled
   at once.
   */
  function UpdateConfigMap(cm: Doc, data: map<string, string>): (r: (Doc, set<string>))
    ensures r.0 == cm.(data := r.0.data)
    ensures r.0.data.GetOr(map[]) == cm.data.GetOr(map[]) + data
    ensures forall k :: k in r.1 <==> k in data && (k !in cm.data.GetOr(map[]) || cm.data.GetOr(map[])[k] != data[k])
    ensures r.1 == {} <==> r.0 == cm
  {
    var before := cm.data.GetOr(map[]);
    var writes := set k | k in data && (k !in before || before[k] != data[k]);
    if writes == {} then
      assert before + data == before by {
        forall k | k in data ensures k in before && before[k] == data[k] {
          assert k !in writes;
        }
      }
      (cm, writes)
    else
      var k :| k in writes;
      assert k !in before || (before + data)[k] != before[k];
      (cm.(data := Some(before + data)), writes)
  }

  /** Writing the same data twice: the second time nothing is written and the ConfigMap stays as it is. */
  lemma UpdateConfigMapIdempotent(cm: Doc, data: map<string, string>)
    ensures var once := UpdateConfigMap(cm, data).0;
      UpdateConfigMap(once, data) == (once, {})
  {
    var once := UpdateConfigMap(cm, data).0;
    var again := UpdateConfigMap(once, data);
    forall k | k in data
      ensures k in once.data.GetOr(map[]) && once.data.GetOr(map[])[k] == data[k]
    {
    }
  }
}

=== FILE: install_controller.dfy ===
/**
 The legacy install controller: it installs one manifest (plus addon
 manifests named in the `Install` resource) with the jcrossley3 manifestival
 library, records the Tekton version and the installed resource names in
 the resource's status, and deletes everything when the resource goes away.
 Loading addon manifests from disk and the status write are inputs.
 */
module InstallController {
  import opened Common
  import opened Unstructured
  import Cluster
  import LegacyTransform
  import LegacyManifest

  /** The Tekton release this controller installs. */
  const TektonVersion := "v0.3.1"

  /** The status of an `Install`; `resources` is None for a nil list. */
  datatype InstallStatus = InstallStatus(version: string, resources: Option<seq<string>>)

  /** An `Install` resource: its type and object metadata, the addon paths it asks for, and its status. */
  datatype Install = Install(
    apiVersion: string, kind: string, name: string, namespace: string, uid: string,
    addOns: seq<string>,
    status: InstallStatus)

  function OwnerOf(i: Install): Owner
  {
    Owner(i.apiVersion, i.kind, i.name, i.namespace, i.uid)
  }

  /** `isUptodate`: the recorded version is the current one and no resource list is recorded. */
  predicate IsUptodate(i: Install)
  {
    i.status.version == TektonVersion && i.status.resources.None?
  }

  /** One line of the resource list: "namespace/name : group/version, Kind=kind" and a newline. */
  function ResourceName(d: Doc): string
  {
    d.namespace + "/" + d.name + " : " + GvkText(d) + "\n"
  }

  /**
   `resourceNames`: one line per resource in manifest order, appended to a
   list that starts out nil, so an empty manifest gives a nil list.
   */
  function ResourceNames(docs: seq<Doc>): (r: Option<seq<string>>)
    ensures r.None? <==> |docs| == 0
    ensures r.Some? ==> |r.value| == |docs| && forall i :: 0 <= i < |docs| ==> r.value[i] == ResourceName(docs[i])
  {
    if |docs| == 0 then None
    else
      var init := ResourceNames(docs[..|docs| - 1]);
      var line := ResourceName(docs[|docs| - 1]);
      match init
      case None => Some([line])
      case Some(names) => Some(names + [line])
  }

  /** The two transformers `install` applies, owner first. */
  function Transformers(env: map<string, string>, i: Install): seq<LegacyTransform.Transformer>
  {
    [LegacyTransform.InjectOwner(OwnerOf(i)), LegacyTransform.InjectNamespace(env, i.namespace)]
  }

  /**
   What the controller reads and writes besides its manifest: the cluster,
   the process environment, the error the transform step reports, the addon
   manifests by path, and how the status write ends.
   */
  datatype World = World(
    cluster: Cluster.State,
    env: map<string, string>,
    transformError: Option<Error>,
    addon: string -> Result<seq<Doc>>,
    statusUpdate: Option<Error>)

  /**
   The end of `install`: the cluster, the manifest the controller keeps (the
   transformed one, or the old one when the transform panicked), and how it
   ended.
   */
  datatype Installed = Installed(cluster: Cluster.State, manifest: seq<Doc>, outcome: LegacyManifest.Outcome)

  /** One addon of the loop: its documents transformed, then applied; a transform panic ends it before any call. */
  function ApplyAddon(c: Cluster.State, tfs: seq<LegacyTransform.Transformer>, docs: seq<Doc>): (r: (Cluster.State, LegacyManifest.Outcome))
    ensures r.0.faults == c.faults
    ensures c.objects.Keys <= r.0.objects.Keys
    ensures LegacyTransform.Transform(docs, tfs).TransformPanic? ==> r == (c, LegacyManifest.Panicked)
    ensures LegacyTransform.Transform(docs, tfs).Transformed? ==> r == LegacyManifest.ApplyAll(c, LegacyTransform.Transform(docs, tfs).docs)
  {
    match LegacyTransform.Transform(docs, tfs)
    case TransformPanic => (c, LegacyManifest.Panicked)
    case Transformed(ds) => LegacyManifest.ApplyAll(c, ds)
  }

  /**
   The addon loop of `install`: each path in order is loaded, transformed
   and applied; the first load or apply failure, or a panic, ends the loop.
   A normal end means every addon loaded.
   */
  function ApplyAddons(c: Cluster.State, w: World, tfs: seq<LegacyTransform.Transformer>, paths: seq<string>): (r: (Cluster.State, LegacyManifest.Outcome))
    ensures r.0.faults == c.faults
    ensures c.objects.Keys <= r.0.objects.Keys
    ensures r.1.Done? ==> forall k :: 0 <= k < |paths| ==> w.addon(paths[k]).Ok?
    decreases |paths|
  {
    if |paths| == 0 then (c, LegacyManifest.Done)
    else
      match w.addon(paths[0])
      case Fail(e) => (c, LegacyManifest.Failed(e))
      case Ok(docs) =>
        var applied := ApplyAddon(c, tfs, docs);
        if !applied.1.Done? then applied
        else
          var rest := ApplyAddons(applied.0, w, tfs, paths[1..]);
          assert forall k :: 1 <= k < |paths| ==> paths[k] == paths[1..][k - 1];
          rest
  }

  /** Addons are processed in order: the paths of `a` all run before those of `b`, which run only if `a` ended normally. */
  lemma {:induction false} ApplyAddonsAppend(c: Cluster.State, w: World, tfs: seq<LegacyTransform.Transformer>, a: seq<string>, b: seq<string>)
    ensures ApplyAddons(c, w, tfs, a + b) ==
      (var first := ApplyAddons(c, w, tfs, a); if first.1.Done? then ApplyAddons(first.0, w, tfs, b) else first)
    decreases |a|
  {
    if |a| == 0 {
      assert a + b == b;
    } else {
      assert (a + b)[0] == a[0];
      assert (a + b)[1..] == a[1..] + b;
      match w.addon(a[0])
      case Fail(e) =>
      case Ok(docs) =>
        var applied := ApplyAddon(c, tfs, docs);
        if applied.1.Done? {
          ApplyAddonsAppend(applied.0, w, tfs, a[1..], b);
        }
    }
  }

  /**
   `install` as written: the manifest is transformed (owner, then
   namespace) and kept, and a panic there leaves it and the cluster as
   they were; a transform error is returned; the manifest is applied, but
   the error of that apply is overwritten by the addon loop and never
   returned.
   */
  function InstallAsWritten(w: World, manifest: seq<Doc>, i: Install): (r: Installed)
    ensures var t := LegacyTransform.Transform(manifest, Transformers(w.env, i));
      && (t.TransformPanic? ==> r == Installed(w.cluster, manifest, LegacyManifest.Panicked))
      && (t.Transformed? ==> r.manifest == t.docs)
    ensures r.cluster.faults == w.cluster.faults
    ensures r.outcome.Failed? && w.transformError.None? ==> |i.addOns| > 0
  {
    var tfs := Transformers(w.env, i);
    match LegacyTransform.Transform(manifest, tfs)
    case TransformPanic => Installed(w.cluster, manifest, LegacyManifest.Panicked)
    case Transformed(m) =>
      if w.transformError.Some? then Installed(w.cluster, m, LegacyManifest.Failed(w.transformError.value))
      else
        var core := LegacyManifest.ApplyAll(w.cluster, m);
        if core.1.Panicked? then Installed(core.0, m, LegacyManifest.Panicked)
        else
          var ext := ApplyAddons(core.0, w, tfs, i.addOns);
          Installed(ext.0, m, ext.1)
  }

  /**
   `install` with the apply error returned: the transformed manifest is
   applied first and any failure ends the install; then the addons. A normal
   end leaves every resource of the manifest present.
   */
  function InstallManifest(w: World, manifest: seq<Doc>, i: Install): (r: Installed)
    ensures var t := LegacyTransform.Transform(manifest, Transformers(w.env, i));
      && (t.TransformPanic? ==> r == Installed(w.cluster, manifest, LegacyManifest.Panicked))
      && (r.outcome.Done? ==> t.Transformed? && r.manifest == t.docs)
    ensures r.cluster.faults == w.cluster.faults
    ensures r.outcome.Done? ==> w.transformError.None? && LegacyManifest.ApplyAll(w.cluster, r.manifest).1.Done?
    ensures r.outcome.Done? ==> Cluster.Keys(r.manifest) <= r.cluster.objects.Keys
    ensures r.outcome.Done? ==> forall k :: 0 <= k < |i.addOns| ==> w.addon(i.addOns[k]).Ok?
  {
    var tfs := Transformers(w.env, i);
    match LegacyTransform.Transform(manifest, tfs)
    case TransformPanic => Installed(w.cluster, manifest, LegacyManifest.Panicked)
    case Transformed(m) =>
      if w.transformError.Some? then Installed(w.cluster, m, LegacyManifest.Failed(w.transformError.value))
      else
        var core := LegacyManifest.ApplyAll(w.cluster, m);
        if !core.1.Done? then Installed(core.0, m, core.1)
        else
          var ext := ApplyAddons(core.0, w, tfs, i.addOns);
          Installed(ext.0, m, ext.1)
  }

  /**
   The apply error is lost as written: with no addons and a manifest whose
   apply fails, the code reports success where the failure was meant to be
   returned.
   */
  lemma InstallDropsApplyError(w: World, manifest: seq<Doc>, i: Install)
    requires w.transformError.None? && |i.addOns| == 0
    requires LegacyTransform.Transform(manifest, Transformers(w.env, i)).Transformed?
    requires LegacyManifest.ApplyAll(w.cluster, LegacyTransform.Transform(manifest, Transformers(w.env, i)).docs).1.Failed?
    ensures InstallAsWritten(w, manifest, i).outcome.Done?
    ensures InstallManifest(w, manifest, i).outcome.Failed?
  {
  }

  /** The end of a pass: how it ended, the status stored (if any), the manifest kept, and the cluster. */
  datatype Outcome = Outcome(
    outcome: LegacyManifest.Outcome,
    written: Option<InstallStatus>,
    manifest: seq<Doc>,
    cluster: Cluster.State)

  /** A pass whose read of the `Install` failed: a missing one deletes the manifest, any other error is returned. */
  function Unfetched(w: World, manifest: seq<Doc>, e: Error): (o: Outcome)
    ensures o.written.None? && o.manifest == manifest && o.cluster.faults == w.cluster.faults
    ensures e.reason != NotFound ==> o == Outcome(LegacyManifest.Failed(e), None, manifest, w.cluster)
  {
    if e.reason == NotFound then
      var deleted := LegacyManifest.DeleteAll(w.cluster, manifest);
      Outcome(LegacyManifest.OutcomeOf(deleted.1), None, manifest, deleted.0)
    else Outcome(LegacyManifest.Failed(e), None, manifest, w.cluster)
  }

  /**
   The end of a pass after `install`: a failure is returned; otherwise the
   status is set to the current version and the resource names of the
   manifest kept, and the write's error is returned.
   */
  function Record(w: World, inst: Installed): (o: Outcome)
    ensures o.manifest == inst.manifest && o.cluster == inst.cluster
    ensures o.written.Some? <==> inst.outcome.Done? && w.statusUpdate.None?
    ensures o.written.Some? ==> o.outcome.Done? && o.written.value == InstallStatus(TektonVersion, ResourceNames(inst.manifest))
    ensures o.outcome.Done? <==> o.written.Some?
  {
    if !inst.outcome.Done? then Outcome(inst.outcome, None, inst.manifest, inst.cluster)
    else if w.statusUpdate.Some? then Outcome(LegacyManifest.Failed(w.statusUpdate.value), None, inst.manifest, inst.cluster)
    else Outcome(LegacyManifest.Done, Some(InstallStatus(TektonVersion, ResourceNames(inst.manifest))), inst.manifest, inst.cluster)
  }

  /**
   `Reconcile` given what reading the `Install` returned. A missing
   `Install` deletes the manifest; a failed read is returned; an up-to-date
   one is left alone; otherwise it is installed as written and, unless that
   reports an error, its status set to the current version and the installed
   resource names. No pass requeues.
   */
  function Reconcile(w: World, manifest: seq<Doc>, fetch: Result<Install>): (o: Outcome)
    ensures o.cluster.faults == w.cluster.faults
    ensures o.written.Some? ==> o.outcome.Done? && fetch.Ok? && !IsUptodate(fetch.value)
    ensures o.written.Some? ==> o.written.value == InstallStatus(TektonVersion, ResourceNames(o.manifest))
    ensures fetch.Fail? && fetch.error.reason != NotFound ==> o == Outcome(LegacyManifest.Failed(fetch.error), None, manifest, w.cluster)
  {
    match fetch
    case Fail(e) => Unfetched(w, manifest, e)
    case Ok(i) =>
      if IsUptodate(i) then Outcome(LegacyManifest.Done, None, manifest, w.cluster)
      else Record(w, InstallAsWritten(w, manifest, i))
  }

  /** `Reconcile` on the corrected `install`: a status is written only over a manifest that applied. */
  function ReconcileCorrected(w: World, manifest: seq<Doc>, fetch: Result<Install>): (o: Outcome)
    ensures o.cluster.faults == w.cluster.faults
    ensures o.written.Some? ==> fetch.Ok? && LegacyManifest.ApplyAll(w.cluster, o.manifest).1.Done?
    ensures o.written.Some? ==> Cluster.Keys(o.manifest) <= o.cluster.objects.Keys
    ensures o.written.Some? ==> o.written.value == InstallStatus(TektonVersion, ResourceNames(o.manifest))
  {
    match fetch
    case Fail(e) => Unfetched(w, manifest, e)
    case Ok(i) =>
      if IsUptodate(i) then Outcome(LegacyManifest.Done, None, manifest, w.cluster)
      else Record(w, InstallManifest(w, manifest, i))
  }

  /**
   As written, a pass whose core apply failed and which names no addons
   still records the new version and resource list and reports success; the
   corrected pass returns the failure and records nothing.
   */
  lemma ReconcileRecordsFailedApply(w: World, manifest: seq<Doc>, i: Install)
    requires !IsUptodate(i) && w.transformError.None? && w.statusUpdate.None? && |i.addOns| == 0
    requires LegacyTransform.Transform(manifest, Transformers(w.env, i)).Transformed?
    requires LegacyManifest.ApplyAll(w.cluster, LegacyTransform.Transform(manifest, Transformers(w.env, i)).docs).1.Failed?
    ensures var m := LegacyTransform.Transform(manifest, Transformers(w.env, i)).docs;
      Reconcile(w, manifest, Ok(i)).outcome.Done? &&
      Reconcile(w, manifest, Ok(i)).written == Some(InstallStatus(TektonVersion, ResourceNames(m)))
    ensures ReconcileCorrected(w, manifest, Ok(i)).outcome.Failed? && ReconcileCorrected(w, manifest, Ok(i)).written.None?
  {
    InstallDropsApplyError(w, manifest, i);
  }

  /** A missing `Install` deletes the manifest's resources and nothing else, and writes no status. */
  lemma MissingInstallDeletes(w: World, manifest: seq<Doc>, e: Error)
    requires e.reason == NotFound
    ensures var o := Reconcile(w, manifest, Fail(e));
      && o.written.None? && o.manifest == manifest
      && o.cluster.objects - Cluster.Keys(manifest) == w.cluster.objects - Cluster.Keys(manifest)
      && (Cluster.NoFaults(w.cluster, Cluster.Keys(manifest)) ==>
            o.outcome.Done? && o.cluster.objects == w.cluster.objects - Cluster.Keys(manifest))
  {
  }

  /** An up-to-date `Install` is neither applied nor written. */
  lemma UptodateIsLeftAlone(w: World, manifest: seq<Doc>, i: Install)
    requires IsUptodate(i)
    ensures Reconcile(w, manifest, Ok(i)) == Outcome(LegacyManifest.Done, None, manifest, w.cluster)
  {
  }

  /**
   After a successful pass the status it wrote is up to date exactly when
   the installed manifest is empty: a non-empty manifest records a resource
   list, so every later pass installs again.
   */
  lemma InstalledStatusIsUptodateOnlyWhenEmpty(w: World, manifest: seq<Doc>, i: Install)
    ensures var o := Reconcile(w, manifest, Ok(i));
      o.written.Some? ==> (IsUptodate(i.(status := o.written.value)) <==> |o.manifest| == 0)
  {
  }

  /** The resource list of a two-resource manifest, in manifest order. */
  lemma ResourceNamesExample(a: Doc, b: Doc)
    ensures ResourceNames([a, b]) == Some([ResourceName(a), ResourceName(b)])
  {
    var r := ResourceNames([a, b]);
    assert r.value == [ResourceName(a), ResourceName(b)] by {
      assert r.value[0] == ResourceName(a) && r.value[1] == ResourceName(b);
    }
  }
}

=== FILE: ledger.dfy ===
/**
 The status of the cluster-wide `Config` resource: the UUID of the operator
 that last wrote it and a newest-first ledger of conditions. The condition
 at the head is the installation's current state; everything below it is
 history.
 */
module Ledger {

  /**
   Condition codes. The first group are the states the config controller
   dispatches on and writes; the second are the other codes the types and
   their tests name. Any code outside the first group is one the dispatcher
   does not act on.
   */
  datatype Code =
    | EmptyStatus
    | PipelineApplyError | AppliedPipeline | PipelineValidateError | ValidatedPipeline
    | TriggersError | AppliedTriggers | TriggersValidateError | ValidatedTriggers
    | AddonsError | AppliedAddons | CommunityResourcesError | InstalledStatus
    | InvalidResource
    | InstallingPipeline | WaitingPipelineValidation | InstallingAddons
    | ErrorStatus | ReadyStatus | InstallingStatus

  /** One ledger entry. */
  datatype Condition = Condition(
    code: Code,
    details: string,
    version: string,
    pipelineVersion: string,
    triggersVersion: string)

  datatype Status = Status(operatorUUID: string, conditions: seq<Condition>)

  /** The watched resource: its name and uid, the namespace to install into, and its status. */
  datatype Config = Config(name: string, uid: string, targetNamespace: string, status: Status)

  /** `InstallStatus()`: the code at the head of the ledger, EmptyStatus for an empty ledger. */
  function InstallStatus(cfg: Config): (r: Code)
    ensures |cfg.status.conditions| == 0 ==> r == EmptyStatus
    ensures |cfg.status.conditions| > 0 ==> r == cfg.status.conditions[0].code
  {
    if |cfg.status.conditions| == 0 then EmptyStatus else cfg.status.conditions[0].code
  }

  /** `IsUpToDateWith(v)`: the head was written for version v, whatever its code. */
  predicate IsUpToDateWith(cfg: Config, v: string)
  {
    |cfg.status.conditions| > 0 && cfg.status.conditions[0].version == v
  }

  /** `IsInstalling(v)`: the head is an installing condition written for version v. */
  predicate IsInstalling(cfg: Config, v: string)
  {
    |cfg.status.conditions| > 0 && cfg.status.conditions[0].code == InstallingStatus &&
    cfg.status.conditions[0].version == v
  }

  /**
   `IsInstalled(v)` and `HasInstalledVersion(v)`: the head is the installed
   condition written for version v; older entries do not matter.
   */
  predicate IsInstalled(cfg: Config, v: string)
  {
    |cfg.status.conditions| > 0 && cfg.status.conditions[0].code == InstalledStatus &&
    cfg.status.conditions[0].version == v
  }

  /**
   The status `updateStatus` writes: the new condition in front of the old
   ledger, which keeps every entry in order, and the running operator's
   UUID.
   */
  function Prepend(s: Status, c: Condition, uuid: string): (r: Status)
    ensures r.operatorUUID == uuid
    ensures |r.conditions| == |s.conditions| + 1
    ensures r.conditions[0] == c && r.conditions[1..] == s.conditions
  {
    Status(uuid, [c] + s.conditions)
  }

  /** After a write the head is the condition written, so it is the state the next pass sees. */
  lemma PrependSetsState(cfg: Config, c: Condition, uuid: string)
    ensures InstallStatus(cfg.(status := Prepend(cfg.status, c, uuid))) == c.code
    ensures IsUpToDateWith(cfg.(status := Prepend(cfg.status, c, uuid)), c.version)
  {
  }

  /**
   Writing k conditions in turn leaves them newest first in front of the
   original ledger, which stays as the oldest suffix.
   */
  lemma {:induction false} PrependKeepsHistory(s: Status, cs: seq<Condition>, uuid: string)
    ensures PrependAll(s, cs, uuid).conditions[|cs|..] == s.conditions
    ensures forall j :: 0 <= j < |cs| ==> PrependAll(s, cs, uuid).conditions[j] == cs[|cs| - 1 - j]
    ensures |cs| > 0 ==> PrependAll(s, cs, uuid).operatorUUID == uuid
    decreases |cs|
  {
    if |cs| > 0 {
      var init := cs[..|cs| - 1];
      PrependKeepsHistory(s, init, uuid);
      var r := PrependAll(s, cs, uuid).conditions;
      var prev := PrependAll(s, init, uuid).conditions;
      assert r == [cs[|cs| - 1]] + prev;
      forall j | 1 <= j < |cs|
        ensures r[j] == cs[|cs| - 1 - j]
      {
        assert r[j] == prev[j - 1] == init[|init| - 1 - (j - 1)];
      }
      assert r[|cs|..] == prev[|init|..];
    }
  }

  /** The status after writing `cs` in order, oldest write first. */
  function PrependAll(s: Status, cs: seq<Condition>, uuid: string): (r: Status)
    ensures |r.conditions| == |s.conditions| + |cs|
    decreases |cs|
  {
    if |cs| == 0 then s else Prepend(PrependAll(s, cs[..|cs| - 1], uuid), cs[|cs| - 1], uuid)
  }

  function Single(code: Code, version: string): Config
  {
    Config("cluster", "uid", "test", Status("", [Condition(code, "", version, "", "")]))
  }

  /** A ready or an error head written for v0.6.0 is up to date with v0.6.0, and not with v0.7.0. */
  lemma UpToDateExamples()
    ensures IsUpToDateWith(Single(ReadyStatus, "v0.6.0"), "v0.6.0")
    ensures IsUpToDateWith(Single(ErrorStatus, "v0.6.0"), "v0.6.0")
    ensures !IsUpToDateWith(Single(ReadyStatus, "v0.6.0"), "v0.7.0")
    ensures !IsUpToDateWith(Config("cluster", "uid", "test", Status("", [])), "v0.7.0")
  {
  }

  /** An installing head at v0.6.0 is installing; installed over installing is installed. */
  lemma InstallingInstalledExamples()
    ensures IsInstalling(Single(InstallingStatus, "v0.6.0"), "v0.6.0")
    ensures IsInstalled(Config("cluster", "uid", "test", Status("", [
      Condition(InstalledStatus, "", "v0.6.0", "", ""),
      Condition(InstallingStatus, "", "v0.6.0", "", "")])), "v0.6.0")
  {
  }

  /** Installed and up to date: an installed head for v is in particular up to date with v. */
  lemma InstalledIsUpToDate(cfg: Config, v: string)
    requires IsInstalled(cfg, v)
    ensures IsUpToDateWith(cfg, v) && InstallStatus(cfg) == InstalledStatus && !IsInstalling(cfg, v)
  {
  }
}

=== FILE: legacy_filter.dfy ===
/**
 The filters of the jcrossley3 manifestival library's YAML manifest. A
 filter function inspects a deep copy of each resource, may rewrite it, and
 says whether to keep it; the manifest's resource list is replaced by the
 kept (possibly rewritten) copies.
 */
module LegacyFilter {
  import opened Common
  import opened Unstructured
  import opened LegacyTransform

  type FilterFn = Doc -> Verdict

  /** A filter function read as a transformer: rejection drops the document. */
  function AsTransformer(fn: FilterFn): Transformer
  {
    d => if fn(d).keep then Keep(fn(d).doc) else Drop
  }

  function AsTransformers(fns: seq<FilterFn>): (r: seq<Transformer>)
    ensures |r| == |fns|
  {
    seq(|fns|, i requires 0 <= i < |fns| => AsTransformer(fns[i]))
  }

  /**
   `Filter`: each resource is run through `fns` in order on a copy, the
   first false rejects it, survivors keep manifest order.
   */
  function Filter(docs: seq<Doc>, fns: seq<FilterFn>): (r: seq<Doc>)
    ensures |r| <= |docs|
  {
    FilterNeverPanics(docs, fns);
    Transform(docs, AsTransformers(fns)).docs
  }

  /** A filter keeps or rejects; it never panics, on any document. */
  lemma {:induction false} ChainNeverPanics(fns: seq<FilterFn>, d: Doc)
    ensures !Chain(AsTransformers(fns), d).Panic?
    decreases |fns|
  {
    if |fns| > 0 {
      assert AsTransformers(fns)[1..] == AsTransformers(fns[1..]);
      if fns[0](d).keep {
        ChainNeverPanics(fns[1..], fns[0](d).doc);
      }
    }
  }

  /** A pass of filter functions always completes. */
  lemma FilterNeverPanics(docs: seq<Doc>, fns: seq<FilterFn>)
    ensures Transform(docs, AsTransformers(fns)).Transformed?
  {
    forall j | 0 <= j < |docs|
      ensures !Chain(AsTransformers(fns), docs[j]).Panic?
    {
      ChainNeverPanics(fns, docs[j]);
    }
    TransformPanics(docs, AsTransformers(fns));
  }

  /** True when every filter function keeps `d`. */
  predicate AllKeep(fns: seq<FilterFn>, d: Doc)
  {
    forall i :: 0 <= i < |fns| ==> fns[i](d).keep
  }

  /** True when no filter function rewrites what it inspects. */
  ghost predicate Pure(fns: seq<FilterFn>)
  {
    forall i, d :: 0 <= i < |fns| ==> fns[i](d).doc == d
  }

  lemma {:induction false} PureChain(fns: seq<FilterFn>, d: Doc)
    requires Pure(fns)
    ensures Chain(AsTransformers(fns), d) == if AllKeep(fns, d) then Keep(d) else Drop
    decreases |fns|
  {
    if |fns| > 0 {
      assert AsTransformers(fns)[1..] == AsTransformers(fns[1..]);
      assert Pure(fns[1..]) by {
        forall i, x | 0 <= i < |fns[1..]|
          ensures fns[1..][i](x).doc == x
        {
          assert fns[1..][i] == fns[i + 1];
        }
      }
      PureChain(fns[1..], d);
      if fns[0](d).keep {
        assert AllKeep(fns, d) <==> AllKeep(fns[1..], d) by {
          if AllKeep(fns[1..], d) {
            forall i | 0 <= i < |fns|
              ensures fns[i](d).keep
            {
              if i > 0 {
                assert fns[1..][i - 1] == fns[i];
              }
            }
          }
          if AllKeep(fns, d) {
            forall i | 0 <= i < |fns[1..]|
              ensures fns[1..][i](d).keep
            {
              assert fns[1..][i] == fns[i + 1];
            }
          }
        }
      }
    }
  }

  /**
   With predicates that do not rewrite, `Filter` keeps exactly the
   documents every function accepts, and does so part by part, so their
   manifest order is kept.
   */
  lemma {:induction false} FilterKeepsExactly(docs: seq<Doc>, fns: seq<FilterFn>)
    requires Pure(fns)
    ensures forall d :: d in Filter(docs, fns) <==> d in docs && AllKeep(fns, d)
    ensures |docs| > 0 ==> Filter(docs, fns) == (if AllKeep(fns, docs[0]) then [docs[0]] else []) + Filter(docs[1..], fns)
    decreases |docs|
  {
    if |docs| > 0 {
      PureChain(fns, docs[0]);
      FilterNeverPanics(docs[1..], fns);
      FilterKeepsExactly(docs[1..], fns);
      assert docs == [docs[0]] + docs[1..];
    }
  }

  /** `ByNamespace(ns)`: rejects Namespaces; places namespaced kinds in `ns`. */
  function ByNamespace(ns: string): FilterFn
  {
    (d: Doc) => if ToLower(d.Kind()) == "namespace" then Verdict(false, d)
         else Verdict(true, if IsClusterScoped(d.Kind()) then d else d.(namespace := ns))
  }

  /**
   Outside ClusterRoleBindings, `ByNamespace` and `InjectNamespace` with the
   same resolved namespace do the same to every document.
   */
  lemma ByNamespaceAgrees(ns: string, d: Doc)
    requires ToLower(d.Kind()) != "clusterrolebinding"
    ensures AsTransformer(ByNamespace(ns))(d) == InjectNamespaceDoc(ns, d)
  {
  }

  /** `ByOwner(owner)`: always keeps; sets the controller reference on namespaced kinds. */
  function ByOwner(owner: Owner): FilterFn
  {
    d => Verdict(true, InjectOwnerDoc(owner, d))
  }

  /** `ByOwner` is the filter twin of `InjectOwner`. */
  lemma ByOwnerAgrees(owner: Owner, d: Doc)
    ensures AsTransformer(ByOwner(owner))(d) == InjectOwner(owner)(d)
    ensures AsTransformer(ByOwner(owner))(d).Keep?
  {
  }

  /** `ByOLM`: keeps a document unless the Operator Lifecycle Manager owns its kind. */
  function ByOlm(d: Doc): (r: Verdict)
    ensures r.doc == d
    ensures !r.keep <==> ToLower(d.Kind()) in {"namespace", "role", "rolebinding", "clusterrole",
                                               "clusterrolebinding", "customresourcedefinition", "serviceaccount"}
  {
    Verdict(!IsManagedByOlm(d.Kind()), d)
  }

  /** `Filter(ByOLM)` drops exactly the OLM-managed kinds and keeps the rest in place. */
  lemma FilterByOlm(docs: seq<Doc>)
    ensures forall d :: d in Filter(docs, [ByOlm]) <==> d in docs && !IsManagedByOlm(d.Kind())
  {
    FilterKeepsExactly(docs, [ByOlm]);
  }
}

=== FILE: legacy_manifest.dfy ===
/**
 `Manifest` of the jcrossley3 manifestival library: apply every resource
 (create when absent, merge-and-update when present and changed) and delete
 every resource in reverse order, against the abstract cluster store.
 */
module LegacyManifest {
  import opened Common
  import opened Unstructured
  import opened Merge
  import Cluster

  /**
   How one call ended: normally, with an error, or with the type panic
   `UpdateChanged` raises on a field that is an object in the manifest but a
   scalar or list on the server.
   */
  datatype Outcome = Done | Failed(error: Error) | Panicked

  /**
   `Get`: the live object filed under the document's key; NotFound reads as
   "absent" (None), any other error is returned.
   */
  function Get(c: Cluster.State, d: Doc): (r: (Cluster.State, Result<Option<Object>>))
    ensures r.0 == Cluster.Record(c, Cluster.GetVerb, KeyOf(d))
    ensures r.1.Fail? <==> Cluster.Fault(c, Cluster.GetVerb, KeyOf(d)).Some? &&
                           Cluster.Fault(c, Cluster.GetVerb, KeyOf(d)).value.reason != NotFound
    ensures r.1.Fail? ==> r.1.error == Cluster.Fault(c, Cluster.GetVerb, KeyOf(d)).value
    ensures r.1.Ok? && r.1.value.Some? <==> Cluster.Fault(c, Cluster.GetVerb, KeyOf(d)).None? && KeyOf(d) in c.objects
    ensures r.1.Ok? && r.1.value.Some? ==> r.1.value.value == c.objects[KeyOf(d)]
  {
    var got := Cluster.Get(c, KeyOf(d));
    match got.1
    case Ok(o) => (got.0, Ok(Some(o)))
    case Fail(e) => (got.0, if e.reason == NotFound then Ok(None) else Fail(e))
  }

  /** The outcome of a plain API call. */
  function OutcomeOf(err: Option<Error>): (r: Outcome)
    ensures r.Done? <==> err.None?
    ensures r.Failed? ==> r.error == err.value
  {
    if err.Some? then Failed(err.value) else Done
  }

  /**
   `Apply` of the object `o` filed under `k`: create it when absent,
   otherwise merge it into the live object and update only when the merge
   changed something. Only `k` is touched, and after a normal end the live
   object already holds every field `o` sets.
   */
  function ApplyObject(c: Cluster.State, k: Key, o: Object): (r: (Cluster.State, Outcome))
    ensures r.0.faults == c.faults
    ensures r.0.objects - {k} == c.objects - {k}
    ensures c.objects.Keys <= r.0.objects.Keys
    ensures r.1.Done? ==> (k in r.0.objects && UpdateChanged(o, r.0.objects[k]) == Merged(r.0.objects[k], false))
    ensures Cluster.Fault(c, Cluster.GetVerb, k).None? && k !in c.objects ==>
      r.0.calls == c.calls + [Cluster.Call(Cluster.GetVerb, k), Cluster.Call(Cluster.CreateVerb, k)]
    ensures Cluster.Fault(c, Cluster.GetVerb, k).None? && k in c.objects &&
            UpdateChanged(o, c.objects[k]).Merged? && !UpdateChanged(o, c.objects[k]).changed ==>
      r == (Cluster.Record(c, Cluster.GetVerb, k), Done)
    ensures Cluster.Fault(c, Cluster.GetVerb, k).None? && k in c.objects && UpdateChanged(o, c.objects[k]).TypePanic? ==>
      r == (Cluster.Record(c, Cluster.GetVerb, k), Panicked)
    ensures Cluster.Fault(c, Cluster.GetVerb, k).None? && k in c.objects && r.1.Done? ==>
      UpdateChanged(o, c.objects[k]).Merged? && r.0.objects[k] == UpdateChanged(o, c.objects[k]).tgt
  {
    var got := Cluster.Get(c, k);
    match got.1
    case Fail(e) =>
      if e.reason != NotFound then (got.0, Failed(e))
      else
        var created := Cluster.Create(got.0, k, o);
        MergeSelf(o);
        (created.0, OutcomeOf(created.1))
    case Ok(live) =>
      match UpdateChanged(o, live)
      case TypePanic => (got.0, Panicked)
      case Merged(t, changed) =>
        if !changed then (got.0, Done)
        else
          var updated := Cluster.Update(got.0, k, t);
          MergeIdempotent(o, live);
          (updated.0, OutcomeOf(updated.1))
  }

  /**
   `Apply` one resource: its content applied under its key. Only that key
   is touched, and after a normal end the live object already holds every
   field the manifest sets.
   */
  function Apply(c: Cluster.State, d: Doc): (r: (Cluster.State, Outcome))
    ensures r.0.faults == c.faults
    ensures r.0.objects - {KeyOf(d)} == c.objects - {KeyOf(d)}
    ensures c.objects.Keys <= r.0.objects.Keys
    ensures r.1.Done? ==> (KeyOf(d) in r.0.objects &&
      UpdateChanged(Content(d), r.0.objects[KeyOf(d)]) == Merged(r.0.objects[KeyOf(d)], false))
    ensures Cluster.Fault(c, Cluster.GetVerb, KeyOf(d)).None? && KeyOf(d) !in c.objects ==>
      r.0.calls == c.calls + [Cluster.Call(Cluster.GetVerb, KeyOf(d)), Cluster.Call(Cluster.CreateVerb, KeyOf(d))]
    ensures Cluster.Fault(c, Cluster.GetVerb, KeyOf(d)).None? && KeyOf(d) in c.objects &&
            UpdateChanged(Content(d), c.objects[KeyOf(d)]).Merged? && !UpdateChanged(Content(d), c.objects[KeyOf(d)]).changed ==>
      r == (Cluster.Record(c, Cluster.GetVerb, KeyOf(d)), Done)
    ensures Cluster.Fault(c, Cluster.GetVerb, KeyOf(d)).None? && KeyOf(d) in c.objects &&
            UpdateChanged(Content(d), c.objects[KeyOf(d)]).TypePanic? ==>
      r == (Cluster.Record(c, Cluster.GetVerb, KeyOf(d)), Panicked)
    ensures Cluster.Fault(c, Cluster.GetVerb, KeyOf(d)).None? && KeyOf(d) in c.objects && r.1.Done? ==>
      UpdateChanged(Content(d), c.objects[KeyOf(d)]).Merged? &&
      r.0.objects[KeyOf(d)] == UpdateChanged(Content(d), c.objects[KeyOf(d)]).tgt
  {
    ApplyObject(c, KeyOf(d), Content(d))
  }

  /**
   Applying a resource a second time, with the read succeeding, makes no
   write: the first apply left nothing for the merge to change.
   */
  lemma ApplyTwice(c: Cluster.State, d: Doc)
    requires Apply(c, d).1.Done?
    requires Cluster.Fault(c, Cluster.GetVerb, KeyOf(d)).None?
    ensures var once := Apply(c, d).0;
      Apply(once, d) == (Cluster.Record(once, Cluster.GetVerb, KeyOf(d)), Done)
  {
  }

  /**
   Applying over a live object leaves alone every top-level field the
   document does not set: a document without subjects keeps a live
   binding's subjects.
   */
  lemma ApplyKeepsUnsetFields(c: Cluster.State, d: Doc, f: string)
    requires Cluster.Fault(c, Cluster.GetVerb, KeyOf(d)).None? && KeyOf(d) in c.objects && Apply(c, d).1.Done?
    requires f in c.objects[KeyOf(d)] && f !in Content(d)
    ensures f in Apply(c, d).0.objects[KeyOf(d)] && Apply(c, d).0.objects[KeyOf(d)][f] == c.objects[KeyOf(d)][f]
  {
    UpdateChangedEffect(Content(d), c.objects[KeyOf(d)]);
  }

  /**
   A document that sets no owner references, applied over a live object
   whose metadata holds some, leaves them as they are.
   */
  lemma ApplyKeepsLiveOwners(c: Cluster.State, d: Doc)
    requires Cluster.Fault(c, Cluster.GetVerb, KeyOf(d)).None? && KeyOf(d) in c.objects && Apply(c, d).1.Done?
    requires |d.ownerRefs| == 0
    requires var live := c.objects[KeyOf(d)];
      "metadata" in live && live["metadata"].Obj? && "ownerReferences" in live["metadata"].fields
    ensures var live := c.objects[KeyOf(d)];
      var after := Apply(c, d).0.objects[KeyOf(d)];
      "metadata" in after && after["metadata"].Obj? && "ownerReferences" in after["metadata"].fields &&
      after["metadata"].fields["ownerReferences"] == live["metadata"].fields["ownerReferences"]
  {
    var live := c.objects[KeyOf(d)];
    UpdateChangedEffect(Content(d), live);
    UpdateChangedEffect(Metadata(d), live["metadata"].fields);
  }

  /** `ApplyAll`: every resource in manifest order, stopping at the first failure or panic. */
  function ApplyAll(c: Cluster.State, docs: seq<Doc>): (r: (Cluster.State, Outcome))
    ensures r.0.faults == c.faults
    ensures c.objects.Keys <= r.0.objects.Keys
    ensures r.0.objects - Cluster.Keys(docs) == c.objects - Cluster.Keys(docs)
    ensures r.1.Done? ==> Cluster.Keys(docs) <= r.0.objects.Keys
    decreases |docs|
  {
    if |docs| == 0 then (c, Done)
    else
      var first := Apply(c, docs[0]);
      Cluster.KeysCons(docs);
      if !first.1.Done? then first
      else
        var rest := ApplyAll(first.0, docs[1..]);
        Cluster.SameOutside(rest.0.objects, first.0.objects, c.objects, Cluster.Keys(docs[1..]), {KeyOf(docs[0])});
        rest
  }

  /**
   `Delete` one resource: nothing to do when the read finds it absent;
   otherwise (found, or the read failed) delete it, reading NotFound as
   success.
   */
  function Delete(c: Cluster.State, d: Doc): (r: (Cluster.State, Option<Error>))
    ensures r.0.faults == c.faults
    ensures r.0.objects == c.objects || r.0.objects == c.objects - {KeyOf(d)}
    ensures r.1.Some? ==> r.1.value.reason != NotFound
    ensures Cluster.NoFaults(c, {KeyOf(d)}) ==> r.1.None? && r.0.objects == c.objects - {KeyOf(d)}
    ensures Cluster.NoFaults(c, {KeyOf(d)}) && KeyOf(d) !in c.objects ==> r.0 == Cluster.Record(c, Cluster.GetVerb, KeyOf(d))
  {
    var got := Get(c, d);
    if got.1 == Ok(None) then (got.0, None)
    else
      var deleted := Cluster.Delete(got.0, KeyOf(d));
      (deleted.0, IgnoreNotFound(deleted.1))
  }

  /**
   `DeleteAll`: every resource in reverse manifest order, stopping at the
   first error. With no fault on the manifest's keys it removes exactly
   those keys.
   */
  function DeleteAll(c: Cluster.State, docs: seq<Doc>): (r: (Cluster.State, Option<Error>))
    ensures r.0.faults == c.faults
    ensures r.0.objects.Keys <= c.objects.Keys
    ensures r.0.objects - Cluster.Keys(docs) == c.objects - Cluster.Keys(docs)
    ensures Cluster.NoFaults(c, Cluster.Keys(docs)) ==> r.1.None? && r.0.objects == c.objects - Cluster.Keys(docs)
    decreases |docs|
  {
    if |docs| == 0 then (c, None)
    else
      var last := docs[|docs| - 1];
      var init := docs[..|docs| - 1];
      assert Cluster.Keys(docs) == Cluster.Keys(init) + {KeyOf(last)} by {
        assert docs == init + [last];
        Cluster.KeysAppend(init, [last]);
      }
      var first := Delete(c, last);
      if first.1.Some? then first
      else
        var rest := DeleteAll(first.0, init);
        Cluster.SameOutside(rest.0.objects, first.0.objects, c.objects, Cluster.Keys(init), {KeyOf(last)});
        rest
  }

  /**
   Reverse order made explicit: deleting `a + b` deletes all of `b` first
   and only then, if that went without error, all of `a`.
   */
  lemma {:induction false} DeleteAllAppend(c: Cluster.State, a: seq<Doc>, b: seq<Doc>)
    ensures DeleteAll(c, a + b) ==
      (var later := DeleteAll(c, b); if later.1.Some? then later else DeleteAll(later.0, a))
    decreases |b|
  {
    if |b| == 0 {
      assert a + b == a;
    } else {
      var ab := a + b;
      var last := b[|b| - 1];
      assert ab[|ab| - 1] == last;
      assert ab[..|ab| - 1] == a + b[..|b| - 1];
      var first := Delete(c, last);
      DeleteAllLast(c, ab);
      DeleteAllLast(c, b);
      if first.1.None? {
        DeleteAllAppend(first.0, a, b[..|b| - 1]);
      }
    }
  }

  /** `DeleteAll` on a non-empty list deletes the last resource, then the others if that succeeded. */
  lemma DeleteAllLast(c: Cluster.State, docs: seq<Doc>)
    requires |docs| > 0
    ensures DeleteAll(c, docs) ==
      (var first := Delete(c, docs[|docs| - 1]); if first.1.Some? then first else DeleteAll(first.0, docs[..|docs| - 1]))
  {
  }

  /** True when `d` has this apiVersion, kind and name. */
  predicate Matches(d: Doc, apiVersion: string, kind: string, name: string)
  {
    d.apiVersion == apiVersion && d.Kind() == kind && d.name == name
  }

  /** `Find`: the first resource with this apiVersion, kind and name, else None. */
  function Find(docs: seq<Doc>, apiVersion: string, kind: string, name: string): (r: Option<Doc>)
    ensures r.None? <==> forall i :: 0 <= i < |docs| ==> !Matches(docs[i], apiVersion, kind, name)
    ensures r.Some? ==> exists i :: (0 <= i < |docs| && docs[i] == r.value && Matches(docs[i], apiVersion, kind, name) &&
      forall j :: 0 <= j < i ==> !Matches(docs[j], apiVersion, kind, name))
  {
    if |docs| == 0 then None
    else if Matches(docs[0], apiVersion, kind, name) then Some(docs[0])
    else
      var r := Find(docs[1..], apiVersion, kind, name);
      assert forall i :: 1 <= i < |docs| ==> docs[i] == docs[1..][i - 1];
      if r.Some? then
        var i :| 0 <= i < |docs[1..]| && docs[1..][i] == r.value && Matches(docs[1..][i], apiVersion, kind, name) &&
          forall j :: 0 <= j < i ==> !Matches(docs[1..][j], apiVersion, kind, name);
        assert docs[i + 1] == r.value;
        assert forall j :: 0 <= j < i + 1 ==> !Matches(docs[j], apiVersion, kind, name);
        r
      else r
  }
}

=== FILE: legacy_transform.dfy ===
/**
 The transformers of the jcrossley3 manifestival library, the generation the
 install controller uses. A transformer rewrites one document and may drop
 it by returning nil, and panics where Go's type assertions fail;
 `Transform` runs every document of a manifest through a list of
 transformers.
 */
module LegacyTransform {
  import opened Common
  import opened Unstructured

  /**
   What a transformer makes of one document: the document (possibly
   rewritten), nil, which drops it from the manifest, or a run-time panic.
   */
  datatype Step = Keep(doc: Doc) | Drop | Panic

  type Transformer = Doc -> Step

  /**
   One document through `fns` in order. The first nil drops the document and
   the first panic ends everything; the transformers after either are not
   run.
   */
  function Chain(fns: seq<Transformer>, d: Doc): (r: Step)
    ensures |fns| == 0 ==> r == Keep(d)
  {
    if |fns| == 0 then Keep(d)
    else match fns[0](d)
      case Keep(d') => Chain(fns[1..], d')
      case Drop => Drop
      case Panic => Panic
  }

  /** What `Manifest.Transform` leaves: the new resource list, or a panic that ended it. */
  datatype Transformed = Transformed(docs: seq<Doc>) | TransformPanic

  /** Two consecutive stretches of one pass: a panic in either is a panic of the whole. */
  function Concat(x: Transformed, y: Transformed): Transformed
  {
    if x.TransformPanic? || y.TransformPanic? then TransformPanic else Transformed(x.docs + y.docs)
  }

  /**
   `Manifest.Transform`: every resource through the chain, the survivors
   kept in manifest order; a panic on any document ends the pass.
   */
  function Transform(docs: seq<Doc>, fns: seq<Transformer>): (r: Transformed)
    ensures r.Transformed? ==> |r.docs| <= |docs|
    decreases |docs|
  {
    if |docs| == 0 then Transformed([])
    else
      var head := Chain(fns, docs[0]);
      var rest := Transform(docs[1..], fns);
      if head.Panic? || rest.TransformPanic? then TransformPanic
      else Transformed((if head.Keep? then [head.doc] else []) + rest.docs)
  }

  /** A pass panics exactly when the chain panics on one of its documents. */
  lemma {:induction false} TransformPanics(docs: seq<Doc>, fns: seq<Transformer>)
    ensures Transform(docs, fns).TransformPanic? <==> exists j :: 0 <= j < |docs| && Chain(fns, docs[j]).Panic?
    decreases |docs|
  {
    if |docs| > 0 {
      TransformPanics(docs[1..], fns);
      assert forall j :: 1 <= j < |docs| ==> docs[1..][j - 1] == docs[j];
      if Transform(docs[1..], fns).TransformPanic? {
        var j :| 0 <= j < |docs[1..]| && Chain(fns, docs[1..][j]).Panic?;
        assert Chain(fns, docs[j + 1]).Panic?;
      }
    }
  }

  /** Every survivor of a pass is the chain's output for some document of the input. */
  lemma {:induction false} TransformProvenance(docs: seq<Doc>, fns: seq<Transformer>, i: nat)
    requires Transform(docs, fns).Transformed? && i < |Transform(docs, fns).docs|
    ensures exists j :: 0 <= j < |docs| && Chain(fns, docs[j]) == Keep(Transform(docs, fns).docs[i])
    decreases |docs|
  {
    var head := Chain(fns, docs[0]);
    var rest := Transform(docs[1..], fns);
    var first := if head.Keep? then [head.doc] else [];
    assert Transform(docs, fns).docs == first + rest.docs;
    if i < |first| {
      assert Chain(fns, docs[0]) == Keep(Transform(docs, fns).docs[i]);
    } else {
      TransformProvenance(docs[1..], fns, i - |first|);
      var j :| 0 <= j < |docs[1..]| && Chain(fns, docs[1..][j]) == Keep(rest.docs[i - |first|]);
      assert docs[1..][j] == docs[j + 1];
    }
  }

  /** A manifest none of whose documents is dropped or panics on keeps its length, position by position. */
  lemma {:induction false} TransformKeepsAll(docs: seq<Doc>, fns: seq<Transformer>)
    requires forall j :: 0 <= j < |docs| ==> Chain(fns, docs[j]).Keep?
    ensures Transform(docs, fns).Transformed?
    ensures |Transform(docs, fns).docs| == |docs|
    ensures forall i :: 0 <= i < |docs| ==> Keep(Transform(docs, fns).docs[i]) == Chain(fns, docs[i])
    decreases |docs|
  {
    if |docs| > 0 {
      assert forall j :: 1 <= j < |docs| ==> docs[1..][j - 1] == docs[j];
      TransformKeepsAll(docs[1..], fns);
      var r := Transform(docs, fns);
      assert r.docs == [Chain(fns, docs[0]).doc] + Transform(docs[1..], fns).docs;
      forall i | 1 <= i < |docs|
        ensures Keep(r.docs[i]) == Chain(fns, docs[i])
      {
        assert docs[1..][i - 1] == docs[i];
      }
    }
  }

  /** Transforming a concatenation transforms each part: survivors keep their relative order. */
  lemma {:induction false} TransformAppend(a: seq<Doc>, b: seq<Doc>, fns: seq<Transformer>)
    ensures Transform(a + b, fns) == Concat(Transform(a, fns), Transform(b, fns))
    decreases |a|
  {
    if |a| == 0 {
      assert a + b == b;
    } else {
      assert (a + b)[0] == a[0];
      assert (a + b)[1..] == a[1..] + b;
      TransformAppend(a[1..], b, fns);
    }
  }

  /** Running `f` and then `g` on one document is running the chain `f + g`. */
  lemma {:induction false} ChainAppend(f: seq<Transformer>, g: seq<Transformer>, d: Doc)
    ensures Chain(f + g, d) == (match Chain(f, d) case Keep(x) => Chain(g, x) case Drop => Drop case Panic => Panic)
    decreases |f|
  {
    if |f| == 0 {
      assert f + g == g;
    } else {
      assert (f + g)[1..] == f[1..] + g;
      assert (f + g)[0] == f[0];
      match f[0](d)
      case Keep(d') => ChainAppend(f[1..], g, d');
      case Drop =>
      case Panic =>
    }
  }

  /** A second pass over what a first pass left; nothing when the first one panicked. */
  function Then(t: Transformed, g: seq<Transformer>): Transformed
  {
    if t.TransformPanic? then TransformPanic else Transform(t.docs, g)
  }

  /** Two transform passes equal one pass with the transformer lists joined, panics included. */
  lemma {:induction false} TransformCompose(docs: seq<Doc>, f: seq<Transformer>, g: seq<Transformer>)
    ensures Then(Transform(docs, f), g) == Transform(docs, f + g)
    decreases |docs|
  {
    if |docs| > 0 {
      var head := Chain(f, docs[0]);
      var rest := Transform(docs[1..], f);
      ChainAppend(f, g, docs[0]);
      TransformCompose(docs[1..], f, g);
      if !head.Panic? && !rest.TransformPanic? {
        var first := if head.Keep? then [head.doc] else [];
        TransformAppend(first, rest.docs, g);
        if head.Keep? {
          assert [head.doc][1..] == [];
        }
      }
    }
  }

  /** `resolveEnv`: "$NAME" (at least one character after '$') reads the environment, unset reading as "". */
  function ResolveEnv(env: map<string, string>, x: string): (r: string)
    ensures !(|x| > 1 && x[0] == '$') ==> r == x
    ensures |x| > 1 && x[0] == '$' && x[1..] !in env ==> r == ""
    ensures |x| > 1 && x[0] == '$' && x[1..] in env ==> r == env[x[1..]]
  {
    if |x| > 1 && x[..1] == "$" then (if x[1..] in env then env[x[1..]] else "") else x
  }

  /**
   A ClusterRoleBinding subject after namespace injection: only a subject
   that already has a `namespace` key gets it overwritten.
   */
  function Rebind(s: Subject, namespace: string): Subject
  {
    if s.namespace.Some? then s.(namespace := Some(namespace)) else s
  }

  /**
   The documents `InjectNamespace` panics on: a ClusterRoleBinding without
   subjects, whose missing list it asserts to be a list.
   */
  predicate LacksSubjects(d: Doc)
  {
    ToLower(d.Kind()) == "clusterrolebinding" && d.subjects.None?
  }

  /**
   The rewrite `InjectNamespace` performs once its argument is resolved.
   Namespace documents are dropped; a ClusterRoleBinding without subjects
   panics, and the subjects of any other that name a namespace are moved to
   it; namespaced kinds are placed in it; nothing else changes.
   */
  function InjectNamespaceDoc(namespace: string, d: Doc): (r: Step)
    ensures r.Drop? <==> ToLower(d.Kind()) == "namespace"
    ensures r.Panic? <==> LacksSubjects(d)
    ensures r.Keep? ==> r.doc.namespace == (if IsClusterScoped(d.Kind()) then d.namespace else namespace)
    ensures r.Keep? ==> r.doc == d.(namespace := r.doc.namespace, subjects := r.doc.subjects)
    ensures r.Keep? && ToLower(d.Kind()) != "clusterrolebinding" ==> r.doc.subjects == d.subjects
    ensures r.Keep? && ToLower(d.Kind()) == "clusterrolebinding" ==>
      d.subjects.Some? && r.doc.subjects.Some? && |r.doc.subjects.value| == |d.subjects.value| &&
      forall i :: 0 <= i < |d.subjects.value| ==>
        r.doc.subjects.value[i].kind == d.subjects.value[i].kind && r.doc.subjects.value[i].name == d.subjects.value[i].name &&
        r.doc.subjects.value[i].namespace == (if d.subjects.value[i].namespace.Some? then Some(namespace) else None)
  {
    var kind := ToLower(d.Kind());
    if kind == "namespace" then Drop
    else if kind == "clusterrolebinding" && d.subjects.None? then Panic
    else
      var subjects :=
        if kind == "clusterrolebinding" then
          var ss := d.subjects.value;
          Some(seq(|ss|, i requires 0 <= i < |ss| => Rebind(ss[i], namespace)))
        else d.subjects;
      Keep(d.(namespace := if IsClusterScoped(d.Kind()) then d.namespace else namespace, subjects := subjects))
  }

  /** `InjectNamespace(ns)`: the argument is resolved once, when the transformer is built. */
  function InjectNamespace(env: map<string, string>, ns: string): Transformer
  {
    var namespace := ResolveEnv(env, ns);
    d => InjectNamespaceDoc(namespace, d)
  }

  /** Injecting the same namespace twice is injecting it once. */
  lemma InjectNamespaceIdempotent(namespace: string, d: Doc)
    requires InjectNamespaceDoc(namespace, d).Keep?
    ensures InjectNamespaceDoc(namespace, InjectNamespaceDoc(namespace, d).doc) == InjectNamespaceDoc(namespace, d)
  {
    var once := InjectNamespaceDoc(namespace, d).doc;
    assert once.Kind() == d.Kind();
    if ToLower(d.Kind()) == "clusterrolebinding" {
      var ss := once.subjects.value;
      var twice := InjectNamespaceDoc(namespace, once).doc.subjects.value;
      assert |twice| == |ss|;
      forall i | 0 <= i < |ss|
        ensures twice[i] == ss[i]
      {
        assert twice[i] == Rebind(ss[i], namespace);
      }
      assert twice == ss;
      assert InjectNamespaceDoc(namespace, once).doc == once;
    }
  }

  /**
   A manifest after `InjectNamespace`: the pass panics exactly when the
   manifest holds a ClusterRoleBinding without subjects; otherwise it holds
   no Namespace document, every namespaced document lies in the resolved
   namespace, and only the Namespace documents are gone.
   */
  lemma {:induction false} InjectNamespaceManifest(env: map<string, string>, ns: string, docs: seq<Doc>)
    ensures var r := Transform(docs, [InjectNamespace(env, ns)]);
      && (r.TransformPanic? <==> exists j :: 0 <= j < |docs| && LacksSubjects(docs[j]))
      && (r.Transformed? ==>
            && (forall i :: 0 <= i < |r.docs| ==> ToLower(r.docs[i].Kind()) != "namespace")
            && (forall i :: 0 <= i < |r.docs| && !IsClusterScoped(r.docs[i].Kind()) ==> r.docs[i].namespace == ResolveEnv(env, ns))
            && |r.docs| == |docs| - |NamespaceDocs(docs)|)
    decreases |docs|
  {
    var fns := [InjectNamespace(env, ns)];
    var r := Transform(docs, fns);
    assert fns[1..] == [];
    assert forall j :: 0 <= j < |docs| ==> Chain(fns, docs[j]) == InjectNamespaceDoc(ResolveEnv(env, ns), docs[j]);
    TransformPanics(docs, fns);
    if r.Transformed? {
      forall i | 0 <= i < |r.docs|
        ensures ToLower(r.docs[i].Kind()) != "namespace"
        ensures !IsClusterScoped(r.docs[i].Kind()) ==> r.docs[i].namespace == ResolveEnv(env, ns)
      {
        TransformProvenance(docs, fns, i);
        var j :| 0 <= j < |docs| && Chain(fns, docs[j]) == Keep(r.docs[i]);
      }
    }
    if |docs| > 0 {
      InjectNamespaceManifest(env, ns, docs[1..]);
      assert forall j :: 1 <= j < |docs| ==> docs[1..][j - 1] == docs[j];
    }
  }

  /** The Namespace documents of a manifest. */
  function NamespaceDocs(docs: seq<Doc>): (r: seq<Doc>)
    ensures |r| <= |docs|
  {
    if |docs| == 0 then []
    else (if ToLower(docs[0].Kind()) == "namespace" then [docs[0]] else []) + NamespaceDocs(docs[1..])
  }

  /**
   The rewrite `InjectOwner` performs: a namespaced document gets exactly one
   owner reference, the controller reference to the owner; a cluster-scoped
   one is left alone.
   */
  function InjectOwnerDoc(owner: Owner, d: Doc): (r: Doc)
    ensures IsClusterScoped(d.Kind()) ==> r == d
    ensures !IsClusterScoped(d.Kind()) ==> r.ownerRefs == [ControllerRef(owner)] && r == d.(ownerRefs := r.ownerRefs)
  {
    if IsClusterScoped(d.Kind()) then d else d.(ownerRefs := [ControllerRef(owner)])
  }

  /** `InjectOwner(owner)`: never drops a document. */
  function InjectOwner(owner: Owner): Transformer
  {
    d => Keep(InjectOwnerDoc(owner, d))
  }

  /**
   A manifest after `InjectOwner` keeps every document in place under the
   same key, and a second pass changes nothing.
   */
  lemma InjectOwnerManifest(owner: Owner, docs: seq<Doc>)
    ensures var r := Transform(docs, [InjectOwner(owner)]);
      && r.Transformed? && |r.docs| == |docs|
      && (forall i :: 0 <= i < |r.docs| ==> KeyOf(r.docs[i]) == KeyOf(docs[i]))
      && Transform(r.docs, [InjectOwner(owner)]) == r
  {
    var r := OwnerPass(owner, docs);
    forall i | 0 <= i < |r|
      ensures KeyOf(r[i]) == KeyOf(docs[i])
    {
      assert r[i] == InjectOwnerDoc(owner, docs[i]);
    }
    var r2 := OwnerPass(owner, r);
    forall i | 0 <= i < |r|
      ensures r2[i] == r[i]
    {
      assert r2[i] == InjectOwnerDoc(owner, r[i]);
    }
  }

  /** One `InjectOwner` pass rewrites each document in place. */
  lemma OwnerPass(owner: Owner, docs: seq<Doc>) returns (r: seq<Doc>)
    ensures Transform(docs, [InjectOwner(owner)]) == Transformed(r)
    ensures |r| == |docs|
    ensures forall i :: 0 <= i < |r| ==> r[i] == InjectOwnerDoc(owner, docs[i])
  {
    var fns := [InjectOwner(owner)];
    assert fns[1..] == [];
    assert forall j :: 0 <= j < |docs| ==> Chain(fns, docs[j]) == Keep(InjectOwnerDoc(owner, docs[j]));
    TransformKeepsAll(docs, fns);
    r := Transform(docs, fns).docs;
  }
}

=== FILE: manifestival.dfy ===
/**
 `Manifest` of the manifestival library, the generation the config
 controller uses: resources are applied in order (create with two
 annotations, or update through a three-way patch) and deleted in reverse
 order, Namespaces only when this library created them.
 */
module Manifestival {
  import opened Common
  import opened Unstructured
  import Cluster
  import LegacyManifest

  /** The annotation key `kubectl apply` keeps the last applied configuration under. */
  const LastAppliedKey := "kubectl.kubernetes.io/last-applied-configuration"

  /** The annotation key and value that mark a resource this library created. */
  const CreatedKey := "manifestival"
  const ResourceCreated := "new"

  datatype Manifest = Manifest(resources: seq<Doc>)

  /** `Resources`: the resources as a fresh list of equal elements. */
  function Resources(m: Manifest): (r: seq<Doc>)
    ensures |r| == |m.resources| && forall i :: 0 <= i < |r| ==> r[i] == m.resources[i]
  {
    m.resources
  }

  /** `Append`: this manifest's resources followed by the other's. */
  function Append(m: Manifest, other: Manifest): (r: Manifest)
    ensures |r.resources| == |m.resources| + |other.resources|
    ensures r.resources[..|m.resources|] == m.resources && r.resources[|m.resources|..] == other.resources
  {
    Manifest(m.resources + other.resources)
  }

  /**
   What a transformer does to a document, and a transformer pass to a
   manifest: rewrites it, returns an error, or panics. The Go transformers
   are functions over a document pointer, and any of them may panic.
   */
  datatype Rewrite<+T> = Rewritten(value: T) | Refused(error: Error) | Panicked

  /** A rewrite of one document that may fail or panic. */
  type Transformer = Doc -> Rewrite<Doc>

  /** An error-returning rewrite as a transformer that never panics. */
  function Lift(r: Result<Doc>): (t: Rewrite<Doc>)
    ensures t.Rewritten? <==> r.Ok?
    ensures r.Ok? ==> t.value == r.value
    ensures r.Fail? ==> t == Refused(r.error)
  {
    match r
    case Ok(d) => Rewritten(d)
    case Fail(e) => Refused(e)
  }

  /** Two rewrites that stop the same way: with the same error, or both by a panic. */
  predicate StopsLike<A, B>(a: Rewrite<A>, b: Rewrite<B>)
  {
    (a.Refused? && b.Refused? && a.error == b.error) || (a.Panicked? && b.Panicked?)
  }

  /** One document through `fns` in order, stopping at the first error or panic. */
  function TransformDoc(fns: seq<Transformer>, d: Doc): (r: Rewrite<Doc>)
    ensures |fns| == 0 ==> r == Rewritten(d)
  {
    if |fns| == 0 then Rewritten(d)
    else match fns[0](d)
      case Refused(e) => Refused(e)
      case Panicked => Panicked
      case Rewritten(d') => TransformDoc(fns[1..], d')
  }

  /**
   A chain run in two pieces: the first `k` transformers, then the rest on
   what they produced; a stop in the first piece is the stop of the whole.
   */
  lemma {:induction false} TransformDocSplit(fns: seq<Transformer>, k: int, d: Doc)
    requires 0 <= k <= |fns|
    ensures TransformDoc(fns[..k], d).Rewritten? ==>
      TransformDoc(fns, d) == TransformDoc(fns[k..], TransformDoc(fns[..k], d).value)
    ensures !TransformDoc(fns[..k], d).Rewritten? ==> TransformDoc(fns, d) == TransformDoc(fns[..k], d)
    decreases k
  {
    if k == 0 {
      assert fns[0..] == fns;
    } else {
      assert fns[..k][0] == fns[0];
      assert fns[..k][1..] == fns[1..][..k - 1];
      assert fns[1..][k - 1..] == fns[k..];
      match fns[0](d)
      case Rewritten(d1) => TransformDocSplit(fns[1..], k - 1, d1);
      case Refused(_) =>
      case Panicked =>
    }
  }

  /** Document `i` is the first whose transformation does not complete. */
  predicate StopsAt(fns: seq<Transformer>, docs: seq<Doc>, i: int)
  {
    && 0 <= i < |docs|
    && !TransformDoc(fns, docs[i]).Rewritten?
    && forall j :: 0 <= j < i ==> TransformDoc(fns, docs[j]).Rewritten?
  }

  /**
   `Transform`: every resource through the transformers, resource by
   resource; the first resource whose chain returns an error or panics
   decides the call, otherwise every resource is rewritten in place.
   */
  function Transform(m: Manifest, fns: seq<Transformer>): (r: Rewrite<Manifest>)
    ensures r.Rewritten? <==> forall i :: 0 <= i < |m.resources| ==> TransformDoc(fns, m.resources[i]).Rewritten?
    ensures r.Rewritten? ==> (|r.value.resources| == |m.resources| &&
      forall i :: 0 <= i < |m.resources| ==> TransformDoc(fns, m.resources[i]) == Rewritten(r.value.resources[i]))
    ensures !r.Rewritten? ==> exists i :: StopsAt(fns, m.resources, i) && StopsLike(r, TransformDoc(fns, m.resources[i]))
    decreases |m.resources|
  {
    if |m.resources| == 0 then Rewritten(m)
    else
      var head := TransformDoc(fns, m.resources[0]);
      var tail := Manifest(m.resources[1..]);
      assert forall i :: 1 <= i < |m.resources| ==> m.resources[i] == tail.resources[i - 1];
      match head
      case Refused(e) =>
        assert StopsAt(fns, m.resources, 0);
        Refused(e)
      case Panicked =>
        assert StopsAt(fns, m.resources, 0);
        Panicked
      case Rewritten(d) =>
        var rest := Transform(tail, fns);
        StopsShift(fns, m.resources);
        match rest
        case Refused(e) => Refused(e)
        case Panicked => Panicked
        case Rewritten(more) => Rewritten(Manifest([d] + more.resources))
  }

  /** Behind a first document that transforms, the first stop of the rest is the first stop of the whole, one place further. */
  lemma StopsShift(fns: seq<Transformer>, docs: seq<Doc>)
    requires |docs| > 0 && TransformDoc(fns, docs[0]).Rewritten?
    ensures forall i :: StopsAt(fns, docs[1..], i) ==> StopsAt(fns, docs, i + 1)
  {
    forall i | StopsAt(fns, docs[1..], i) ensures StopsAt(fns, docs, i + 1) {
      forall j | 0 <= j < i + 1 ensures TransformDoc(fns, docs[j]).Rewritten? {
        if j > 0 { assert docs[j] == docs[1..][j - 1]; }
      }
    }
  }

  /** `annotate`: sets one annotation and keeps every other field and annotation. */
  function Annotate(d: Doc, key: string, value: string): (r: Doc)
    ensures key in r.annotations && r.annotations[key] == value
    ensures forall k :: k in d.annotations && k != key ==> k in r.annotations && r.annotations[k] == d.annotations[k]
    ensures r.annotations.Keys == d.annotations.Keys + {key}
    ensures r == d.(annotations := r.annotations)
  {
    d.(annotations := d.annotations[key := value])
  }

  /**
   `okToDelete`: a document of kind exactly "Namespace" only when it carries
   manifestival="new"; every other kind always.
   */
  function OkToDelete(d: Doc): (r: bool)
    ensures d.Kind() != "Namespace" ==> r
    ensures d.Kind() == "Namespace" ==> (r <==> CreatedKey in d.annotations && d.annotations[CreatedKey] == ResourceCreated)
  {
    match d.Kind()
    case "Namespace" => (if CreatedKey in d.annotations then d.annotations[CreatedKey] else "") == ResourceCreated
    case _ => true
  }

  /** The document `apply` sends when creating: the last-applied and the manifestival annotations added. */
  function ForCreate(lastApplied: Doc -> string, d: Doc): (r: Doc)
    ensures KeyOf(r) == KeyOf(d)
    ensures LastAppliedKey in r.annotations && r.annotations[LastAppliedKey] == lastApplied(d)
    ensures CreatedKey in r.annotations && r.annotations[CreatedKey] == ResourceCreated
    ensures forall k :: k in d.annotations && k != LastAppliedKey && k != CreatedKey ==>
      k in r.annotations && r.annotations[k] == d.annotations[k]
  {
    Annotate(Annotate(d, LastAppliedKey, lastApplied(d)), CreatedKey, ResourceCreated)
  }

  /**
   The three-way patch between a manifest entry and the live object: not
   needed, or needed with the merged object to send; building or merging it
   may fail.
   */
  datatype Patch = NotRequired | Required(merged: Object)

  type Patcher = (Doc, Object) -> Result<Patch>

  /**
   `apply` of `d` with `created` as the object to create: create it when
   absent; when present send the merged object only if the patch is
   required. The flag says whether the read found it absent.
   */
  function ApplyCreating(c: Cluster.State, patch: Patcher, d: Doc, created: Object): (r: (Cluster.State, Option<Error>, bool))
    ensures r.0.faults == c.faults
    ensures Cluster.Extends(c, r.0, {KeyOf(d)})
    ensures r.0.objects - {KeyOf(d)} == c.objects - {KeyOf(d)}
    ensures c.objects.Keys <= r.0.objects.Keys
    ensures r.1.None? ==> KeyOf(d) in r.0.objects
    ensures Cluster.NoFaults(c, {KeyOf(d)}) && KeyOf(d) !in c.objects ==>
      r.1.None? && r.0.objects == c.objects[KeyOf(d) := created]
    ensures Cluster.NoFaults(c, {KeyOf(d)}) && KeyOf(d) in c.objects && patch(d, c.objects[KeyOf(d)]) == Ok(NotRequired) ==>
      (r.0, r.1) == (Cluster.Record(c, Cluster.GetVerb, KeyOf(d)), None)
    ensures Cluster.NoFaults(c, {KeyOf(d)}) && KeyOf(d) in c.objects && patch(d, c.objects[KeyOf(d)]).Ok? &&
            patch(d, c.objects[KeyOf(d)]).value.Required? ==>
      r.1.None? && r.0.objects == c.objects[KeyOf(d) := patch(d, c.objects[KeyOf(d)]).value.merged]
    ensures r.2 ==> (Cluster.Fault(c, Cluster.GetVerb, KeyOf(d)).None? ==> KeyOf(d) !in c.objects)
    ensures Cluster.NoFaults(c, {KeyOf(d)}) ==> (r.2 <==> KeyOf(d) !in c.objects)
  {
    var got := LegacyManifest.Get(c, d);
    if got.1.Fail? then (got.0, Some(got.1.error), false)
    else if got.1.value.None? then
      var made := Cluster.Create(got.0, KeyOf(d), created);
      (made.0, made.1, true)
    else
      match patch(d, got.1.value.value)
      case Fail(e) => (got.0, Some(e), false)
      case Ok(NotRequired) => (got.0, None, false)
      case Ok(Required(merged)) =>
        var sent := Cluster.Update(got.0, KeyOf(d), merged);
        (sent.0, sent.1, false)
  }

  /**
   `apply` one resource: create it (annotated) when absent; when present
   send the merged object only if the patch is required. The third
   component is the resource as the manifest holds it afterwards: `annotate`
   writes into the manifest's own object, before the create call and
   whatever that call returns, so a resource the read found absent keeps
   the two annotations.
   */
  function ApplyOne(c: Cluster.State, lastApplied: Doc -> string, patch: Patcher, d: Doc): (r: (Cluster.State, Option<Error>, Doc))
    ensures r.0.faults == c.faults
    ensures Cluster.Extends(c, r.0, {KeyOf(d)})
    ensures r.0.objects - {KeyOf(d)} == c.objects - {KeyOf(d)}
    ensures c.objects.Keys <= r.0.objects.Keys
    ensures r.1.None? ==> KeyOf(d) in r.0.objects
    ensures Cluster.NoFaults(c, {KeyOf(d)}) && KeyOf(d) !in c.objects ==>
      r.1.None? && r.0.objects == c.objects[KeyOf(d) := Content(ForCreate(lastApplied, d))] && r.2 == ForCreate(lastApplied, d)
    ensures Cluster.NoFaults(c, {KeyOf(d)}) && KeyOf(d) in c.objects && patch(d, c.objects[KeyOf(d)]) == Ok(NotRequired) ==>
      (r.0, r.1) == (Cluster.Record(c, Cluster.GetVerb, KeyOf(d)), None)
    ensures Cluster.NoFaults(c, {KeyOf(d)}) && KeyOf(d) in c.objects && patch(d, c.objects[KeyOf(d)]).Ok? &&
            patch(d, c.objects[KeyOf(d)]).value.Required? ==>
      r.1.None? && r.0.objects == c.objects[KeyOf(d) := patch(d, c.objects[KeyOf(d)]).value.merged]
    ensures r.2 == d || r.2 == ForCreate(lastApplied, d)
    ensures r.2 != d ==> (Cluster.Fault(c, Cluster.GetVerb, KeyOf(d)).None? ==> KeyOf(d) !in c.objects)
    ensures KeyOf(r.2) == KeyOf(d)
  {
    var a := ApplyCreating(c, patch, d, Content(ForCreate(lastApplied, d)));
    (a.0, a.1, if a.2 then ForCreate(lastApplied, d) else d)
  }

  /** True when `after` is `before` with some resources given the two annotations of a create. */
  predicate Annotates(lastApplied: Doc -> string, before: seq<Doc>, after: seq<Doc>)
  {
    |after| == |before| && forall i :: 0 <= i < |before| ==> after[i] == before[i] || after[i] == ForCreate(lastApplied, before[i])
  }

  /**
   `Apply`: every resource in manifest order, stopping at the first error.
   The third component is the manifest's resources afterwards: those the
   loop created carry the two annotations, the others are as they were.
   */
  function Apply(c: Cluster.State, lastApplied: Doc -> string, patch: Patcher, docs: seq<Doc>): (r: (Cluster.State, Option<Error>, seq<Doc>))
    ensures r.0.faults == c.faults
    ensures Cluster.Extends(c, r.0, Cluster.Keys(docs))
    ensures c.objects.Keys <= r.0.objects.Keys
    ensures r.0.objects - Cluster.Keys(docs) == c.objects - Cluster.Keys(docs)
    ensures r.1.None? ==> Cluster.Keys(docs) <= r.0.objects.Keys
    ensures |r.2| == |docs|
    decreases |docs|
  {
    if |docs| == 0 then
      assert c.calls[|c.calls|..] == [];
      (c, None, docs)
    else
      var first := ApplyOne(c, lastApplied, patch, docs[0]);
      Cluster.KeysCons(docs);
      if first.1.Some? then
        Cluster.WritesWiden(c, first.0, {KeyOf(docs[0])}, Cluster.Keys(docs));
        (first.0, first.1, [first.2] + docs[1..])
      else
        var rest := Apply(first.0, lastApplied, patch, docs[1..]);
        Cluster.WritesCompose(c, first.0, rest.0, {KeyOf(docs[0])}, Cluster.Keys(docs[1..]));
        assert rest.1.None? ==> Cluster.Keys(docs) <= rest.0.objects.Keys by {
          if rest.1.None? {
            StoredCons(docs, first.0, rest.0);
          }
        }
        (rest.0, rest.1, [first.2] + rest.2)
  }

  /** The first key stored, and the rest's kept stored with them: all of them stored. */
  lemma StoredCons(docs: seq<Doc>, mid: Cluster.State, fin: Cluster.State)
    requires |docs| > 0 && KeyOf(docs[0]) in mid.objects && mid.objects.Keys <= fin.objects.Keys
    requires Cluster.Keys(docs[1..]) <= fin.objects.Keys
    ensures Cluster.Keys(docs) <= fin.objects.Keys
  {
    Cluster.KeysCons(docs);
  }

  /** The resources `Apply` leaves in the manifest are its own, some of them with the two annotations of a create. */
  lemma {:induction false} ApplyAnnotates(c: Cluster.State, lastApplied: Doc -> string, patch: Patcher, docs: seq<Doc>)
    ensures Annotates(lastApplied, docs, Apply(c, lastApplied, patch, docs).2)
    decreases |docs|
  {
    if |docs| > 0 {
      var first := ApplyOne(c, lastApplied, patch, docs[0]);
      if first.1.Some? {
        AnnotatesCons(lastApplied, docs, first.2, docs[1..]);
      } else {
        ApplyAnnotates(first.0, lastApplied, patch, docs[1..]);
        AnnotatesCons(lastApplied, docs, first.2, Apply(first.0, lastApplied, patch, docs[1..]).2);
      }
    }
  }

  /** Annotating the first resource, or not, in front of the rest annotated. */
  lemma AnnotatesCons(lastApplied: Doc -> string, docs: seq<Doc>, head: Doc, tail: seq<Doc>)
    requires |docs| > 0
    requires head == docs[0] || head == ForCreate(lastApplied, docs[0])
    requires tail == docs[1..] || Annotates(lastApplied, docs[1..], tail)
    ensures Annotates(lastApplied, docs, [head] + tail)
  {
    forall i | 1 <= i < |docs|
      ensures ([head] + tail)[i] == docs[i] || ([head] + tail)[i] == ForCreate(lastApplied, docs[i])
    {
      assert ([head] + tail)[i] == tail[i - 1] && docs[i] == docs[1..][i - 1];
    }
  }

  /** The annotations of a create leave every key where it was. */
  lemma AnnotatesKeys(lastApplied: Doc -> string, before: seq<Doc>, after: seq<Doc>)
    requires Annotates(lastApplied, before, after)
    ensures Cluster.Keys(after) == Cluster.Keys(before)
  {
    assert forall i :: 0 <= i < |before| ==> KeyOf(after[i]) == KeyOf(before[i]);
    forall k | k in Cluster.Keys(before) ensures k in Cluster.Keys(after) {
      var i :| 0 <= i < |before| && k == KeyOf(before[i]);
      assert KeyOf(after[i]) == k;
    }
  }

  /** `Apply` ends normally only past a first resource applied without error, and then continues with the rest. */
  lemma ApplyCons(c: Cluster.State, lastApplied: Doc -> string, patch: Patcher, docs: seq<Doc>)
    requires |docs| > 0
    ensures Apply(c, lastApplied, patch, docs).1.None? ==> ApplyOne(c, lastApplied, patch, docs[0]).1.None?
    ensures var first := ApplyOne(c, lastApplied, patch, docs[0]);
      var rest := Apply(first.0, lastApplied, patch, docs[1..]);
      first.1.None? ==> Apply(c, lastApplied, patch, docs) == (rest.0, rest.1, [first.2] + rest.2)
  {
  }

  /**
   True when `after` holds, at every position whose key is neither in
   `present` nor at an earlier position, the resource with the two
   annotations of a create.
   */
  predicate CreatesFresh(lastApplied: Doc -> string, present: set<Key>, docs: seq<Doc>, after: seq<Doc>)
  {
    |after| == |docs| &&
    forall i :: 0 <= i < |docs| && KeyOf(docs[i]) !in present && KeyOf(docs[i]) !in Cluster.Keys(docs[..i]) ==>
      after[i] == ForCreate(lastApplied, docs[i])
  }

  /** A key absent from the documents before position `i` is, in the tail, absent before `i - 1` and not the first key. */
  lemma FreshInTail(docs: seq<Doc>, i: int)
    requires 0 < i < |docs|
    requires KeyOf(docs[i]) !in Cluster.Keys(docs[..i])
    ensures KeyOf(docs[i]) != KeyOf(docs[0])
    ensures docs[1..][i - 1] == docs[i]
    ensures KeyOf(docs[1..][i - 1]) !in Cluster.Keys(docs[1..][..i - 1])
  {
    assert docs[..i][0] == docs[0];
    assert docs[1..][..i - 1] == docs[..i][1..];
    Cluster.KeysCons(docs[..i]);
  }

  /** The first resource created when its key was absent, in front of the rest created from a store that gained at most that key. */
  lemma CreatesFreshCons(lastApplied: Doc -> string, present: set<Key>, presentRest: set<Key>, docs: seq<Doc>, head: Doc, tail: seq<Doc>)
    requires |docs| > 0
    requires KeyOf(docs[0]) !in present ==> head == ForCreate(lastApplied, docs[0])
    requires presentRest <= present + {KeyOf(docs[0])}
    requires CreatesFresh(lastApplied, presentRest, docs[1..], tail)
    ensures CreatesFresh(lastApplied, present, docs, [head] + tail)
  {
    forall i | 0 < i < |docs| && KeyOf(docs[i]) !in present && KeyOf(docs[i]) !in Cluster.Keys(docs[..i])
      ensures ([head] + tail)[i] == ForCreate(lastApplied, docs[i])
    {
      FreshInTail(docs, i);
      assert ([head] + tail)[i] == tail[i - 1];
    }
  }

  /**
   A fault-free `Apply` that ends normally leaves every resource it created
   (absent before, and not an earlier resource's key) in the manifest with
   the two annotations of a create.
   */
  lemma {:induction false} ApplyCreatesFresh(c: Cluster.State, lastApplied: Doc -> string, patch: Patcher, docs: seq<Doc>)
    requires Cluster.NoFaults(c, Cluster.Keys(docs))
    requires Apply(c, lastApplied, patch, docs).1.None?
    ensures CreatesFresh(lastApplied, c.objects.Keys, docs, Apply(c, lastApplied, patch, docs).2)
    decreases |docs|
  {
    if |docs| > 0 {
      var first := ApplyOne(c, lastApplied, patch, docs[0]);
      Cluster.KeysCons(docs);
      assert Cluster.NoFaults(c, {KeyOf(docs[0])});
      ApplyCons(c, lastApplied, patch, docs);
      ApplyCreatesFresh(first.0, lastApplied, patch, docs[1..]);
      assert first.0.objects.Keys <= c.objects.Keys + {KeyOf(docs[0])} by {
        assert first.0.objects - {KeyOf(docs[0])} == c.objects - {KeyOf(docs[0])};
      }
      CreatesFreshCons(lastApplied, c.objects.Keys, first.0.objects.Keys, docs, first.2,
        Apply(first.0, lastApplied, patch, docs[1..]).2);
    }
  }

  /**
   Whatever `Apply` creates, the manifest it leaves behind may later
   delete, Namespaces included: a resource absent before a fault-free apply
   that ends normally is held afterwards with the two annotations of a
   create, so `okToDelete` allows it.
   */
  lemma CreatedIsDeletable(c: Cluster.State, lastApplied: Doc -> string, patch: Patcher, docs: seq<Doc>, i: int)
    requires 0 <= i < |docs|
    requires Cluster.NoFaults(c, Cluster.Keys(docs))
    requires KeyOf(docs[i]) !in c.objects
    requires KeyOf(docs[i]) !in Cluster.Keys(docs[..i])
    requires Apply(c, lastApplied, patch, docs).1.None?
    ensures Apply(c, lastApplied, patch, docs).2[i] == ForCreate(lastApplied, docs[i])
    ensures OkToDelete(Apply(c, lastApplied, patch, docs).2[i])
  {
    ApplyCreatesFresh(c, lastApplied, patch, docs);
  }

  /** The key of a resource the apply created is among the deletable keys of the manifest held afterwards. */
  lemma CreatedKeyDeletable(c: Cluster.State, lastApplied: Doc -> string, patch: Patcher, docs: seq<Doc>, i: int)
    requires 0 <= i < |docs|
    requires Cluster.NoFaults(c, Cluster.Keys(docs))
    requires KeyOf(docs[i]) !in c.objects
    requires KeyOf(docs[i]) !in Cluster.Keys(docs[..i])
    requires Apply(c, lastApplied, patch, docs).1.None?
    ensures KeyOf(docs[i]) in Cluster.Keys(Deletable(Apply(c, lastApplied, patch, docs).2))
  {
    var held := Apply(c, lastApplied, patch, docs).2;
    CreatedIsDeletable(c, lastApplied, patch, docs, i);
    assert held[i] in Deletable(held);
    Cluster.KeyIn(Deletable(held), held[i]);
  }

    /**
   `delete` one resource: nothing to do when the read finds it absent,
   otherwise the delete call's own error, NotFound included.
   */
  function DeleteOne(c: Cluster.State, d: Doc): (r: (Cluster.State, Option<Error>))
    ensures r.0.faults == c.faults
    ensures Cluster.Extends(c, r.0, {KeyOf(d)})
    ensures r.0.objects == c.objects || r.0.objects == c.objects - {KeyOf(d)}
    ensures Cluster.NoFaults(c, {KeyOf(d)}) ==> r.1.None? && r.0.objects == c.objects - {KeyOf(d)}
  {
    var got := LegacyManifest.Get(c, d);
    if got.1 == Ok(None) then (got.0, None)
    else Cluster.Delete(got.0, KeyOf(d))
  }

  /** The resources `Delete` may remove, in manifest order. */
  function Deletable(docs: seq<Doc>): (r: seq<Doc>)
    ensures forall d :: d in r <==> d in docs && OkToDelete(d)
  {
    if |docs| == 0 then []
    else
      assert docs == [docs[0]] + docs[1..];
      (if OkToDelete(docs[0]) then [docs[0]] else []) + Deletable(docs[1..])
  }

  /**
   `Delete`: every resource in reverse order that `okToDelete` allows;
   per-resource errors are logged and skipped, so the call never fails.
   Only deletable keys are touched; with no faults they are all removed.
   */
  function Delete(c: Cluster.State, docs: seq<Doc>): (r: (Cluster.State, Option<Error>))
    ensures r.1.None?
    ensures r.0.faults == c.faults
    ensures r.0.objects.Keys <= c.objects.Keys
    ensures r.0.objects - Cluster.Keys(Deletable(docs)) == c.objects - Cluster.Keys(Deletable(docs))
    ensures Cluster.NoFaults(c, Cluster.Keys(Deletable(docs))) ==> r.0.objects == c.objects - Cluster.Keys(Deletable(docs))
    decreases |docs|
  {
    if |docs| == 0 then (c, None)
    else
      var last := docs[|docs| - 1];
      var init := docs[..|docs| - 1];
      var first := if OkToDelete(last) then DeleteOne(c, last).0 else c;
      var rest := Delete(first, init);
      var kLast := if OkToDelete(last) then {KeyOf(last)} else {};
      assert docs == init + [last];
      DeletableKeysSnoc(init, last);
      DeleteIfAllowed(c, last);
      Cluster.RemovalsCompose(c, first, rest.0, kLast, Cluster.Keys(Deletable(init)));
      (rest.0, None)
  }

  /** The step `Delete` takes for one resource: a removal confined to its key when `okToDelete` allows it, nothing otherwise. */
  lemma DeleteIfAllowed(c: Cluster.State, d: Doc)
    ensures var after := if OkToDelete(d) then DeleteOne(c, d).0 else c;
      var k := if OkToDelete(d) then {KeyOf(d)} else {};
      && after.faults == c.faults && after.objects.Keys <= c.objects.Keys && after.objects - k == c.objects - k
      && (Cluster.NoFaults(c, k) ==> after.objects == c.objects - k)
  {
    if !OkToDelete(d) {
      assert c.objects - {} == c.objects;
    }
  }

  /**
   `Delete` walks the manifest from the last resource to the first: the
   later part of a manifest is deleted before the earlier part.
   */
  lemma {:induction false} DeleteAppend(c: Cluster.State, a: seq<Doc>, b: seq<Doc>)
    ensures Delete(c, a + b) == Delete(Delete(c, b).0, a)
    decreases |b|
  {
    if |b| == 0 {
      assert a + b == a;
    } else {
      var ab := a + b;
      var last := b[|b| - 1];
      assert ab[|ab| - 1] == last;
      assert ab[..|ab| - 1] == a + b[..|b| - 1];
      var first := if OkToDelete(last) then DeleteOne(c, last).0 else c;
      DeleteLast(c, ab);
      DeleteLast(c, b);
      DeleteAppend(first, a, b[..|b| - 1]);
    }
  }

  /** `Delete` on a non-empty list takes the step for its last resource, then deletes the others. */
  lemma DeleteLast(c: Cluster.State, docs: seq<Doc>)
    requires |docs| > 0
    ensures Delete(c, docs) ==
      Delete(if OkToDelete(docs[|docs| - 1]) then DeleteOne(c, docs[|docs| - 1]).0 else c, docs[..|docs| - 1])
  {
  }

  /** Deleting two deletable resources calls the API about the later one first. */
  lemma DeleteReverseOrder(c: Cluster.State, x: Doc, y: Doc)
    requires OkToDelete(x) && OkToDelete(y)
    ensures Delete(c, [x, y]).0 == DeleteOne(DeleteOne(c, y).0, x).0
  {
    DeleteAppend(c, [x], [y]);
    assert [x] + [y] == [x, y];
    DeleteLast(c, [y]);
    DeleteLast(DeleteOne(c, y).0, [x]);
    assert [y][..0] == [] && [x][..0] == [];
  }

  /**
   `Delete` calls the API only about resources it may delete: the trace it
   adds concerns deletable keys only.
   */
  lemma {:induction false} DeleteTrace(c: Cluster.State, docs: seq<Doc>)
    ensures Cluster.Extends(c, Delete(c, docs).0, Cluster.Keys(Deletable(docs)))
    decreases |docs|
  {
    if |docs| == 0 {
      assert c.calls[|c.calls|..] == [];
    } else {
      var last := docs[|docs| - 1];
      var init := docs[..|docs| - 1];
      var first := if OkToDelete(last) then DeleteOne(c, last).0 else c;
      var kLast := if OkToDelete(last) then {KeyOf(last)} else {};
      assert docs == init + [last];
      assert Delete(c, docs).0 == Delete(first, init).0;
      assert Cluster.Extends(c, first, kLast) by {
        if !OkToDelete(last) {
          assert c.calls[|c.calls|..] == [];
        }
      }
      DeleteTrace(first, init);
      Cluster.ExtendsTrans(c, first, Delete(first, init).0, kLast, Cluster.Keys(Deletable(init)));
      DeletableKeysSnoc(init, last);
    }
  }

  lemma DeletableKeysSnoc(init: seq<Doc>, last: Doc)
    ensures Cluster.Keys(Deletable(init + [last])) ==
      Cluster.Keys(Deletable(init)) + (if OkToDelete(last) then {KeyOf(last)} else {})
  {
    DeletableSnoc(init, last);
    if OkToDelete(last) {
      Cluster.KeysAppend(Deletable(init), [last]);
      Cluster.KeysSingle(last);
    } else {
      assert Deletable(init) + [] == Deletable(init);
    }
  }

  lemma {:induction false} DeletableSnoc(init: seq<Doc>, last: Doc)
    ensures Deletable(init + [last]) == Deletable(init) + (if OkToDelete(last) then [last] else [])
    decreases |init|
  {
    if |init| == 0 {
      assert init + [last] == [last];
      assert [last][1..] == [];
    } else {
      assert (init + [last])[1..] == init[1..] + [last];
      DeletableSnoc(init[1..], last);
    }
  }
}

=== FILE: merge.dfy ===
/**
 `UpdateChanged` from the jcrossley3 manifestival library: copy the fields a
 manifest sets onto the object read back from the cluster, recursing into
 nested objects so that fields only the server sets (resourceVersion,
 clusterIP, extra ConfigMap entries) survive, and report whether anything
 changed. Go mutates the target map in place while ranging over the source
 map in an unspecified order; every key only touches its own target entry,
 so the result is the same for every order and is modelled as one map.
 */
module Merge {
  import opened Common
  import opened Unstructured

  /** Go's `tgt[k]`: the stored value, or nil when the key is absent. */
  function At(m: Object, k: string): Value
  {
    if k in m then m[k] else Null
  }

  /**
   The merged target and whether it was modified, or a panic: Go's
   `tgt[k].(map[string]interface{})` panics when the source holds an object
   where the target holds some other non-nil value.
   */
  datatype Merged = Merged(tgt: Object, changed: bool) | TypePanic

  /** The merged value for one key: the new target entry and whether it changed. */
  function MergeField(sv: Value, tv: Value): (r: Option<(Value, bool)>)
    ensures r.Some? && !r.value.1 ==> r.value.0 == tv
    ensures r.Some? && r.value.1 ==> r.value.0 != tv
    ensures r.Some? && !sv.Obj? ==> r.value.0 == sv
    decreases sv, 2
  {
    if sv.Obj? then
      if tv == Null then Some((sv, true))
      else if tv.Obj? then
        match UpdateChanged(sv.fields, tv.fields)
        case Merged(t, ch) => Some((Obj(t), ch))
        case TypePanic => None
      else None
    else if sv == tv then Some((tv, false))
    else Some((sv, true))
  }

  predicate Panics(src: Object, tgt: Object, k: string)
    decreases Obj(src), 0
  {
    k in src && MergeField(src[k], At(tgt, k)).None?
  }

  predicate ChangesAt(src: Object, tgt: Object, k: string)
    decreases Obj(src), 0
  {
    k in src && MergeField(src[k], At(tgt, k)).Some? && MergeField(src[k], At(tgt, k)).value.1
  }

  /**
   `UpdateChanged(src, tgt)`. The report is true exactly when the target
   was modified.
   */
  function UpdateChanged(src: Object, tgt: Object): (r: Merged)
    ensures r.Merged? ==> (r.changed <==> r.tgt != tgt)
    decreases Obj(src), 1
  {
    if exists k | k in src :: Panics(src, tgt, k) then TypePanic
    else
      var t := map k | k in tgt.Keys + src.Keys && (k in tgt || ChangesAt(src, tgt, k)) ::
        if k in src then MergeField(src[k], At(tgt, k)).value.0 else tgt[k];
      var changed := exists k | k in src :: ChangesAt(src, tgt, k);
      assert changed ==> t != tgt by {
        if changed {
          var k :| k in src && ChangesAt(src, tgt, k);
          assert k in t;
          if k in tgt {
            assert t[k] != tgt[k];
          }
        }
      }
      assert !changed ==> t == tgt by {
        if !changed {
          forall k | k in tgt
            ensures k in t && t[k] == tgt[k]
          {
          }
          assert t.Keys == tgt.Keys;
        }
      }
      Merged(t, changed)
  }

  /**
   What a successful merge does to each key: target keys the source does not
   mention are untouched, a non-object source value ends up in the target, an
   object source value is copied wholesale onto a nil target entry and merged
   recursively into an object target entry, and no other key appears.
   */
  lemma UpdateChangedEffect(src: Object, tgt: Object)
    requires UpdateChanged(src, tgt).Merged?
    ensures var t := UpdateChanged(src, tgt).tgt;
      && (forall k :: k in tgt && k !in src ==> k in t && t[k] == tgt[k])
      && (forall k :: k in src && !src[k].Obj? ==> At(t, k) == src[k])
      && (forall k :: k in src && src[k].Obj? && At(tgt, k) == Null ==> k in t && t[k] == src[k])
      && (forall k :: k in src && src[k].Obj? && At(tgt, k).Obj? ==>
            UpdateChanged(src[k].fields, tgt[k].fields).Merged? && k in t &&
            t[k] == Obj(UpdateChanged(src[k].fields, tgt[k].fields).tgt))
      && t.Keys <= tgt.Keys + src.Keys
  {
    var t := UpdateChanged(src, tgt).tgt;
    forall k | k in src && !src[k].Obj?
      ensures At(t, k) == src[k]
    {
      assert MergeField(src[k], At(tgt, k)).Some?;
    }
    forall k | k in src && src[k].Obj? && At(tgt, k) == Null
      ensures k in t && t[k] == src[k]
    {
      assert ChangesAt(src, tgt, k);
    }
  }

  /** Merging an object into itself changes nothing. */
  lemma {:induction false} MergeSelf(x: Object)
    ensures UpdateChanged(x, x) == Merged(x, false)
    decreases Obj(x)
  {
    forall k | k in x
      ensures MergeField(x[k], At(x, k)) == Some((x[k], false))
    {
      if x[k].Obj? {
        MergeSelf(x[k].fields);
      }
    }
    assert !exists k | k in x :: Panics(x, x, k);
    assert !exists k | k in x :: ChangesAt(x, x, k);
  }

  /**
   A second merge of the same source into the merged target reports no
   change and leaves it as it is: applying one manifest twice updates at most
   once.
   */
  lemma {:induction false} MergeIdempotent(src: Object, tgt: Object)
    requires UpdateChanged(src, tgt).Merged?
    ensures UpdateChanged(src, UpdateChanged(src, tgt).tgt) == Merged(UpdateChanged(src, tgt).tgt, false)
    decreases Obj(src)
  {
    var t := UpdateChanged(src, tgt).tgt;
    UpdateChangedEffect(src, tgt);
    forall k | k in src
      ensures MergeField(src[k], At(t, k)) == Some((At(t, k), false))
    {
      var sv := src[k];
      assert MergeField(sv, At(tgt, k)).Some?;
      if sv.Obj? {
        if At(tgt, k) == Null {
          MergeSelf(sv.fields);
        } else {
          MergeIdempotent(sv.fields, tgt[k].fields);
        }
      }
    }
    assert !exists k | k in src :: Panics(src, t, k);
    assert !exists k | k in src :: ChangesAt(src, t, k);
  }
}

=== FILE: predicates.dfy ===
/**
 `Filter` and the stock predicates of the manifestival library. Filtering
 works on deep copies: the manifest itself is never changed, and anything a
 predicate rewrites shows up only in the result.
 */
module Predicates {
  import opened Common
  import opened Unstructured
  import LegacyFilter

  /** A predicate over a copy of a resource, which it may rewrite. */
  type Predicate = Doc -> Verdict

  /** The predicates that are set, in order: nil entries are skipped. */
  function Present(preds: seq<Option<Predicate>>): (r: seq<Predicate>)
    ensures |r| <= |preds|
    ensures forall p :: p in r <==> Some(p) in preds
  {
    if |preds| == 0 then []
    else
      assert preds == [preds[0]] + preds[1..];
      (if preds[0].Some? then [preds[0].value] else []) + Present(preds[1..])
  }

  /**
   `Filter`: keep a resource when every set predicate accepts it, checked
   in order on one copy; it is the same sieve as the jcrossley3 filter over
   the set predicates.
   */
  function Filter(docs: seq<Doc>, preds: seq<Option<Predicate>>): (r: seq<Doc>)
    ensures |r| <= |docs|
    ensures (forall i :: 0 <= i < |preds| ==> preds[i].None?) ==> r == docs
  {
    var fns := Present(preds);
    if |fns| == 0 then
      NoFilterKeepsAll(docs);
      LegacyFilter.Filter(docs, fns)
    else
      assert Some(fns[0]) in preds;
      LegacyFilter.Filter(docs, fns)
  }

  lemma {:induction false} NoFilterKeepsAll(docs: seq<Doc>)
    ensures LegacyFilter.Filter(docs, []) == docs
    decreases |docs|
  {
    if |docs| > 0 {
      LegacyFilter.FilterKeepsExactly(docs, []);
      NoFilterKeepsAll(docs[1..]);
      assert docs == [docs[0]] + docs[1..];
    }
  }

  /** A predicate that only looks. */
  function Test(p: Doc -> bool): Predicate
  {
    d => Verdict(p(d), d)
  }

  /** `ByName(name)`: the exact name. */
  function ByName(name: string): (p: Predicate)
    ensures forall d :: p(d) == Verdict(d.name == name, d)
  {
    Test((d: Doc) => d.name == name)
  }

  /** `ByKind(kind)`: the exact kind, case included. */
  function ByKind(kind: string): (p: Predicate)
    ensures forall d :: p(d) == Verdict(d.Kind() == kind, d)
  {
    Test((d: Doc) => d.Kind() == kind)
  }

  /**
   `ByLabel(label, value)`: with value "" the label must merely be present,
   otherwise it must hold exactly that value.
   */
  function ByLabel(key: string, value: string): (p: Predicate)
    ensures forall d :: p(d).doc == d
    ensures forall d :: value == "" ==> (p(d).keep <==> key in d.labels)
    ensures forall d :: value != "" ==> (p(d).keep <==> key in d.labels && d.labels[key] == value)
  {
    Test((d: Doc) =>
      var v := if key in d.labels then d.labels[key] else "";
      if value == "" then key in d.labels else v == value)
  }

  /** `ByGVK(gvk)`: the exact group, version and kind. */
  function ByGvk(gvk: Gvk): (p: Predicate)
    ensures forall d :: p(d) == Verdict(GvkOf(d) == gvk, d)
  {
    Test((d: Doc) => GvkOf(d) == gvk)
  }

  /** `Complement(p)`: accepts what `p` rejects, keeping whatever `p` rewrote. */
  function Complement(p: Predicate): (q: Predicate)
    ensures forall d :: q(d).keep == !p(d).keep && q(d).doc == p(d).doc
  {
    d => Verdict(!p(d).keep, p(d).doc)
  }

  /** `JustCRDs`: CustomResourceDefinitions only. */
  function JustCrds(): Predicate
  {
    ByKind("CustomResourceDefinition")
  }

  /** `NotCRDs`: everything but CustomResourceDefinitions. */
  function NotCrds(): Predicate
  {
    Complement(JustCrds())
  }

  /** The documents `keep` accepts, in order: the reference a single-predicate filter is held to. */
  function Select(docs: seq<Doc>, keep: Doc -> bool): (r: seq<Doc>)
    ensures |r| <= |docs|
    ensures forall d :: d in r <==> d in docs && keep(d)
  {
    if |docs| == 0 then []
    else
      assert docs == [docs[0]] + docs[1..];
      (if keep(docs[0]) then [docs[0]] else []) + Select(docs[1..], keep)
  }

  /** Filtering with a predicate that tests `keep` and rewrites nothing selects what `keep` accepts. */
  lemma FilterSelects(docs: seq<Doc>, p: Predicate, keep: Doc -> bool)
    requires forall d :: p(d) == Verdict(keep(d), d)
    ensures Filter(docs, [Some(p)]) == Select(docs, keep)
  {
    FilterOne(docs, p);
    SelectSame(docs, d => p(d).keep, keep);
  }

  /** Filtering with one predicate that only looks selects what it accepts. */
  lemma {:induction false} FilterOne(docs: seq<Doc>, p: Predicate)
    requires forall d :: p(d).doc == d
    ensures Filter(docs, [Some(p)]) == Select(docs, d => p(d).keep)
    decreases |docs|
  {
    assert Present([Some(p)]) == [p] by {
      assert [Some(p)][1..] == [];
    }
    assert LegacyFilter.Pure([p]);
    if |docs| > 0 {
      LegacyFilter.FilterKeepsExactly(docs, [p]);
      assert LegacyFilter.AllKeep([p], docs[0]) == p(docs[0]).keep;
      FilterOne(docs[1..], p);
    }
  }

  /** A selection and its opposite split the documents in two. */
  lemma {:induction false} SelectPartition(docs: seq<Doc>, keep: Doc -> bool)
    ensures var no := (d: Doc) => !keep(d);
      |Select(docs, keep)| + |Select(docs, no)| == |docs| &&
      multiset(Select(docs, keep)) + multiset(Select(docs, no)) == multiset(docs)
    decreases |docs|
  {
    if |docs| > 0 {
      SelectPartition(docs[1..], keep);
      assert docs == [docs[0]] + docs[1..];
    }
  }

  /**
   A predicate that only looks and its complement split a manifest in two:
   every resource lands in exactly one result, and the sizes add up.
   */
  lemma ComplementPartitions(docs: seq<Doc>, p: Predicate)
    requires forall d :: p(d).doc == d
    ensures |Filter(docs, [Some(p)])| + |Filter(docs, [Some(Complement(p))])| == |docs|
    ensures multiset(Filter(docs, [Some(p)])) + multiset(Filter(docs, [Some(Complement(p))])) == multiset(docs)
  {
    var q := Complement(p);
    FilterOne(docs, p);
    FilterOne(docs, q);
    var yes := (d: Doc) => p(d).keep;
    var no := (d: Doc) => !yes(d);
    assert Filter(docs, [Some(p)]) == Select(docs, yes);
    SelectPartition(docs, yes);
    SelectSame(docs, d => q(d).keep, no);
  }

  lemma {:induction false} SelectSame(docs: seq<Doc>, k1: Doc -> bool, k2: Doc -> bool)
    requires forall d :: k1(d) == k2(d)
    ensures Select(docs, k1) == Select(docs, k2)
    decreases |docs|
  {
    if |docs| > 0 {
      SelectSame(docs[1..], k1, k2);
    }
  }

  /** `Filter(JustCRDs)` and `Filter(NotCRDs)` partition a manifest. */
  lemma CrdsPartition(docs: seq<Doc>)
    ensures |Filter(docs, [Some(JustCrds())])| + |Filter(docs, [Some(NotCrds())])| == |docs|
    ensures multiset(Filter(docs, [Some(JustCrds())])) + multiset(Filter(docs, [Some(NotCrds())])) == multiset(docs)
  {
    ComplementPartitions(docs, JustCrds());
  }
}

=== FILE: rbac.dfy ===
/**
 The RBAC controller: for every namespace whose name the ignore pattern does
 not match, make sure the pipeline service account exists there and that the
 namespace's "edit" RoleBinding (to the "edit" ClusterRole) lists that
 service account as a subject. Role bindings are read back from the store
 and their subjects decoded into typed subjects; everything else about them
 is carried along.
 */
module Rbac {
  import opened Common
  import opened Unstructured
  import Cluster
  import Exclusion

  /** The default of the flag naming the service account to create. */
  const DefaultSA := "pipeline"
  /** The default of the flag naming namespaces to skip. */
  const DefaultIgnorePattern := "^(openshift|kube)-"

  /** The two command-line flags the controller reads. */
  datatype Flags = Flags(pipelineSA: string, ignorePattern: string)

  const ServiceAccountKind := "ServiceAccount"
  const EditName := "edit"
  const RbacGroup := "rbac.authorization.k8s.io"

  function NamespaceKey(name: string): Key { Key("Namespace", "", name) }
  function ServiceAccountKey(ns: string, sa: string): Key { Key(ServiceAccountKind, ns, sa) }
  function EditBindingKey(ns: string): Key { Key("RoleBinding", ns, EditName) }
  const EditRoleKey := Key("ClusterRole", "", EditName)

  /**
   A RoleBinding subject as the typed client holds it (`rbacv1.Subject`):
   four strings, an unset one being "".
   */
  datatype RoleSubject = RoleSubject(kind: string, apiGroup: string, name: string, namespace: string)

  /** The subject naming the service account `sa` of namespace `ns`. */
  function SaSubject(ns: string, sa: string): RoleSubject
  {
    RoleSubject(ServiceAccountKind, "", sa, ns)
  }

  /** `hasSubject`'s comparison: name, kind and namespace; the API group is not compared. */
  predicate SameSubject(a: RoleSubject, b: RoleSubject)
  {
    a.name == b.name && a.kind == b.kind && a.namespace == b.namespace
  }

  /** `hasSubject`: some subject of the list is the same as `x`. */
  function HasSubject(subjects: seq<RoleSubject>, x: RoleSubject): (r: bool)
    ensures r <==> exists k :: 0 <= k < |subjects| && SameSubject(subjects[k], x)
  {
    if |subjects| == 0 then false
    else if SameSubject(subjects[0], x) then true
    else
      var rest := HasSubject(subjects[1..], x);
      assert forall k :: 1 <= k < |subjects| ==> subjects[k] == subjects[1..][k - 1];
      rest
  }

  /** The JSON form of a subject: kind and name always, the API group and namespace only when set. */
  function EncodeSubject(s: RoleSubject): (r: Value)
  {
    var m := PutIf(map["kind" := Str(s.kind), "name" := Str(s.name)], s.apiGroup != "", "apiGroup", Str(s.apiGroup));
    Obj(PutIf(m, s.namespace != "", "namespace", Str(s.namespace)))
  }

  /** The JSON form of a list of subjects. */
  function EncodeSubjects(ss: seq<RoleSubject>): (r: seq<Value>)
    ensures |r| == |ss|
    ensures forall k :: 0 <= k < |ss| ==> r[k] == EncodeSubject(ss[k])
  {
    seq(|ss|, k requires 0 <= k < |ss| => EncodeSubject(ss[k]))
  }

  /**
   One field of a JSON object decoded into a Go string: absent or null
   leaves "", a string is taken, any other value fails.
   */
  function StringField(f: map<string, Value>, key: string): (r: Option<string>)
    ensures r.None? <==> key in f && !f[key].Str? && f[key] != Null
    ensures r.Some? && key in f && f[key].Str? ==> r.value == f[key].s
    ensures r.Some? && (key !in f || !f[key].Str?) ==> r.value == ""
  {
    if key !in f || f[key] == Null then Some("")
    else if f[key].Str? then Some(f[key].s)
    else None
  }

  /**
   A subject as the typed client decodes it: null is the zero subject, an
   object gives its four string fields (other fields are ignored), and
   anything else, or a field that is not a string, fails.
   */
  function DecodeSubject(v: Value): (r: Option<RoleSubject>)
    ensures v == Null ==> r == Some(RoleSubject("", "", "", ""))
    ensures !v.Obj? && v != Null ==> r.None?
    ensures v.Obj? ==> (r.Some? <==>
      StringField(v.fields, "kind").Some? && StringField(v.fields, "apiGroup").Some? &&
      StringField(v.fields, "name").Some? && StringField(v.fields, "namespace").Some?)
    ensures v.Obj? && r.Some? ==>
      && Some(r.value.kind) == StringField(v.fields, "kind")
      && Some(r.value.apiGroup) == StringField(v.fields, "apiGroup")
      && Some(r.value.name) == StringField(v.fields, "name")
      && Some(r.value.namespace) == StringField(v.fields, "namespace")
  {
    match v
    case Null => Some(RoleSubject("", "", "", ""))
    case Obj(f) =>
      var kind := StringField(f, "kind");
      var group := StringField(f, "apiGroup");
      var name := StringField(f, "name");
      var namespace := StringField(f, "namespace");
      if kind.Some? && group.Some? && name.Some? && namespace.Some? then
        Some(RoleSubject(kind.value, group.value, name.value, namespace.value))
      else None
    case _ => None
  }

  /** Decoding what encoding produced gives the subject back, API group included. */
  lemma DecodeEncodeSubject(s: RoleSubject)
    ensures DecodeSubject(EncodeSubject(s)) == Some(s)
  {
    var f := EncodeSubject(s).fields;
    assert StringField(f, "kind") == Some(s.kind);
    assert StringField(f, "name") == Some(s.name);
    assert StringField(f, "apiGroup") == Some(s.apiGroup);
    assert StringField(f, "namespace") == Some(s.namespace);
  }

  /** A list decodes when every entry does, to the entries' decodings in order. */
  function DecodeSubjects(vs: seq<Value>): (r: Option<seq<RoleSubject>>)
    ensures r.Some? <==> forall k :: 0 <= k < |vs| ==> DecodeSubject(vs[k]).Some?
    ensures r.Some? ==> |r.value| == |vs| && forall k :: 0 <= k < |vs| ==> Some(r.value[k]) == DecodeSubject(vs[k])
  {
    if |vs| == 0 then Some([])
    else
      var rest := DecodeSubjects(vs[1..]);
      assert forall k :: 1 <= k < |vs| ==> vs[k] == vs[1..][k - 1];
      match DecodeSubject(vs[0])
      case None => None
      case Some(s) => if rest.None? then None else Some([s] + rest.value)
  }

  /** The subjects of a stored RoleBinding; an absent or null field is an empty list. */
  function SubjectsOf(o: Object): (r: Option<seq<RoleSubject>>)
    ensures "subjects" !in o || o["subjects"] == Null ==> r == Some([])
    ensures "subjects" in o && o["subjects"].List? ==> r == DecodeSubjects(o["subjects"].items)
    ensures "subjects" in o && !o["subjects"].List? && o["subjects"] != Null ==> r.None?
  {
    if "subjects" !in o || o["subjects"] == Null then Some([])
    else if o["subjects"].List? then DecodeSubjects(o["subjects"].items)
    else None
  }

  /** A RoleBinding whose subjects are replaced reads back with exactly those subjects. */
  lemma SubjectsRoundTrip(o: Object, ss: seq<RoleSubject>)
    ensures SubjectsOf(o["subjects" := List(EncodeSubjects(ss))]) == Some(ss)
  {
    var vs := EncodeSubjects(ss);
    forall k | 0 <= k < |vs| ensures DecodeSubject(vs[k]) == Some(ss[k]) {
      DecodeEncodeSubject(ss[k]);
    }
    var r := DecodeSubjects(vs);
    assert r.value == ss;
  }

  function Meta(name: string, ns: string): Value
  {
    Obj(map["name" := Str(name), "namespace" := Str(ns)])
  }

  /** The service account `ensureSA` creates. */
  function ServiceAccountObject(ns: string, sa: string): Object
  {
    map["apiVersion" := Str("v1"), "kind" := Str(ServiceAccountKind), "metadata" := Meta(sa, ns)]
  }

  /** The RoleBinding `createRoleBinding` creates: "edit" in the namespace, to the "edit" ClusterRole, for the one subject. */
  function EditBindingObject(ns: string, sa: string): Object
  {
    map["apiVersion" := Str(RbacGroup + "/v1"), "kind" := Str("RoleBinding"), "metadata" := Meta(EditName, ns),
        "roleRef" := Obj(map["apiGroup" := Str(RbacGroup), "kind" := Str("ClusterRole"), "name" := Str(EditName)]),
        "subjects" := List(EncodeSubjects([SaSubject(ns, sa)]))]
  }

  /** The error the typed client's read returns for a RoleBinding whose subjects do not decode; it is no API status. */
  function DecodeError(ns: string): Error
  {
    Error(Other, "cannot decode RoleBinding " + ns + "/" + EditName)
  }

  /** The namespace's "edit" RoleBinding is stored and lists the service account. */
  predicate Bound(objects: map<Key, Object>, ns: string, sa: string)
  {
    EditBindingKey(ns) in objects &&
    SubjectsOf(objects[EditBindingKey(ns)]).Some? &&
    HasSubject(SubjectsOf(objects[EditBindingKey(ns)]).value, SaSubject(ns, sa))
  }

  /**
   `ensureSA`: reads the service account and creates it when it is not
   found; any other read error, or a failed create, is returned.
   */
  function EnsureSA(c: Cluster.State, ns: string, sa: string): (r: (Cluster.State, Option<Error>))
    ensures r.0.faults == c.faults
    ensures Cluster.Extends(c, r.0, {ServiceAccountKey(ns, sa)})
    ensures r.1.None? ==> ServiceAccountKey(ns, sa) in r.0.objects
    ensures ServiceAccountKey(ns, sa) in c.objects ==> r.0.objects == c.objects
    ensures r.0.objects == c.objects || r.0.objects == c.objects[ServiceAccountKey(ns, sa) := ServiceAccountObject(ns, sa)]
    ensures Cluster.NoFaults(c, {ServiceAccountKey(ns, sa)}) ==> r.1.None?
    ensures ServiceAccountKey(ns, sa) in c.objects && Cluster.NoFaults(c, {ServiceAccountKey(ns, sa)}) ==>
      r.0 == Cluster.Record(c, Cluster.GetVerb, ServiceAccountKey(ns, sa))
  {
    var k := ServiceAccountKey(ns, sa);
    var got := Cluster.Get(c, k);
    if got.1.Ok? then (got.0, None)
    else if got.1.error.reason != NotFound then (got.0, Some(got.1.error))
    else Cluster.Create(got.0, k, ServiceAccountObject(ns, sa))
  }

  /**
   `updateRoleBinding` on the decoded binding `rb`: nothing to do when it
   already lists the service account; otherwise the subject is appended
   after the decoded ones, which keep every field of theirs, and the binding
   updated.
   */
  function UpdateRoleBinding(c: Cluster.State, rb: Object, ns: string, sa: string): (r: (Cluster.State, Option<Error>))
    requires SubjectsOf(rb).Some?
    ensures r.0.faults == c.faults
    ensures Cluster.Extends(c, r.0, {EditBindingKey(ns)})
    ensures r.0.objects - {EditBindingKey(ns)} == c.objects - {EditBindingKey(ns)}
    ensures HasSubject(SubjectsOf(rb).value, SaSubject(ns, sa)) ==> r == (c, None)
    ensures !HasSubject(SubjectsOf(rb).value, SaSubject(ns, sa)) && r.1.None? ==>
      && EditBindingKey(ns) in r.0.objects
      && SubjectsOf(r.0.objects[EditBindingKey(ns)]) == Some(SubjectsOf(rb).value + [SaSubject(ns, sa)])
      && r.0.objects[EditBindingKey(ns)] - {"subjects"} == rb - {"subjects"}
    ensures r.1.None? && EditBindingKey(ns) in c.objects && c.objects[EditBindingKey(ns)] == rb ==> Bound(r.0.objects, ns, sa)
    ensures EditBindingKey(ns) in c.objects && Cluster.NoFaults(c, {EditBindingKey(ns)}) ==> r.1.None?
  {
    var k := EditBindingKey(ns);
    var subject := SaSubject(ns, sa);
    var ss := SubjectsOf(rb).value;
    if HasSubject(ss, subject) then (c, None)
    else
      var updated := rb["subjects" := List(EncodeSubjects(ss + [subject]))];
      SubjectsRoundTrip(rb, ss + [subject]);
      assert SameSubject((ss + [subject])[|ss|], subject);
      Cluster.Update(c, k, updated)
  }

  /**
   `ensureRoleBindings`: reads the "edit" RoleBinding (an error other than
   NotFound, including a binding whose subjects do not decode, is returned
   at once), then the "edit" ClusterRole (any error is returned); a missing
   binding is created, an existing one updated.
   */
  function EnsureRoleBindings(c: Cluster.State, ns: string, sa: string): (r: (Cluster.State, Option<Error>))
    ensures r.0.faults == c.faults
    ensures Cluster.Extends(c, r.0, {EditBindingKey(ns), EditRoleKey})
    ensures r.0.objects - {EditBindingKey(ns)} == c.objects - {EditBindingKey(ns)}
    ensures r.1.None? ==> Bound(r.0.objects, ns, sa)
    ensures Cluster.Fault(c, Cluster.GetVerb, EditBindingKey(ns)).None? && EditBindingKey(ns) in c.objects &&
            SubjectsOf(c.objects[EditBindingKey(ns)]).None? ==>
      r == (Cluster.Record(c, Cluster.GetVerb, EditBindingKey(ns)), Some(DecodeError(ns)))
    ensures (Cluster.NoFaults(c, {EditBindingKey(ns), EditRoleKey}) && EditRoleKey in c.objects &&
             (EditBindingKey(ns) in c.objects ==> SubjectsOf(c.objects[EditBindingKey(ns)]).Some?)) ==> r.1.None?
  {
    var k := EditBindingKey(ns);
    var rb := Cluster.Get(c, k);
    if rb.1.Fail? && rb.1.error.reason != NotFound then (rb.0, Some(rb.1.error))
    else if rb.1.Ok? && SubjectsOf(rb.1.value).None? then (rb.0, Some(DecodeError(ns)))
    else
      var role := Cluster.Get(rb.0, EditRoleKey);
      var c2 := role.0;
      Cluster.ExtendsTrans(c, rb.0, c2, {k}, {EditRoleKey});
      assert {k} + {EditRoleKey} == {k, EditRoleKey};
      if role.1.Fail? then (c2, Some(role.1.error))
      else if rb.1.Fail? then
        var created := Cluster.Create(c2, k, EditBindingObject(ns, sa));
        Cluster.ExtendsTrans(c, c2, created.0, {k, EditRoleKey}, {k});
        assert {k, EditRoleKey} + {k} == {k, EditRoleKey};
        SubjectsRoundTrip(EditBindingObject(ns, sa), [SaSubject(ns, sa)]);
        assert EditBindingObject(ns, sa) == EditBindingObject(ns, sa)["subjects" := List(EncodeSubjects([SaSubject(ns, sa)]))];
        assert SameSubject([SaSubject(ns, sa)][0], SaSubject(ns, sa));
        created
      else
        var r := UpdateRoleBinding(c2, rb.1.value, ns, sa);
        Cluster.ExtendsTrans(c, c2, r.0, {k, EditRoleKey}, {k});
        r
  }

  /** The keys one pass over namespace `name` may touch. */
  function PassKeys(flags: Flags, name: string): set<Key>
  {
    {NamespaceKey(name), ServiceAccountKey(name, flags.pipelineSA), EditBindingKey(name), EditRoleKey}
  }

  /** The two writes a pass may make, once the namespace has been read: the service account, then the binding. */
  function EnsureBoth(c: Cluster.State, ns: string, sa: string): (r: (Cluster.State, Option<Error>))
    ensures r.0.faults == c.faults
    ensures Cluster.Extends(c, r.0, {ServiceAccountKey(ns, sa), EditBindingKey(ns), EditRoleKey})
    ensures r.0.objects - {ServiceAccountKey(ns, sa), EditBindingKey(ns)} == c.objects - {ServiceAccountKey(ns, sa), EditBindingKey(ns)}
    ensures r.1.None? ==> ServiceAccountKey(ns, sa) in r.0.objects && Bound(r.0.objects, ns, sa)
  {
    var saKey := ServiceAccountKey(ns, sa);
    var ensured := EnsureSA(c, ns, sa);
    if ensured.1.Some? then
      Cluster.ExtendsWiden(c, ensured.0, {saKey}, {saKey, EditBindingKey(ns), EditRoleKey});
      ensured
    else
      var bound := EnsureRoleBindings(ensured.0, ns, sa);
      Cluster.ExtendsTrans(c, ensured.0, bound.0, {saKey}, {EditBindingKey(ns), EditRoleKey});
      assert {saKey} + {EditBindingKey(ns), EditRoleKey} == {saKey, EditBindingKey(ns), EditRoleKey};
      Cluster.SameOutside(bound.0.objects, ensured.0.objects, c.objects, {EditBindingKey(ns)}, {saKey});
      assert {EditBindingKey(ns)} + {saKey} == {saKey, EditBindingKey(ns)};
      assert saKey in ensured.0.objects - {EditBindingKey(ns)};
      bound
  }

  /**
   `Reconcile` for namespace `name`: an ignored name is left alone; a
   namespace that cannot be read ends the pass (without error when it is not
   found); otherwise the service account and then the role binding are
   ensured. The pass never requeues by itself.
   */
  function Reconcile(flags: Flags, matches: Exclusion.Matcher, c: Cluster.State, name: string): (r: (Cluster.State, Option<Error>))
    ensures r.0.faults == c.faults
    ensures Cluster.Extends(c, r.0, PassKeys(flags, name))
    ensures matches(flags.ignorePattern, name) ==> r == (c, None)
    ensures r.0.objects - {ServiceAccountKey(name, flags.pipelineSA), EditBindingKey(name)} ==
      c.objects - {ServiceAccountKey(name, flags.pipelineSA), EditBindingKey(name)}
    ensures (!matches(flags.ignorePattern, name) && r.1.None? && NamespaceKey(name) in c.objects &&
             Cluster.NoFaults(c, {NamespaceKey(name)})) ==>
      ServiceAccountKey(name, flags.pipelineSA) in r.0.objects && Bound(r.0.objects, name, flags.pipelineSA)
  {
    var sa := flags.pipelineSA;
    if matches(flags.ignorePattern, name) then (c, None)
    else
      var got := Cluster.Get(c, NamespaceKey(name));
      if got.1.Fail? then (got.0, IgnoreNotFound(Some(got.1.error)))
      else
        var ensured := EnsureBoth(got.0, name, sa);
        Cluster.ExtendsTrans(c, got.0, ensured.0, {NamespaceKey(name)}, {ServiceAccountKey(name, sa), EditBindingKey(name), EditRoleKey});
        assert {NamespaceKey(name)} + {ServiceAccountKey(name, sa), EditBindingKey(name), EditRoleKey} == PassKeys(flags, name);
        ensured
  }

  /**
   With no faults on the keys a pass touches, an existing namespace and the
   "edit" ClusterRole present, and any existing binding decodable, a pass
   succeeds and leaves the service account and its binding in place.
   */
  lemma PassSucceeds(flags: Flags, matches: Exclusion.Matcher, c: Cluster.State, name: string)
    requires !matches(flags.ignorePattern, name)
    requires Cluster.NoFaults(c, PassKeys(flags, name))
    requires NamespaceKey(name) in c.objects && EditRoleKey in c.objects
    requires EditBindingKey(name) in c.objects ==> SubjectsOf(c.objects[EditBindingKey(name)]).Some?
    ensures var r := Reconcile(flags, matches, c, name);
      r.1.None? && ServiceAccountKey(name, flags.pipelineSA) in r.0.objects && Bound(r.0.objects, name, flags.pipelineSA)
  {
    var sa := flags.pipelineSA;
    var got := Cluster.Get(c, NamespaceKey(name));
    var ensured := EnsureSA(got.0, name, sa);
    assert Cluster.NoFaults(got.0, {ServiceAccountKey(name, sa)});
    assert ensured.0.objects - {ServiceAccountKey(name, sa)} == c.objects - {ServiceAccountKey(name, sa)};
    assert EditRoleKey in ensured.0.objects && EditBindingKey(name) in ensured.0.objects ==> ensured.0.objects[EditBindingKey(name)] == c.objects[EditBindingKey(name)];
  }

  /**
   A second pass over a namespace a first pass bound makes no write: it only
   reads, and the store is unchanged.
   */
  lemma SecondPassOnlyReads(flags: Flags, matches: Exclusion.Matcher, c: Cluster.State, name: string)
    requires Cluster.NoFaults(c, PassKeys(flags, name))
    requires NamespaceKey(name) in c.objects
    requires ServiceAccountKey(name, flags.pipelineSA) in c.objects && EditRoleKey in c.objects
    requires Bound(c.objects, name, flags.pipelineSA)
    ensures var r := Reconcile(flags, matches, c, name);
      r.1.None? && r.0.objects == c.objects && Cluster.ReadOnly(r.0.calls[|c.calls|..])
  {
    var sa := flags.pipelineSA;
    if !matches(flags.ignorePattern, name) {
      var got := Cluster.Get(c, NamespaceKey(name));
      var ensured := EnsureSA(got.0, name, sa);
      assert Cluster.NoFaults(got.0, {ServiceAccountKey(name, sa)});
      assert ensured.0 == Cluster.Record(got.0, Cluster.GetVerb, ServiceAccountKey(name, sa));
      var rb := Cluster.Get(ensured.0, EditBindingKey(name));
      var role := Cluster.Get(rb.0, EditRoleKey);
      var r := Reconcile(flags, matches, c, name);
      assert r.0 == role.0;
      assert r.0.calls[|c.calls|..] == [Cluster.Call(Cluster.GetVerb, NamespaceKey(name)), Cluster.Call(Cluster.GetVerb, ServiceAccountKey(name, sa)),
                                          Cluster.Call(Cluster.GetVerb, EditBindingKey(name)), Cluster.Call(Cluster.GetVerb, EditRoleKey)];
    }
  }

  /** An existing binding that already lists the subject is left as it is: updating twice is updating once. */
  lemma UpdateRoleBindingTwice(c: Cluster.State, rb: Object, ns: string, sa: string)
    requires EditBindingKey(ns) in c.objects && c.objects[EditBindingKey(ns)] == rb
    requires SubjectsOf(rb).Some?
    requires UpdateRoleBinding(c, rb, ns, sa).1.None?
    ensures var once := UpdateRoleBinding(c, rb, ns, sa).0;
      UpdateRoleBinding(once, once.objects[EditBindingKey(ns)], ns, sa) == (once, None)
  {
  }
}

=== FILE: readiness.dfy ===
/**
 Readiness checks on what the API server reports: whether a Deployment
 has rolled out, and whether a webhook configuration or a
 CustomResourceDefinition exists. The lookups themselves are inputs: each
 check receives the outcome of its GET.
 */
module Readiness {
  import opened Common

  /** One entry of a Deployment's `status.conditions`. */
  datatype DeploymentCondition = DeploymentCondition(condType: string, reason: string)

  /** The fields of an apps/v1 Deployment the checks read; `specReplicas` is None when `spec.replicas` is nil. */
  datatype Deployment = Deployment(
    name: string,
    generation: int,
    observedGeneration: int,
    specReplicas: Option<int>,
    replicas: int,
    updatedReplicas: int,
    availableReplicas: int,
    conditions: seq<DeploymentCondition>)

  const Progressing := "Progressing"
  const ProgressDeadlineExceeded := "ProgressDeadlineExceeded"

  /** True when no condition before position `i` has the type `condType`. */
  predicate FirstOfType(conds: seq<DeploymentCondition>, condType: string, i: int)
    requires 0 <= i <= |conds|
  {
    forall j :: 0 <= j < i ==> conds[j].condType != condType
  }

  /** `getDeploymentCondition`: the first condition of the requested type, if any. */
  function GetDeploymentCondition(conds: seq<DeploymentCondition>, condType: string): (r: Option<DeploymentCondition>)
    ensures r.None? <==> forall i :: 0 <= i < |conds| ==> conds[i].condType != condType
    ensures r.Some? ==> r.value.condType == condType
    ensures r.Some? ==> exists i :: 0 <= i < |conds| && conds[i] == r.value && FirstOfType(conds, condType, i)
  {
    if |conds| == 0 then None
    else if conds[0].condType == condType then
      assert conds[0] == conds[0];
      Some(conds[0])
    else
      var r := GetDeploymentCondition(conds[1..], condType);
      assert forall i :: 1 <= i < |conds| ==> conds[i] == conds[1..][i - 1];
      if r.Some? then
        var i :| 0 <= i < |conds[1..]| && conds[1..][i] == r.value && FirstOfType(conds[1..], condType, i);
        assert conds[i + 1] == r.value;
        r
      else r
  }

  /** True when the rollout has given up: its Progressing condition reports the deadline as exceeded. */
  predicate DeadlineExceeded(dep: Deployment)
  {
    var c := GetDeploymentCondition(dep.conditions, Progressing);
    c.Some? && c.value.reason == ProgressDeadlineExceeded
  }

  /** The replica counts of a finished rollout. */
  predicate RolledOut(dep: Deployment)
  {
    (dep.specReplicas.None? || dep.updatedReplicas >= dep.specReplicas.value) &&
    dep.replicas <= dep.updatedReplicas &&
    dep.availableReplicas >= dep.updatedReplicas
  }

  /**
   `Deployment` readiness. A missing Deployment is not ready and not an
   error; any other lookup error is returned. A Deployment whose controller
   has not observed its latest generation is not ready; a rollout past its
   progress deadline is an error; otherwise it is ready exactly when every
   desired replica is updated, no old replica remains and every updated
   replica is available.
   */
  function DeploymentReady(got: Result<Deployment>): (r: Result<bool>)
    ensures got.Fail? && got.error.reason == NotFound ==> r == Ok(false)
    ensures got.Fail? && got.error.reason != NotFound ==> r == Fail(got.error)
    ensures got.Ok? && got.value.generation > got.value.observedGeneration ==> r == Ok(false)
    ensures got.Ok? && got.value.generation <= got.value.observedGeneration && DeadlineExceeded(got.value) ==>
      r.Fail? && r.error.message == "deployment \"" + got.value.name + "\" exceeded its progress deadline"
    ensures r == Ok(true) <==>
      got.Ok? && got.value.generation <= got.value.observedGeneration &&
      !DeadlineExceeded(got.value) && RolledOut(got.value)
  {
    match got
    case Fail(e) => if e.reason == NotFound then Ok(false) else Fail(e)
    case Ok(dep) =>
      if dep.generation <= dep.observedGeneration then
        if DeadlineExceeded(dep) then
          Fail(Error(Other, "deployment \"" + dep.name + "\" exceeded its progress deadline"))
        else if dep.specReplicas.Some? && dep.updatedReplicas < dep.specReplicas.value then Ok(false)
        else if dep.replicas > dep.updatedReplicas then Ok(false)
        else if dep.availableReplicas < dep.updatedReplicas then Ok(false)
        else Ok(true)
      else Ok(false)
  }

  /** A ready Deployment has at least as many available replicas as it asks for. */
  lemma ReadyMeansAvailable(got: Result<Deployment>)
    requires DeploymentReady(got) == Ok(true)
    ensures got.Ok? && got.value.availableReplicas >= got.value.updatedReplicas
    ensures got.Ok? && got.value.specReplicas.Some? ==> got.value.availableReplicas >= got.value.specReplicas.value
  {
  }

  /** A settled Deployment: three replicas desired, updated, present and available, nothing in progress. */
  lemma SettledDeploymentIsReady()
    ensures DeploymentReady(Ok(Deployment("tekton-pipelines-controller", 2, 2, Some(3), 3, 3, 3,
      [DeploymentCondition(Progressing, "NewReplicaSetAvailable")]))) == Ok(true)
    ensures DeploymentReady(Ok(Deployment("tekton-pipelines-controller", 3, 2, Some(3), 3, 3, 3, []))) == Ok(false)
    ensures DeploymentReady(Ok(Deployment("tekton-pipelines-controller", 2, 2, Some(3), 3, 3, 3,
      [DeploymentCondition(Progressing, ProgressDeadlineExceeded)]))).Fail?
  {
  }

  /**
   `Deployment` readiness of the older validator: ready exactly when the
   available replicas equal the desired ones. It dereferences `spec.replicas`
   without a check; None stands for the panic a nil value causes.
   */
  function LegacyDeploymentReady(got: Result<Deployment>): (r: Option<Result<bool>>)
    ensures got.Fail? ==> r == Some(if got.error.reason == NotFound then Ok(false) else Fail(got.error))
    ensures got.Ok? ==> (r.None? <==> got.value.specReplicas.None?)
    ensures r == Some(Ok(true)) <==> got.Ok? && got.value.specReplicas == Some(got.value.availableReplicas)
  {
    match got
    case Fail(e) => Some(if e.reason == NotFound then Ok(false) else Fail(e))
    case Ok(dep) =>
      match dep.specReplicas
      case None => None
      case Some(desired) => Some(Ok(dep.availableReplicas == desired))
  }

  /**
   The two validators agree on lookup failures, and on a Deployment whose
   controller is caught up and whose replicas are all updated and available
   the older one's ready implies the newer one's.
   */
  lemma LegacyReadyImpliesReady(got: Result<Deployment>)
    ensures got.Fail? ==> LegacyDeploymentReady(got) == Some(DeploymentReady(got))
    ensures (got.Ok? && got.value.generation <= got.value.observedGeneration && !DeadlineExceeded(got.value) &&
      got.value.replicas == got.value.updatedReplicas == got.value.availableReplicas &&
      LegacyDeploymentReady(got) == Some(Ok(true))) ==> DeploymentReady(got) == Ok(true)
  {
  }

  /** `Webhook`: found exactly when the lookup succeeded; NotFound is not an error. */
  function Webhook(err: Option<Error>): (r: (bool, Option<Error>))
    ensures r.0 <==> err.None?
    ensures r.1.None? <==> err.None? || err.value.reason == NotFound
    ensures r.1.Some? ==> r.1 == err
  {
    (err.None?, IgnoreNotFound(err))
  }

  /**
   `CRD`: a failure to build the extensions client is returned as it is;
   otherwise found exactly when the lookup succeeded, NotFound not an error.
   */
  function Crd(clientErr: Option<Error>, err: Option<Error>): (r: (bool, Option<Error>))
    ensures clientErr.Some? ==> r == (false, clientErr)
    ensures clientErr.None? ==> r == Webhook(err)
    ensures r.0 ==> clientErr.None? && err.None?
  {
    if clientErr.Some? then (false, clientErr) else (err.None?, IgnoreNotFound(err))
  }
}

=== FILE: transforms.dfy ===
/**
 The operator's own transformers, applied with the error-returning
 transformer signature: `InjectDefaultSA` names the default service account
 in Tekton's `config-defaults` ConfigMap, `InjectNamespaceConditional`
 skips namespace injection for documents that ask to keep their namespace,
 and `Kind` renames one kind.
 */
module Transforms {
  import opened Common
  import opened Unstructured
  import Manifestival

  /** The ConfigMap Tekton reads its defaults from, and the key for the default service account. */
  const ConfigDefaults := "config-defaults"
  const DefaultSAKey := "default-service-account"

  /** The annotation a document carries (with value "true") to keep its own namespace. */
  const PreserveNamespace := "operator.tekton.dev/preserve-namespace"

  /** True for the document `InjectDefaultSA` rewrites: a ConfigMap (any case) named exactly config-defaults. */
  predicate IsConfigDefaults(d: Doc)
  {
    ToLower(d.Kind()) == "configmap" && d.name == ConfigDefaults
  }

  /** A JSON value the converter accepts for a `map[string]string` field: null, or an object of strings and nulls. */
  predicate StringMapValue(v: Value)
  {
    v.Null? || (v.Obj? && forall k :: k in v.fields ==> v.fields[k].Str? || v.fields[k].Null?)
  }

  /**
   True when `FromUnstructured` fills a typed ConfigMap from the document
   without error: fields a ConfigMap does not have are ignored, and the
   ones it has must hold values of their type (string maps for `data` and
   `binaryData`, a boolean or null for `immutable`).
   */
  predicate ConvertsToConfigMap(d: Doc)
  {
    && (d.data.None? && "data" in d.body ==> StringMapValue(d.body["data"]))
    && ("binaryData" in d.body ==> StringMapValue(d.body["binaryData"]))
    && ("immutable" in d.body ==> d.body["immutable"].Null? || d.body["immutable"].Bool?)
  }

  /** The error `FromUnstructured` returns for a document it cannot convert. */
  const ConversionError := Error(Other, "unable to convert unstructured object to ConfigMap")

  /** A converted map entry: a null becomes the empty string. */
  function StrOf(v: Value): string
  {
    if v.Str? then v.s else ""
  }

  /** `cm.Data` after the conversion; None is the nil map of a document with no data, or a null one. */
  function ConfigMapData(d: Doc): (r: Option<map<string, string>>)
    requires ConvertsToConfigMap(d)
    ensures d.data.Some? ==> r == d.data
    ensures r.None? <==> d.data.None? && ("data" !in d.body || d.body["data"].Null?)
    ensures d.data.None? && "data" in d.body && d.body["data"].Obj? ==> r.Some? && r.value.Keys == d.body["data"].fields.Keys
  {
    if d.data.Some? then d.data
    else if "data" in d.body && d.body["data"].Obj? then
      var f := d.body["data"].fields;
      Some(map k | k in f :: StrOf(f[k]))
    else None
  }

  /**
   `ToUnstructured` of the converted ConfigMap once its data is `data`: the
   kind, api version and metadata the model keeps, the data, and, of the
   rest of the document, only a non-empty `binaryData` and a set
   `immutable`; everything a ConfigMap does not have is gone.
   */
  function Reencode(d: Doc, data: map<string, string>): (r: Doc)
    ensures r == d.(subjects := None, data := Some(data), body := r.body)
    ensures r.body.Keys <= {"binaryData", "immutable"}
    ensures forall k :: k in r.body ==> k in d.body && r.body[k] == d.body[k]
    ensures "immutable" in d.body && d.body["immutable"].Bool? ==> "immutable" in r.body
  {
    var bin := if "binaryData" in d.body && d.body["binaryData"].Obj? && |d.body["binaryData"].fields| > 0
      then map["binaryData" := d.body["binaryData"]] else map[];
    var imm := if "immutable" in d.body && d.body["immutable"].Bool? then map["immutable" := d.body["immutable"]] else map[];
    d.(subjects := None, data := Some(data), body := bin + imm)
  }

  /**
   `InjectDefaultSA` as written. Every document other than config-defaults
   passes untouched. config-defaults goes through a typed ConfigMap: a
   conversion error is returned as the transformer's error; a ConfigMap
   without data converts with a nil map, and the assignment into it
   panics; otherwise the key is set and the ConfigMap converted back.
   */
  function InjectDefaultSAAsWritten(sa: string, d: Doc): (r: Manifestival.Rewrite<Doc>)
    ensures !IsConfigDefaults(d) ==> r == Manifestival.Rewritten(d)
    ensures IsConfigDefaults(d) ==> (r.Refused? <==> !ConvertsToConfigMap(d))
    ensures r.Refused? ==> r.error == ConversionError
    ensures IsConfigDefaults(d) && ConvertsToConfigMap(d) ==> (r.Panicked? <==> ConfigMapData(d).None?)
    ensures IsConfigDefaults(d) && r.Rewritten? ==>
      && KeyOf(r.value) == KeyOf(d)
      && r.value == d.(subjects := None, data := r.value.data, body := r.value.body)
      && r.value.data.Some? && DefaultSAKey in r.value.data.value && r.value.data.value[DefaultSAKey] == sa
      && r.value.data.value.Keys == ConfigMapData(d).value.Keys + {DefaultSAKey}
      && (forall k :: k in ConfigMapData(d).value && k != DefaultSAKey ==> r.value.data.value[k] == ConfigMapData(d).value[k])
      && r.value.body.Keys <= {"binaryData", "immutable"}
  {
    if !IsConfigDefaults(d) then Manifestival.Rewritten(d)
    else if !ConvertsToConfigMap(d) then Manifestival.Refused(ConversionError)
    else match ConfigMapData(d)
      case None => Manifestival.Panicked
      case Some(data) => Manifestival.Rewritten(Reencode(d, data[DefaultSAKey := sa]))
  }

  /** A config-defaults ConfigMap without data makes the transformer as written panic. */
  lemma InjectDefaultSAPanicsWithoutData()
    ensures InjectDefaultSAAsWritten("pipeline",
      Doc("v1", Some("ConfigMap"), ConfigDefaults, "tekton-pipelines", map[], map[], [], None, None, map[])).Panicked?
  {
    assert ToLower("ConfigMap") == "configmap";
  }

  /** A config-defaults whose `data` is a string does not convert, and the transformer returns the conversion error. */
  lemma InjectDefaultSARefusesMistypedData()
    ensures InjectDefaultSAAsWritten("pipeline",
      Doc("v1", Some("ConfigMap"), ConfigDefaults, "tekton-pipelines", map[], map[], [], None, None,
        map["data" := Str("x")])) == Manifestival.Refused(ConversionError)
  {
    assert ToLower("ConfigMap") == "configmap";
  }

  /**
   The default-service-account rewrite with the data map allocated when
   missing: every other document passes untouched, a config-defaults that
   does not convert is the same error, and one that does holds `sa` under
   the key afterwards next to its other data entries.
   */
  function SetDefaultSA(sa: string, d: Doc): (r: Result<Doc>)
    ensures !IsConfigDefaults(d) ==> r == Ok(d)
    ensures r.Fail? <==> IsConfigDefaults(d) && !ConvertsToConfigMap(d)
    ensures r.Fail? ==> r.error == ConversionError
    ensures IsConfigDefaults(d) && r.Ok? ==>
      && KeyOf(r.value) == KeyOf(d)
      && r.value == d.(subjects := None, data := r.value.data, body := r.value.body)
      && r.value.data.Some? && DefaultSAKey in r.value.data.value && r.value.data.value[DefaultSAKey] == sa
      && r.value.data.value.Keys == ConfigMapData(d).GetOr(map[]).Keys + {DefaultSAKey}
      && (forall k :: k in ConfigMapData(d).GetOr(map[]) && k != DefaultSAKey ==> r.value.data.value[k] == ConfigMapData(d).GetOr(map[])[k])
      && r.value.body.Keys <= {"binaryData", "immutable"}
  {
    if !IsConfigDefaults(d) then Ok(d)
    else if !ConvertsToConfigMap(d) then Fail(ConversionError)
    else Ok(Reencode(d, ConfigMapData(d).GetOr(map[])[DefaultSAKey := sa]))
  }

  /** Wherever the transformer as written does not panic, the corrected rewrite agrees with it; it panics only on config-defaults without data. */
  lemma SetDefaultSAAgrees(sa: string, d: Doc)
    ensures !InjectDefaultSAAsWritten(sa, d).Panicked? ==> Manifestival.Lift(SetDefaultSA(sa, d)) == InjectDefaultSAAsWritten(sa, d)
    ensures InjectDefaultSAAsWritten(sa, d).Panicked? <==>
      IsConfigDefaults(d) && ConvertsToConfigMap(d) && ConfigMapData(d).None?
  {
  }

  /** Naming the default service account twice is naming it once. */
  lemma SetDefaultSAIdempotent(sa: string, d: Doc)
    ensures SetDefaultSA(sa, d).Ok? ==> SetDefaultSA(sa, SetDefaultSA(sa, d).value) == SetDefaultSA(sa, d)
  {
    if SetDefaultSA(sa, d).Ok? && IsConfigDefaults(d) {
      var once := SetDefaultSA(sa, d).value;
      assert once.Kind() == d.Kind() && once.name == d.name;
      assert ConvertsToConfigMap(once);
      assert ConfigMapData(once) == once.data;
      assert once.data.value[DefaultSAKey := sa] == once.data.value;
      assert Reencode(once, once.data.value).body == once.body;
    }
  }

  /** `InjectDefaultSA(sa)`: the operator's transformer, as written. */
  function InjectDefaultSA(sa: string): (t: Manifestival.Transformer)
    ensures forall d :: t(d) == InjectDefaultSAAsWritten(sa, d)
  {
    d => InjectDefaultSAAsWritten(sa, d)
  }

  /** The corrected transformer: it fails where the one as written fails, and never panics. */
  function InjectDefaultSACorrected(sa: string): (t: Manifestival.Transformer)
    ensures forall d :: !t(d).Panicked?
    ensures forall d :: !InjectDefaultSAAsWritten(sa, d).Panicked? ==> t(d) == InjectDefaultSAAsWritten(sa, d)
  {
    d => Manifestival.Lift(SetDefaultSA(sa, d))
  }

  /** True when `d` is annotated with `key` set to exactly "true". */
  predicate Preserves(key: string, d: Doc)
  {
    key in d.annotations && d.annotations[key] == "true"
  }

  /**
   `InjectNamespaceConditional`: a document annotated to keep its namespace
   passes untouched, every other one goes through the namespace injector.
   */
  function InjectNamespaceConditional(key: string, inject: Manifestival.Transformer): Manifestival.Transformer
  {
    d => if Preserves(key, d) then Manifestival.Rewritten(d) else inject(d)
  }

  /** The conditional injector is the identity on preserved documents and the injector elsewhere. */
  lemma InjectNamespaceConditionalCases(key: string, inject: Manifestival.Transformer, d: Doc)
    ensures Preserves(key, d) ==> InjectNamespaceConditional(key, inject)(d) == Manifestival.Rewritten(d)
    ensures !Preserves(key, d) ==> InjectNamespaceConditional(key, inject)(d) == inject(d)
    ensures key !in d.annotations ==> InjectNamespaceConditional(key, inject)(d) == inject(d)
  {
  }

  /** An annotation value other than "true" does not preserve: "True" and "yes" are injected into. */
  lemma PreserveNeedsExactTrue(key: string, d: Doc)
    requires key in d.annotations && d.annotations[key] in {"True", "yes", "false", ""}
    ensures !Preserves(key, d)
  {
  }

  /** A Deployment in "openshift", optionally annotated to keep its namespace. */
  function OpenshiftDeployment(preserve: bool): Doc
  {
    Doc("apps/v1", Some("Deployment"), "test", "openshift", map[],
      if preserve then map[PreserveNamespace := "true"] else map[], [], None, None, map[])
  }

  /** The namespace injector into "target" of the older manifestival library, lifted to the error-returning signature. */
  function IntoTarget(): Manifestival.Transformer
  {
    (d: Doc) => Manifestival.Rewritten(if ToLower(d.Kind()) == "namespace" || IsClusterScoped(d.Kind()) then d else d.(namespace := "target"))
  }

  /** With the preserve annotation the namespace stays "openshift"; without it it becomes "target". */
  lemma InjectNamespaceConditionalExamples()
    ensures InjectNamespaceConditional(PreserveNamespace, IntoTarget())(OpenshiftDeployment(true)).value.namespace == "openshift"
    ensures InjectNamespaceConditional(PreserveNamespace, IntoTarget())(OpenshiftDeployment(false)).value.namespace == "target"
  {
    assert ToLower("Deployment") == "deployment";
    assert !IsClusterScoped("Deployment");
  }

  /**
   `Kind(from, to)`: a document without a string kind is an error; one whose
   kind is exactly `from` gets kind `to`; any other is returned unchanged.
   */
  function KindDoc(from: string, to: string, d: Doc): (r: Result<Doc>)
    ensures r.Fail? <==> d.rawKind.None?
    ensures r.Ok? && d.Kind() != from ==> r.value == d
    ensures r.Ok? && d.Kind() == from ==> r.value == d.(rawKind := Some(to)) && r.value.Kind() == to
  {
    match d.rawKind
    case None => Fail(Error(Other, "cound not get resource KIND, %!q(<nil>)"))
    case Some(k) => if k != from then Ok(d) else Ok(d.(rawKind := Some(to)))
  }

  function Kind(from: string, to: string): Manifestival.Transformer
  {
    d => Manifestival.Lift(KindDoc(from, to, d))
  }

  /** When `from` and `to` differ, renaming twice is renaming once and no document of kind `from` remains. */
  lemma KindIdempotent(from: string, to: string, d: Doc)
    requires from != to
    requires KindDoc(from, to, d).Ok?
    ensures KindDoc(from, to, KindDoc(from, to, d).value) == KindDoc(from, to, d)
    ensures KindDoc(from, to, d).value.Kind() != from
  {
  }
}

=== FILE: unstructured.dfy ===
/**
 Resource documents. The Go code handles every manifest entry as an
 `unstructured.Unstructured`, a JSON object with path-based accessors. The
 model keeps the fields the core reads or writes as typed record fields and
 everything else in `body`, an untyped JSON-like object that passes through
 untouched. `Content` renders a document back to one JSON-like object, which
 is what the cluster stores and what `UpdateChanged` merges.
 */
module Unstructured {
  import opened Common

  /** A JSON value as decoded into Go's `interface{}`. */
  datatype Value =
    | Null
    | Str(s: string)
    | Int(i: int)
    | Bool(b: bool)
    | List(items: seq<Value>)
    | Obj(fields: map<string, Value>)

  /** A decoded JSON object, Go's `map[string]interface{}`. */
  type Object = map<string, Value>

  /** One entry of `metadata.ownerReferences`. */
  datatype OwnerRef = OwnerRef(
    apiVersion: string, kind: string, name: string, uid: string,
    controller: bool, blockOwnerDeletion: bool)

  /** The custom resource that owns what the operator installs. */
  datatype Owner = Owner(apiVersion: string, kind: string, name: string, namespace: string, uid: string)

  /** `v1.NewControllerRef(owner, owner.GroupVersionKind())`. */
  function ControllerRef(owner: Owner): OwnerRef
  {
    OwnerRef(owner.apiVersion, owner.kind, owner.name, owner.uid, true, true)
  }

  /** One entry of a (Cluster)RoleBinding's `subjects`; `namespace` is None when the key is absent. */
  datatype Subject = Subject(kind: string, name: string, namespace: Option<string>)

  /**
   A resource document. `rawKind` is None when the document has no string
   `kind`; `subjects` is None when it has no `subjects` field or a null one;
   `data` is None when it has no `data` object (Go reads that as a nil map).
   An empty namespace, label map, annotation map or owner list stands for a
   field the document does not set.
   */
  datatype Doc = Doc(
    apiVersion: string,
    rawKind: Option<string>,
    name: string,
    namespace: string,
    labels: map<string, string>,
    annotations: map<string, string>,
    ownerRefs: seq<OwnerRef>,
    subjects: Option<seq<Subject>>,
    data: Option<map<string, string>>,
    body: Object)
  {
    /** `GetKind()`: the kind, or "" when there is none. */
    function Kind(): string
    {
      rawKind.GetOr("")
    }
  }

  /**
   What a filter predicate returns: whether to keep the document, and the
   document as the predicate left it (the Go predicates receive a pointer
   and may rewrite what they inspect).
   */
  datatype Verdict = Verdict(keep: bool, doc: Doc)

  /** Where the API server files a document: kind, namespace and name. */
  datatype Key = Key(kind: string, namespace: string, name: string)

  function KeyOf(d: Doc): Key
  {
    Key(d.Kind(), d.namespace, d.name)
  }

  function StrMap(m: map<string, string>): Value
  {
    Obj(map k | k in m :: Str(m[k]))
  }

  function RefValue(r: OwnerRef): Value
  {
    Obj(map["apiVersion" := Str(r.apiVersion), "kind" := Str(r.kind), "name" := Str(r.name),
            "uid" := Str(r.uid), "controller" := Bool(r.controller),
            "blockOwnerDeletion" := Bool(r.blockOwnerDeletion)])
  }

  function SubjectValue(s: Subject): Value
  {
    var m := map["kind" := Str(s.kind), "name" := Str(s.name)];
    Obj(if s.namespace.Some? then m["namespace" := Str(s.namespace.value)] else m)
  }

  /** `m` with `k` set to `v` when `cond` holds, and `m` itself otherwise. */
  function PutIf(m: Object, cond: bool, k: string, v: Value): (r: Object)
    ensures r.Keys == if cond then m.Keys + {k} else m.Keys
    ensures forall j :: j in m && j != k ==> r[j] == m[j]
  {
    if cond then m[k := v] else m
  }

  function RefsValue(refs: seq<OwnerRef>): Value
  {
    List(seq(|refs|, i requires 0 <= i < |refs| => RefValue(refs[i])))
  }

  function SubjectsValue(ss: seq<Subject>): Value
  {
    List(seq(|ss|, i requires 0 <= i < |ss| => SubjectValue(ss[i])))
  }

  /** The `metadata` object of a document: its name, and whichever of the other fields it sets. */
  function Metadata(d: Doc): (r: Object)
    ensures "name" in r
    ensures "namespace" in r <==> d.namespace != ""
    ensures "ownerReferences" in r <==> |d.ownerRefs| > 0
  {
    var m0 := map["name" := Str(d.name)];
    var m1 := PutIf(m0, d.namespace != "", "namespace", Str(d.namespace));
    var m2 := PutIf(m1, |d.labels| > 0, "labels", StrMap(d.labels));
    var m3 := PutIf(m2, |d.annotations| > 0, "annotations", StrMap(d.annotations));
    PutIf(m3, |d.ownerRefs| > 0, "ownerReferences", RefsValue(d.ownerRefs))
  }

  /**
   The document as the JSON object sent to and stored by the API server.
   Fields the document does not set are left out, as the unstructured
   setters remove a field set to its empty value, so that a merge of the
   document into a live object never touches them.
   */
  function Content(d: Doc): (r: Object)
    ensures "metadata" in r && r["metadata"] == Obj(Metadata(d))
    ensures "subjects" in r <==> d.subjects.Some? || "subjects" in d.body
    ensures d.subjects.Some? ==> r["subjects"] == SubjectsValue(d.subjects.value)
  {
    d.body + Fields(d)
  }

  /** The top-level fields the document itself sets, which take precedence over its body. */
  function Fields(d: Doc): (r: Object)
    ensures "metadata" in r && r["metadata"] == Obj(Metadata(d))
    ensures "subjects" in r <==> d.subjects.Some?
    ensures d.subjects.Some? ==> r["subjects"] == SubjectsValue(d.subjects.value)
  {
    var t0 := map["apiVersion" := Str(d.apiVersion), "metadata" := Obj(Metadata(d))];
    var t1 := PutIf(t0, d.subjects.Some?, "subjects", SubjectsValue(d.subjects.GetOr([])));
    var t2 := PutIf(t1, d.rawKind.Some?, "kind", Str(d.Kind()));
    PutIf(t2, d.data.Some?, "data", StrMap(d.data.GetOr(map[])))
  }


  /**
   Kinds the manifestival library treats as cluster-scoped, written in lower
   case; the same twenty-entry list appears in its transform, filter and yaml
   sources.
   */
  const ClusterScopedKinds: set<string> := {
    "componentstatus", "namespace", "node", "persistentvolume",
    "mutatingwebhookconfiguration", "validatingwebhookconfiguration",
    "customresourcedefinition", "apiservice", "meshpolicy", "tokenreview",
    "selfsubjectaccessreview", "selfsubjectrulesreview", "subjectaccessreview",
    "certificatesigningrequest", "podsecuritypolicy", "clusterrolebinding",
    "clusterrole", "priorityclass", "storageclass", "volumeattachment"
  }

  /** `isClusterScoped`: case-insensitive membership in the fixed list. */
  predicate IsClusterScoped(kind: string)
  {
    ToLower(kind) in ClusterScopedKinds
  }

  /** Membership ignores case: a kind and its lower-cased form always agree. */
  lemma ClusterScopeIgnoresCase(kind: string)
    ensures IsClusterScoped(kind) <==> IsClusterScoped(ToLower(kind))
  {
    ToLowerIdempotent(kind);
  }

  /** Namespaces are cluster-scoped whatever their case; Deployments are not. */
  lemma ClusterScopedExamples()
    ensures IsClusterScoped("Namespace") && IsClusterScoped("namespace")
    ensures !IsClusterScoped("Deployment")
  {
    assert ToLower("Namespace") == "namespace";
    assert ToLower("namespace") == "namespace";
    assert ToLower("Deployment") == "deployment";
  }

  /** Kinds the Operator Lifecycle Manager owns, in lower case. */
  const OlmKinds: set<string> := {
    "namespace", "role", "rolebinding", "clusterrole", "clusterrolebinding",
    "customresourcedefinition", "serviceaccount"
  }

  /** `isManagedByOLM` and the negation of `ByOLM`: case-insensitive membership. */
  predicate IsManagedByOlm(kind: string)
  {
    ToLower(kind) in OlmKinds
  }

  /** A group and version as parsed from an `apiVersion` string. */
  datatype GroupVersion = GroupVersion(group: string, version: string)

  function CountChar(s: string, c: char): nat
  {
    if |s| == 0 then 0 else (if s[0] == c then 1 else 0) + CountChar(s[1..], c)
  }

  function IndexOf(s: string, c: char): (i: nat)
    ensures i <= |s|
    ensures i < |s| ==> s[i] == c
    ensures forall j :: 0 <= j < i ==> s[j] != c
  {
    if |s| == 0 then 0 else if s[0] == c then 0 else 1 + IndexOf(s[1..], c)
  }

  /**
   apimachinery's `schema.ParseGroupVersion`: "" and "/" give the empty
   group-version, a string without '/' is a bare version, one '/' separates
   group and version, more than one is an error.
   */
  function ParseGroupVersion(gv: string): (r: Result<GroupVersion>)
    ensures r.Fail? <==> gv != "" && gv != "/" && CountChar(gv, '/') > 1
    ensures CountChar(gv, '/') == 0 && gv != "" ==> r == Ok(GroupVersion("", gv))
  {
    if gv == "" || gv == "/" then Ok(GroupVersion("", ""))
    else if CountChar(gv, '/') == 0 then Ok(GroupVersion("", gv))
    else if CountChar(gv, '/') == 1 then
      var i := IndexOf(gv, '/');
      Ok(GroupVersion(gv[..i], if i < |gv| then gv[i + 1..] else ""))
    else Fail(Error(Other, "unexpected GroupVersion string: " + gv))
  }

  /** A group, version and kind. */
  datatype Gvk = Gvk(group: string, version: string, kind: string)

  /**
   `u.GroupVersionKind()`: the parsed apiVersion with the kind; an apiVersion
   that does not parse gives the empty group-version-kind.
   */
  function GvkOf(d: Doc): (r: Gvk)
    ensures ParseGroupVersion(d.apiVersion).Ok? ==> r.kind == d.Kind()
    ensures ParseGroupVersion(d.apiVersion).Fail? ==> r == Gvk("", "", "")
  {
    match ParseGroupVersion(d.apiVersion)
    case Ok(gv) => Gvk(gv.group, gv.version, d.Kind())
    case Fail(_) => Gvk("", "", "")
  }

  /** `fmt.Sprint` of a group-version-kind: "group/version, Kind=kind". */
  function GvkText(d: Doc): string
  {
    var g := GvkOf(d);
    g.group + "/" + g.version + ", Kind=" + g.kind
  }
}

=== FILE: yaml_manifest.dfy ===
/**
 `YamlManifest`, the older manifest type of the jcrossley3 library: it reads
 documents (optionally dropping OLM-managed kinds and Namespaces), creates
 what is missing without ever updating, and deletes in reverse order through
 a dynamic client chosen from each document's group, version and kind.
 */
module YamlManifest {
  import opened Common
  import opened Unstructured
  import Cluster
  import LegacyManifest

  /**
   `pluralize`: the resource name of a kind. Lower-case it, then "es" after a
   final "s", "ies" in place of the "y" of a final "policy", "s" otherwise.
   */
  function Pluralize(kind: string): (r: string)
    ensures HasSuffix(r, "s")
    ensures ToLower(r) == r
    ensures HasSuffix(ToLower(kind), "s") ==> r == ToLower(kind) + "es"
    ensures !HasSuffix(ToLower(kind), "s") && HasSuffix(ToLower(kind), "policy") ==>
      r == ToLower(kind)[..|kind| - 1] + "ies"
    ensures !HasSuffix(ToLower(kind), "s") && !HasSuffix(ToLower(kind), "policy") ==> r == ToLower(kind) + "s"
  {
    var ret := ToLower(kind);
    ToLowerIdempotent(kind);
    if HasSuffix(ret, "s") then
      ToLowerAppend(ret, "es");
      ret + "es"
    else if HasSuffix(ret, "policy") then
      ToLowerPrefix(ret, |ret| - 1);
      ToLowerAppend(ret[..|ret| - 1], "ies");
      ret[..|ret| - 1] + "ies"
    else
      ToLowerAppend(ret, "s");
      ret + "s"
  }

  /** Two kinds that differ only in letter case are filed under the same resource name. */
  lemma PluralizeIgnoresCase(a: string, b: string)
    requires ToLower(a) == ToLower(b)
    ensures Pluralize(a) == Pluralize(b)
  {
    assert |a| == |ToLower(a)| == |ToLower(b)| == |b|;
  }


  /** A kind with no special ending gets "s": Deployment is filed as deployments. */
  lemma PluralizeDeployment()
    ensures Pluralize("Deployment") == "deployments"
  {
    var ret := ToLower("Deployment");
    assert ret == "deployment";
    assert ret[|ret| - 1..] == "t";
    assert ret[|ret| - 6..] == "oyment";
  }

  /** A kind ending in "policy" trades its "y" for "ies". */
  lemma PluralizePolicy()
    ensures Pluralize("PodSecurityPolicy") == "podsecuritypolicies"
  {
    var ret := ToLower("PodSecurityPolicy");
    assert ret == "podsecuritypolicy";
    assert ret[|ret| - 1..] == "y";
    assert ret[|ret| - 6..] == "policy";
  }

  /** A kind ending in "s" gets "es". */
  lemma PluralizeIngress()
    ensures Pluralize("Ingress") == "ingresses"
  {
    var ret := ToLower("Ingress");
    assert ret == "ingress";
    assert ret[|ret| - 1..] == "s";
  }

  /** True when `parse` keeps a decoded document under the two command-line flags. */
  predicate Admitted(olm: bool, denamespace: bool, d: Doc)
  {
    !(olm && IsManagedByOlm(d.Kind())) && !(denamespace && ToLower(d.Kind()) == "namespace")
  }

  /**
   `parse`'s filtering of the decoded stream: OLM-managed kinds go when
   `olm` is set, Namespaces go when `override-namespace` is set, the rest
   stays in order.
   */
  function ParseFilter(olm: bool, denamespace: bool, docs: seq<Doc>): (r: seq<Doc>)
    ensures forall d :: d in r <==> d in docs && Admitted(olm, denamespace, d)
    ensures !olm && !denamespace ==> r == docs
    ensures |docs| > 0 ==> r == (if Admitted(olm, denamespace, docs[0]) then [docs[0]] else []) + ParseFilter(olm, denamespace, docs[1..])
  {
    if |docs| == 0 then []
    else
      assert docs == [docs[0]] + docs[1..];
      (if Admitted(olm, denamespace, docs[0]) then [docs[0]] else []) + ParseFilter(olm, denamespace, docs[1..])
  }

  /** A group, version and plural resource name: what the dynamic client addresses. */
  datatype Resource = Resource(group: string, version: string, plural: string, namespace: string)

  /**
   `client`: the resource a document lives under, or the apiVersion parse
   error. A document with no namespace addresses the cluster-wide resource.
   */
  function Client(d: Doc): (r: Result<Resource>)
    ensures r.Fail? <==> ParseGroupVersion(d.apiVersion).Fail?
    ensures r.Ok? ==> r.value.plural == Pluralize(d.Kind()) && r.value.namespace == d.namespace
  {
    match ParseGroupVersion(d.apiVersion)
    case Fail(e) => Fail(e)
    case Ok(gv) => Ok(Resource(gv.group, gv.version, Pluralize(d.Kind()), d.namespace))
  }

  /**
   What `Apply` does to a document before sending it: a namespaced kind gets
   the owner's controller reference and, under `override-namespace`, the
   owner's namespace; a cluster-scoped kind is sent as written.
   */
  function Prepare(owner: Owner, denamespace: bool, d: Doc): (r: Doc)
    ensures IsClusterScoped(d.Kind()) ==> r == d
    ensures !IsClusterScoped(d.Kind()) ==> r.ownerRefs == [ControllerRef(owner)]
    ensures r.namespace == (if !IsClusterScoped(d.Kind()) && denamespace then owner.namespace else d.namespace)
    ensures r == d.(ownerRefs := r.ownerRefs, namespace := r.namespace)
  {
    if IsClusterScoped(d.Kind()) then d
    else d.(ownerRefs := [ControllerRef(owner)], namespace := if denamespace then owner.namespace else d.namespace)
  }

  /** True when every call after the first `n` is a read or a create. */
  predicate CreatesOnly(calls: seq<Cluster.Call>, n: nat)
  {
    forall i :: n <= i < |calls| ==> calls[i].verb == Cluster.GetVerb || calls[i].verb == Cluster.CreateVerb
  }

  /**
   One document of `Apply`: an existing object is left as it is, a missing
   one is created, AlreadyExists reads as success, every other error is
   returned.
   */
  function ApplyOne(c: Cluster.State, owner: Owner, denamespace: bool, d: Doc): (r: (Cluster.State, Option<Error>))
    ensures r.0.faults == c.faults
    ensures c.calls <= r.0.calls && CreatesOnly(r.0.calls, |c.calls|)
    ensures forall k :: k in c.objects ==> k in r.0.objects && r.0.objects[k] == c.objects[k]
    ensures r.0.objects.Keys <= c.objects.Keys + {KeyOf(Prepare(owner, denamespace, d))}
    ensures Client(d).Fail? ==> r == (c, Some(Client(d).error))
    ensures Client(d).Ok? && Cluster.NoFaults(c, {KeyOf(Prepare(owner, denamespace, d))}) ==>
      r.1.None? && KeyOf(Prepare(owner, denamespace, d)) in r.0.objects
  {
    var spec := Prepare(owner, denamespace, d);
    var k := KeyOf(spec);
    assert spec.apiVersion == d.apiVersion && spec.Kind() == d.Kind();
    match Client(spec)
    case Fail(e) => (c, Some(e))
    case Ok(_) => CreateIfAbsent(c, k, Content(spec))
  }

  /**
   The server calls of one document: read the key, and create the object
   only when the read says NotFound; AlreadyExists from the create reads as
   success.
   */
  function CreateIfAbsent(c: Cluster.State, k: Key, o: Object): (r: (Cluster.State, Option<Error>))
    ensures r.0.faults == c.faults
    ensures c.calls <= r.0.calls && CreatesOnly(r.0.calls, |c.calls|)
    ensures forall k' :: k' in c.objects ==> k' in r.0.objects && r.0.objects[k'] == c.objects[k']
    ensures r.0.objects.Keys <= c.objects.Keys + {k}
    ensures Cluster.NoFaults(c, {k}) ==> r.1.None? && k in r.0.objects
  {
    var got := Cluster.Get(c, k);
    if got.1.Ok? then (got.0, None)
    else if got.1.error.reason != NotFound then (got.0, Some(got.1.error))
    else
      var created := Cluster.Create(got.0, k, o);
      if created.1.Some? && created.1.value.reason == AlreadyExists then (created.0, None)
      else (created.0, created.1)
  }

  /**
   `Apply`: every document in order, stopping at the first error. It never
   updates or deletes: objects already on the server keep their content.
   */
  function Apply(c: Cluster.State, owner: Owner, denamespace: bool, docs: seq<Doc>): (r: (Cluster.State, Option<Error>))
    ensures r.0.faults == c.faults
    ensures c.calls <= r.0.calls && CreatesOnly(r.0.calls, |c.calls|)
    ensures forall k :: k in c.objects ==> k in r.0.objects && r.0.objects[k] == c.objects[k]
    ensures r.1.None? && Cluster.NoFaults(c, Cluster.Keys(PrepareAll(owner, denamespace, docs))) ==>
      Cluster.Keys(PrepareAll(owner, denamespace, docs)) <= r.0.objects.Keys
    decreases |docs|
  {
    if |docs| == 0 then (c, None)
    else
      var first := ApplyOne(c, owner, denamespace, docs[0]);
      if first.1.Some? then first
      else
        var rest := Apply(first.0, owner, denamespace, docs[1..]);
        PrepareAllCons(owner, denamespace, docs);
        CreatesOnlyTrans(c.calls, first.0.calls, rest.0.calls);
        CreatedStep(c, first.0, rest.0, KeyOf(Prepare(owner, denamespace, docs[0])),
          Cluster.Keys(PrepareAll(owner, denamespace, docs[1..])), rest.1.None?);
        rest
  }

  /**
   A first write that creates its key when that key has no fault, followed
   by writes that keep every object and, when they succeed, create theirs,
   creates all of them.
   */
  lemma CreatedStep(c: Cluster.State, first: Cluster.State, rest: Cluster.State, k: Key, ks: set<Key>, ok: bool)
    requires first.faults == c.faults
    requires Cluster.NoFaults(c, {k}) ==> k in first.objects
    requires forall k' :: k' in first.objects ==> k' in rest.objects
    requires ok && Cluster.NoFaults(first, ks) ==> ks <= rest.objects.Keys
    ensures ok && Cluster.NoFaults(c, {k} + ks) ==> {k} + ks <= rest.objects.Keys
  {
  }

  /** Two stretches of GET and CREATE calls in a row are one such stretch. */
  lemma CreatesOnlyTrans(a: seq<Cluster.Call>, b: seq<Cluster.Call>, c: seq<Cluster.Call>)
    requires a <= b && CreatesOnly(b, |a|)
    requires b <= c && CreatesOnly(c, |b|)
    ensures a <= c && CreatesOnly(c, |a|)
  {
    forall i | |a| <= i < |b|
      ensures c[i] == b[i]
    {
    }
  }

  function PrepareAll(owner: Owner, denamespace: bool, docs: seq<Doc>): (r: seq<Doc>)
    ensures |r| == |docs| && forall i :: 0 <= i < |docs| ==> r[i] == Prepare(owner, denamespace, docs[i])
  {
    seq(|docs|, i requires 0 <= i < |docs| => Prepare(owner, denamespace, docs[i]))
  }

  lemma PrepareAllCons(owner: Owner, denamespace: bool, docs: seq<Doc>)
    requires |docs| > 0
    ensures Cluster.Keys(PrepareAll(owner, denamespace, docs)) ==
      {KeyOf(Prepare(owner, denamespace, docs[0]))} + Cluster.Keys(PrepareAll(owner, denamespace, docs[1..]))
  {
    var all := PrepareAll(owner, denamespace, docs);
    assert all == [all[0]] + PrepareAll(owner, denamespace, docs[1..]);
    Cluster.KeysAppend([all[0]], PrepareAll(owner, denamespace, docs[1..]));
    Cluster.KeysSingle(all[0]);
  }

  /**
   One document of `Delete`: a client error is returned; a read that says
   NotFound skips the document; otherwise it is deleted, NotFound on delete
   reading as success.
   */
  function DeleteOne(c: Cluster.State, d: Doc): (r: (Cluster.State, Option<Error>))
    ensures r.0.faults == c.faults
    ensures Client(d).Fail? ==> r == (c, Some(Client(d).error))
  {
    match Client(d)
    case Fail(e) => (c, Some(e))
    case Ok(_) =>
      var got := Cluster.Get(c, KeyOf(d));
      if got.1.Fail? && got.1.error.reason == NotFound then (got.0, None)
      else
        var deleted := Cluster.Delete(got.0, KeyOf(d));
        (deleted.0, IgnoreNotFound(deleted.1))
  }

  /**
   Once the client resolves, deleting one document here is exactly what the
   jcrossley3 `Manifest.Delete` does.
   */
  lemma DeleteOneAgrees(c: Cluster.State, d: Doc)
    requires Client(d).Ok?
    ensures DeleteOne(c, d) == LegacyManifest.Delete(c, d)
  {
  }

  /** `Delete`: every document in reverse order, stopping at the first error. */
  function Delete(c: Cluster.State, docs: seq<Doc>): (r: (Cluster.State, Option<Error>))
    ensures r.0.faults == c.faults
    ensures r.1.None? ==> forall i :: 0 <= i < |docs| ==> Client(docs[i]).Ok?
    decreases |docs|
  {
    if |docs| == 0 then (c, None)
    else
      var last := docs[|docs| - 1];
      var init := docs[..|docs| - 1];
      var first := DeleteOne(c, last);
      if first.1.Some? then first
      else
        var rest := Delete(first.0, init);
        assert rest.1.None? ==> forall i :: 0 <= i < |docs| ==> Client(docs[i]).Ok? by {
          if rest.1.None? {
            forall i | 0 <= i < |docs| ensures Client(docs[i]).Ok? {
              if i < |init| {
                assert init[i] == docs[i];
              }
            }
          }
        }
        rest
  }

  /**
   When every document's client resolves, deleting through this manifest
   type is exactly the jcrossley3 `Manifest.Delete` loop.
   */
  lemma {:induction false} DeleteAgrees(c: Cluster.State, docs: seq<Doc>)
    requires forall i :: 0 <= i < |docs| ==> Client(docs[i]).Ok?
    ensures Delete(c, docs) == LegacyManifest.DeleteAll(c, docs)
    decreases |docs|
  {
    if |docs| > 0 {
      var last := docs[|docs| - 1];
      var init := docs[..|docs| - 1];
      DeleteOneAgrees(c, last);
      var first := DeleteOne(c, last);
      if first.1.None? {
        forall i | 0 <= i < |init| ensures Client(init[i]).Ok? {
          assert init[i] == docs[i];
        }
        DeleteAgrees(first.0, init);
      }
    }
  }

  /**
   With resolvable clients and no failing calls, `Delete` removes exactly
   the manifest's resources and reports no error.
   */
  lemma DeleteClean(c: Cluster.State, docs: seq<Doc>)
    requires forall i :: 0 <= i < |docs| ==> Client(docs[i]).Ok?
    requires Cluster.NoFaults(c, Cluster.Keys(docs))
    ensures Delete(c, docs).1.None?
    ensures Delete(c, docs).0.objects == c.objects - Cluster.Keys(docs)
  {
    DeleteAgrees(c, docs);
  }
}
